=== FILE: README.md ===
# Multi-zone heating/cooling controller — Dafny model

This project models the control core of a Raspberry Pi heating/cooling
controller. One Peltier element heats or cools the air for three rooms. Each
room has a temperature sensor with a target temperature and a servo-driven
register (damper). The model covers these parts:

- **The decision step** (`ProjectSystem`):
  - the direction-filtered error sum;
  - the damper policy of the auto cycle and its heating/cooling flip;
  - the target drift of the extreme cycle and the mode setups;
  - the sleep time between cycles;
  - the per-room errors;
  - the classification of one round of sensor readings, including the element's over-temperature trip;
  - `handle_cycle` both as written and as intended.
- **The operator command grammar** (`Commands`). A text line becomes an event. The outcome is one of Dispatch, Unassigned, Rejected or Crash, following the handler's `try`/`except`.
- **The event handler** (`EventHandling`): a FIFO queue with a lock flag, drained in sequence. What each event's `action` does to the state is in `SystemEvents`.
- **The actuators** (`ActiveComponents`, `Servos`):
  - the element's direction and enable setters, with the pin writes of `apply_state` in order;
  - `generate_target_vector`;
  - the register's `set_to_pos`;
  - the servo limit and timing helpers.
- **The sensors and values** (`Sensors`, `DataClasses`):
  - room error and element limit checks;
  - the `Temperature` type with its Fahrenheit view and its arithmetic;
  - the configuration parameter dictionaries.
- **Small pure helpers**:
  - the linear interpolation table (`LinearInterpolation`);
  - the 1-Wire reading parser and path and id helpers (`PiSensors`);
  - the Bluetooth packet chunker (`BtChunker`);
  - the log time-window filter (`DataRetrieval`);
  - the log directory builder (`CustomLogger`).

The model is functional. Immutable datatypes are threaded through pure functions.

- **State.** The controller state is one record: the element, dampers and targets keyed by room id, the mode and the cycle period (`SystemState`).
- **Dicts.** Python dicts are insertion-ordered association lists (`PyDict`), because the order of the damper loop decides which dampers are commanded before a KeyError.
- **Exceptions.** A raised exception is a `Raise(error)` value (`Outcomes`).
- **Python built-ins.** `str.split`, `strip`, `find`, slicing, negative indexing, `int()` and `float()` are modelled in `PyStr`.
- **Temperatures** are exact reals.
- **Hardware and I/O.** GPIO pins are a pair of levels, and a damper's state is the last command it received. File contents, pin levels, the directories that exist and sensor readings are all parameters.
- **Damper calls.** `RegisterFlowController` defines no `open_register`, `close_register`, `rotate_to_angle` or `apply_duty`, so every call to them raises AttributeError as written. The model repairs these calls: each one records the command it asks for (see "## Left out").

Some quirks of the code are kept as written and proved as lemmas:

- the `cooling` getter returns the heating flag;
- `except OverTemperature or UnderTemperature` catches only `OverTemperature`;
- no `system` command gets through. `start`, `stop` and the three known operation modes pass an argument to an event whose inherited `__init__` takes none, so they raise TypeError; any other mode is refused;
- `Temperature.__add__` subtracts;
- a `Line`'s intercept is `y2`;
- the Bluetooth chunker drops the last byte of every packet-sized slot, because each slice ends at `(i + 1) * size - 1` (`BtChunker.SlotEndDropped`);
- the active-components servo's limits (high 0.2, low 0.4) admit no duty cycle at all.

The code's own comments (for example at system/project_system.py:555, 560 and 565) describe several behaviours that the code does not have. The model follows the code on each point:

- **Damper policy.** In cooling mode the damper policy does not look at the room's error: every damper opens, because the `cooling` test reads the heating flag (`ProjectSystem.DamperPolicyIgnoresError`).
- **Direction flip.** The heating/cooling flip after a zero error sum is a no-op (`heating = cooling`). The direction never changes; only the pins are rewritten (`ProjectSystem.AutoCycleKeepsDirection`).
- **Missing readings.** A room with no reading is not skipped: the damper loop raises KeyError (`ProjectSystem.AutoCycleMissingRoom`).
- **Under-temperature.** An under-temperature element reading does not disable the element. It escapes the classification (`ProjectSystem.OnlyOverTemperatureIsCaught`).
- **Order within a cycle.** The dampers are commanded before the direction decision, not after it.
- **Bad commands.** A malformed command can escape the handler with IndexError, ValueError, NameError or TypeError rather than being discarded.
- **Element and status commands.** There are no element commands: the element events are not defined. `room N get status` sends no reply.
- **Locking.** The handler's lock guards only the event drain, not the cycle.

## Model

| member | source | states |
|---|---|---|
| DataClasses.Fahrenheit | data_handling/data_classes.py:34-36 | converting the Fahrenheit reading back with `(f - 32) * 5 / 9` gives the stored Celsius value |
| DataClasses.Gt | data_handling/data_classes.py:20-21 | `a > b` holds exactly when `b < a`, and never for equal temperatures |
| DataClasses.Lt | data_handling/data_classes.py:23-24 | `a < b` compares the Celsius readings, so it holds exactly when `a`'s Fahrenheit reading is below `b`'s, and never for equal temperatures |
| DataClasses.SetFahrenheit | data_handling/data_classes.py:38-40 | storing a Fahrenheit value and reading Fahrenheit back gives that value |
| DataClasses.SetCelsius | data_handling/data_classes.py:30-32 | the `celsius` setter stores the value unchanged |
| DataClasses.Sub | data_handling/data_classes.py:17-18 | `a - b` is the temperature that added to `b` gives `a` |
| DataClasses.Add | data_handling/data_classes.py:14-15 | `a + b` as written is the same temperature as `a - b` |
| DataClasses.FahrenheitRoundTrip | data_handling/data_classes.py:30-40 | each setter and its getter round-trip in both directions, and converting a temperature to Fahrenheit and back returns it |
| DataClasses.FahrenheitOfSample | tests/test_data_classes.py:5-12 | 19.56 degrees Celsius reads as 67.208 degrees Fahrenheit |
| DataClasses.MinusFortyFixedPoint | tests/test_data_classes.py:14-23 | -40 reads the same on both scales whichever setter is used, and it is the only such value |
| DataClasses.FahrenheitMonotone | data_handling/data_classes.py:34-36 | one temperature is below another exactly when its Fahrenheit reading is |
| DataClasses.AddSubtracts | data_handling/data_classes.py:14-18 | `+` subtracts: adding a positive amount lowers the reading, and `+` commutes only on equal operands |
| DataClasses.OrderingStrict | data_handling/data_classes.py:20-24 | `>` and `<` are irreflexive, never both true, mirror each other, and both are false only on equal temperatures |
| DataClasses.BaseParams | data_handling/data_classes.py:58-61 | the base configuration exposes no parameters |
| DataClasses.LimitParams | data_handling/data_classes.py:81-86 | a limit configuration exposes exactly `max` and `min`, holding its two limits |
| DataClasses.RoomParams | data_handling/data_classes.py:94-98 | a room configuration exposes exactly `ideal_temperature` |
| DataClasses.LimitFromParams | data_handling/data_classes.py:74-79 | building a limit configuration from keyword parameters succeeds exactly when the keys are `max` and `min`; any other key set is a TypeError |
| DataClasses.RoomFromParams | data_handling/data_classes.py:88-92 | building a room configuration succeeds exactly when the only key is `ideal_temperature`; anything else is a TypeError |
| DataClasses.ParamsRoundTrip | data_handling/data_classes.py:63-71 | constructing a configuration from its own parameters gives it back |
| Sensors.NewTargetSensor | system/sensors.py:51-53 | a room sensor keeps the target it was built with |
| Sensors.NewElementSensor | system/sensors.py:66-69 | an element sensor keeps the limits it was built with |
| Sensors.TemperatureError | system/sensors.py:55-56 | the error is the reading minus the target: positive exactly when the room is warmer than its target, negative exactly when colder |
| Sensors.CheckTemperatureLimits | system/sensors.py:71-85 | the limit check reports OverTemperature, UnderTemperature or nothing |
| Sensors.CheckTemperatureLimitsOutcomes | system/sensors.py:79-85 | OverTemperature exactly above the maximum; UnderTemperature exactly when not above the maximum and below the minimum; nothing exactly within the closed range |
| Sensors.ElementLimitsAreInclusive | system/system_constants.py:4-5 | with the 65 and -20 degree limits, both limits pass, anything warmer than 65 trips over and anything colder than -20 trips under |
| ActiveComponents.SetHeating | system/active_components.py:135-138 | assigning `heating` sets the heating flag and the opposite cooling flag, touching neither pins nor enabled |
| ActiveComponents.SetCooling | system/active_components.py:144-147 | assigning `cooling` sets the cooling flag and the opposite heating flag |
| ActiveComponents.CoolingGetterReadsHeating | system/active_components.py:140-142 | the `cooling` getter answers the heating flag, so after `cooling = v` it reads `not v` |
| ActiveComponents.HeatingFromCoolingIsNoOp | system/active_components.py:136-142 | `heating = cooling` changes nothing on an element whose flags agree |
| ActiveComponents.ApplyState | system/active_components.py:160-181 | afterwards exactly the active direction's pin is high when enabled, and no pin when disabled; the flags are unchanged |
| ActiveComponents.ApplyStateNeverBothHigh | system/active_components.py:167-181 | the pin that must be off is written low first, and neither the intermediate nor the final pin state has both pins high |
| ActiveComponents.SetEnabled | system/active_components.py:153-158 | disabling drives both pins low at once; enabling writes no pin |
| ActiveComponents.DisablingDrivesPinsLow | system/active_components.py:153-158 | after `enabled = False` both pins are low and no intermediate state had both high; `enabled = True` leaves the pins alone |
| ActiveComponents.NewElement | system/active_components.py:122-129 | a new element has the requested direction, is disabled and has both pins low |
| ActiveComponents.GenerateTargetVector | system/active_components.py:183-204 | the target vector changes the direction only, never the pins or the enabled flag |
| ActiveComponents.GenerateTargetVectorDirection | system/active_components.py:195-204 | a positive delta sum heats, a negative one cools, and a zero sum leaves the element unchanged |
| ActiveComponents.SumAppend | system/active_components.py:195 | the summed deltas split over any partition of the rooms |
| ActiveComponents.SetToPos | system/active_components.py:378-405 | a new angle in 0..180 becomes the last position with a duty cycle in [0.05, 0.10]; a repeated or out-of-range angle changes nothing |
| ActiveComponents.NewFlowController | system/active_components.py:361-376 | a new register is left at 90 degrees with duty cycle 0.075 |
| ActiveComponents.SetToPosInverse | system/active_components.py:384-401 | the duty cycle written determines the angle, grows with the angle, and repeating a move is a no-op |
| Servos.NewServo | system/servo_test.py:43-60 | the angle-to-duty line rises by `max_duty - min_duty` over 90 degrees and has intercept `max_duty`; the servo keeps its limits and starts at duty 0 |
| Servos.VerifyPwmWithinLimits | system/servo_test.py:97-106 | a duty cycle passes only strictly between the low and high limits, so only limits with low below high pass anything |
| Servos.GetAnglePwm | system/servo_test.py:86-95 | the duty cycle is the line's intercept plus its slope times the angle |
| Servos.ApplyDuty | system/servo_test.py:108-112 | a duty cycle within the limits is applied; any other leaves the servo unchanged |
| Servos.GetTimeToAdjust | system/servo_test.py:114-124 | the move time is non-negative and is the angle difference over 90 degrees per second |
| Servos.ActiveLimitsRefuseEveryDuty | system/active_components.py:276-284 | with high 0.2 below low 0.4 no duty cycle passes the check, so `apply_duty` never changes the servo |
| Servos.TestLimitsAcceptOpenUnitInterval | system/servo_test.py:97-112 | the bench-test limits accept exactly the duty cycles strictly between 0 and 1, and only those are applied |
| Servos.TimeToAdjustMetric | system/active_components.py:286-296 | the move time is symmetric, zero exactly for no move, and additive through an intermediate angle |
| Servos.AnglePwmEndpoints | system/servo_test.py:86-95 | angle 0 asks for `max_duty`, angle 90 for `2 * max_duty - min_duty`, and the duty grows with the angle when `min_duty < max_duty` |
| LinearInterpolation.MakeLine | data_handling/linear_interpolation.py:17-22 | equal x values divide by zero; otherwise the slope fits the two points and the intercept is `y2` |
| LinearInterpolation.LineAffine | data_handling/linear_interpolation.py:24-26 | the difference of two line values is the slope times the difference of the arguments, and the value at 0 is the intercept |
| LinearInterpolation.LineThroughSecondPointOnlyAtZero | data_handling/linear_interpolation.py:17-26 | the line passes through `(0, y2)`; when `y1 != y2` it passes through its second point only when `x2 == 0`, and when `y1 == y2` it is flat and passes through both points |
| LinearInterpolation.Slopes | data_handling/linear_interpolation.py:45-48 | one slope per consecutive pair, as many as the shorter list allows, each fitting its segment |
| LinearInterpolation.MakeInterpolate | data_handling/linear_interpolation.py:34-48 | the table is built exactly when the x values strictly ascend, otherwise ValueError; it keeps both lists and their segment slopes |
| LinearInterpolation.LookupAsWritten | data_handling/linear_interpolation.py:50-66 | as written a lookup returns one of the stored y values or raises TypeError or IndexError; it never computes a value between two points |
| LinearInterpolation.LookupNeverInterpolates | data_handling/linear_interpolation.py:59-66 | a float query anywhere inside a strictly ascending table raises TypeError, while the intended lookup at the same point succeeds |
| LinearInterpolation.HalfwayLookupFails | data_handling/linear_interpolation.py:59-66 | querying the two-point table at 0.5 raises TypeError, while the intended lookup gives 1.0 |
| LinearInterpolation.BisectLeft | data_handling/linear_interpolation.py:64 | the insertion point has every earlier entry below the query and the next entry at or above it |
| LinearInterpolation.InterpolateAt | data_handling/linear_interpolation.py:63-66 | the intended lookup can fail only with IndexError |
| LinearInterpolation.SegmentValueBetween | data_handling/linear_interpolation.py:65 | the segment formula stays between the segment's end values and meets the end value at the end |
| LinearInterpolation.InterpolateAtSegment | data_handling/linear_interpolation.py:64-65 | inside the table the intended lookup is the formula of the segment that holds the query |
| LinearInterpolation.InterpolateAtInside | data_handling/linear_interpolation.py:64-66 | inside the table the intended lookup succeeds, lies between its segment's end values and reads back stored points |
| SystemState.NewState | system/project_system.py:328-390 | a new system has dampers and targets for rooms 0, 1 and 2, each room holding its configured target and its damper at 90 degrees; it is in auto mode with the 0.2 s period, heats, is enabled only when asked, and drives the heating pin exactly when enabled |
| SystemEvents.Action | system/system_events.py:46-87 | an event's action never touches the element, the mode or the period, nor adds or removes a room; only a target update changes targets, and target updates and system events leave the dampers alone |
| SystemEvents.RunAll | event_system/event_handler.py:47-58 | running a batch of actions keeps the element, mode and period and the number of damper and target entries |
| SystemEvents.RunAllKeepsRooms | event_system/event_handler.py:47-58 | running a batch of actions keeps the set of rooms with a damper and with a target |
| SystemEvents.SetDamper | system/system_events.py:46-77 | a register command sets its room's damper entry and keeps the set of damper rooms, leaving the element, targets, mode and period alone; an unknown room changes nothing |
| SystemEvents.SetTarget | system/system_events.py:80-87 | a target update stores the new target for its room and keeps the set of target rooms, leaving the element, dampers, mode and period alone; an unknown room changes nothing |
| SystemEvents.RegisterEventsTouchOnlyTheirRoom | system/system_events.py:46-77 | open, close, rotate and PWM events give their room the matching command and leave the other rooms, the element and the targets unchanged |
| SystemEvents.TargetUpdateTouchesOnlyItsRoom | system/system_events.py:80-87 | a target update sets that room's target and keeps every other room's |
| SystemEvents.SystemEventsAreNoOps | system/system_events.py:8-37 | the system and mode events inherit the no-op action and change nothing |
| SystemEvents.LastDamperCommandWins | system/system_events.py:46-59 | close then open leaves the register open, and open then close leaves it closed |
| EventHandling.NewHandler | event_system/event_handler.py:14-17 | a new handler has an empty queue and a free lock |
| EventHandling.ProcessEventQueue | event_system/event_handler.py:45-58 | the drain takes the events from the head in order, runs each action exactly once, stops only at an empty queue and leaves the lock free |
| EventHandling.AddEvent | event_system/event_handler.py:24-37 | a new event joins the tail; with the lock free the queue is drained at once, and with it held the event waits and nothing runs |
| Commands.SystemCommand | system/project_system.py:166-187 | as written `system` never yields an event: the outcome is IndexError, InvalidCommand, or TypeError from building a start, stop or operation-mode event |
| Commands.SystemCommandIntended | system/project_system.py:166-187 | with the events built as their base class allows, `system` yields only the start or stop event, and every other form raises IndexError or InvalidCommand |
| Commands.ElementCommand | system/project_system.py:189-208 | every `element` command fails: the named events are undefined (NameError), other forms are IndexError or InvalidCommand |
| Commands.RoomSet | system/project_system.py:213-234 | `room N set` builds only damper events for room N when N has a damper; the failures are IndexError, ValueError, KeyError or InvalidCommand |
| Commands.RoomCommand | system/project_system.py:210-244 | `room` commands build only damper events for a room the system has |
| Commands.FanCommand | system/project_system.py:246-259 | `fan` commands never build an event |
| Commands.ParseCommand | system/project_system.py:155-261 | a built event is a damper command for a known room; an accepted line without an event is a room or fan command; the failures are IndexError, ValueError, NameError, TypeError, KeyError or InvalidCommand |
| Commands.Conclude | system/project_system.py:264-273 | an event is dispatched, an empty result is Unassigned, InvalidCommand and KeyError are Rejected, and every other exception escapes |
| Commands.HandleLine | system/project_system.py:155-273 | a blank line escapes as IndexError; only damper events for a room with a damper are dispatched; escaping exceptions are IndexError, ValueError, NameError or TypeError; only `room` and `fan` lines end without an event |
| Commands.HandleInput | system/project_system.py:161-276 | a dispatched event goes to the handler and runs at once unless the lock is held; any other outcome changes nothing |
| Commands.RoomWord | system/project_system.py:211 | the decimal spelling of a room id is one word that `int()` reads back as that id |
| Commands.HandleJoined | system/project_system.py:155-159 | a line of single-space-separated words is handled as exactly those words |
| Commands.LeadingSpaceIgnored | system/project_system.py:155-157 | leading whitespace does not change how a line is handled |
| Commands.RoomBranch | system/project_system.py:210-211 | a line starting with `room` is handled by the room branch on the remaining words |
| Commands.RoomSetBranch | system/project_system.py:211-213 | `room N set` with a parsable N goes to the set branch for N |
| Commands.RoomSetOpenClose | system/project_system.py:223-227 | `set open` and `set close` build their event for a room with a damper and raise KeyError otherwise |
| Commands.RoomSetAnglePwm | system/project_system.py:215-221 | `set angle V` and `set pwm V` carry the parsed value to the room's damper, or raise KeyError for an unknown room |
| Commands.RoomSetLine | system/project_system.py:210-234 | a typed `room N set ...` line comes down to the set branch for N |
| Commands.OpenCloseCommands | system/project_system.py:223-227 | `room N set open/close` dispatches exactly the matching event for a known room and is rejected for an unknown one |
| Commands.AnglePwmCommands | system/project_system.py:215-221 | `room N set angle/pwm V` dispatches exactly the matching event with value V for a known room and is rejected otherwise |
| Commands.AnglePwmBadValue | system/project_system.py:216 | an angle or PWM value that does not parse escapes as ValueError, whatever the room |
| Commands.SetTempAlwaysFails | system/project_system.py:229-231 | `room N set temp ...` always escapes as ValueError, because it parses the word `temp` |
| Commands.RoomStatusCommand | system/project_system.py:236-239 | `room N get status` is Unassigned for a room with a sensor and Rejected otherwise |
| Commands.OperationModeCommands | system/project_system.py:173-183 | `system operation mode M` never changes the mode: test, auto and extreme escape as TypeError, any other M is rejected |
| Commands.StartStopCommands | system/project_system.py:166-171 | as written `system start` and `system stop` escape as TypeError |
| Commands.StartStopIntended | system/project_system.py:166-171 | with the events built without an argument, `start` and `stop` yield their event, whose action changes nothing, where the code as written raises TypeError |
| Commands.FanCommandsUnassigned | system/project_system.py:246-257 | `fan set on/off` and `fan get ...` are accepted without an event |
| Commands.UnknownCommandRejected | system/project_system.py:260-261 | any other first word is rejected |
| Commands.RotateRoomOneExample | system/project_system.py:213-217 | `room 1 set angle 45` dispatches the rotation of room 1 to 45 degrees |
| ProjectSystem.Contribution | system/project_system.py:607-617 | a room adds a non-positive amount while heating and a non-negative one while cooling, zero exactly when it is satisfied |
| ProjectSystem.ErrorSum | system/project_system.py:596-619 | the error sum is non-positive while heating and non-negative while cooling |
| ProjectSystem.ErrorSumZeroIff | system/project_system.py:604-619 | the error sum is zero exactly when no room has an error in the wrong direction |
| ProjectSystem.ErrorSumConcat | system/project_system.py:610-617 | the error sum adds up over a split of the rooms |
| ProjectSystem.ErrorSumPermutation | system/project_system.py:610-619 | reordering the errors does not change the sum |
| ProjectSystem.DamperPolicy | system/project_system.py:553-571 | the policy only opens or closes a damper, and opens one only when the element is enabled |
| ProjectSystem.DamperPolicyIgnoresError | system/project_system.py:553-571 | a disabled element closes every damper, a heating one closes every damper, a cooling one opens every damper; the room's error never matters |
| ProjectSystem.FirstMissing | system/project_system.py:547-550 | the position of the first damper whose room has no error entry |
| ProjectSystem.AutoDampers | system/project_system.py:547-571 | the dampers before the first missing room get the policy's command; that damper and the rest keep theirs; KeyError is raised exactly when a room is missing |
| ProjectSystem.AutoCycle | system/project_system.py:545-577 | the auto cycle keeps the rooms, targets and mode, and raises KeyError exactly when a damper's room has no error, leaving the element untouched |
| ProjectSystem.AutoCycleCommandsEveryDamper | system/project_system.py:547-571 | with an error for every room, each damper gets the policy's command for its room, and all close when the element is disabled |
| ProjectSystem.AutoCycleMissingRoom | system/project_system.py:547-550 | a room without an error raises KeyError: earlier dampers are commanded, later ones and the element are untouched |
| ProjectSystem.FlipDirection | system/project_system.py:574-577 | the flip keeps the direction and the enabled flag and rewrites the pins to the state they describe: the heating pin high exactly when enabled and heating, the cooling pin exactly when enabled and cooling |
| ProjectSystem.AutoCycleKeepsDirection | system/project_system.py:574-577 | a complete auto cycle never changes the direction or the enabled flag; a zero sum only re-applies the pin state |
| ProjectSystem.ExtremeCycle | system/project_system.py:584-594 | the extreme cycle leaves the dampers, the mode and the set of rooms alone, and can only raise KeyError |
| ProjectSystem.StepRoomZero | system/project_system.py:593 | room 0's step keeps the set of rooms |
| ProjectSystem.StepRoomTwo | system/project_system.py:594 | room 2's step keeps the set of rooms |
| ProjectSystem.ExtremeCycleZeroSum | system/project_system.py:587-594 | with rooms 0 and 2 present, a zero sum runs the flip on the element and steps both targets, without error and touching nothing else |
| ProjectSystem.StepRoomZeroValues | system/project_system.py:593 | room 0's target becomes its `+ 0.1` value and other rooms keep theirs |
| ProjectSystem.StepRoomTwoValues | system/project_system.py:594 | room 2's target becomes its `- 0.1` value and other rooms keep theirs |
| ProjectSystem.SteppedTargetsValues | system/project_system.py:593-594 | after both steps, rooms 0 and 2 have their new targets and every other room keeps its own |
| ProjectSystem.ExtremeCycleTargets | system/project_system.py:584-594 | a zero sum lowers the targets of rooms 0 and 2 by 0.1 each and leaves room 1 alone; a non-zero sum changes nothing |
| ProjectSystem.SetAllTargets | system/project_system.py:537-538 | every room keeps its place and gets the same target |
| ProjectSystem.SetupMode | system/project_system.py:535-543 | a mode setup installs the mode, keeps the dampers, element, period and rooms, and gives every room the 22.5 degree target |
| ProjectSystem.SetupModeTargets | system/project_system.py:535-543 | a mode setup installs the mode and 22.5 degrees for every room with a target, adding or removing no room and touching nothing else |
| ProjectSystem.GetDelayTime | system/project_system.py:649-669 | the sleep time is never negative, fills the rest of the interval when the cycle fits, and is zero after an overrun |
| ProjectSystem.RoomError | system/project_system.py:507 | a room's error added to its target gives its reading, and it is positive exactly when the room is warmer |
| ProjectSystem.RoomTemperatureErrors | system/project_system.py:493-509 | the errors are computed exactly when every reading's room has a target sensor, otherwise KeyError; the result has exactly the readings' rooms |
| ProjectSystem.RoomTemperatureErrorsLast | system/project_system.py:505-507 | the last reading's error is stored on top of the errors of the earlier readings |
| ProjectSystem.RoomTemperatureErrorValues | system/project_system.py:505-509 | each room's error is its own reading minus its own target |
| ProjectSystem.ClassifyOne | system/project_system.py:462-489 | a round fails at a reading exactly when it is an under-temperature element reading, and a failed round stays failed |
| ProjectSystem.Classify | system/project_system.py:452-491 | the round fails only with UnderTemperature, exactly when some reading is under; otherwise the element stays enabled exactly when it was and nothing tripped over |
| ProjectSystem.ClassifyElement | system/project_system.py:469-474 | the round never changes the direction flags; an element still enabled afterwards is untouched, and one the round switched off has both pins low |
| ProjectSystem.ClassifyRoomsReported | system/project_system.py:476-479 | the room dict holds only rooms that reported |
| ProjectSystem.ClassifyRoomsComplete | system/project_system.py:476-479 | a completed round has an entry for every room that reported |
| ProjectSystem.ClassifyKeepsReading | system/project_system.py:476-479 | in a completed round every room reading has an entry under its room |
| ProjectSystem.ClassifyOneRooms | system/project_system.py:476-479 | a room reading in a round that has not failed is stored under its room; any other reading leaves the room dict alone |
| ProjectSystem.OnlyOverTemperatureIsCaught | system/project_system.py:469-474 | with the system's limits a 70 degree element reading disables the element and the round goes on; a -25 degree reading escapes as UnderTemperature and leaves the element alone |
| ProjectSystem.ClassifyAsWritten | system/project_system.py:462-485 | as written the round fails with AttributeError exactly when some reading is from a room or element sensor, and never changes the element |
| ProjectSystem.ClassifyAsWrittenNeverTrips | system/project_system.py:466-474 | as written a 70 degree element reading raises AttributeError and leaves the element enabled as it was |
| ProjectSystem.HandleCycleAsWritten | system/project_system.py:511-522 | as written every cycle ends in an exception |
| ProjectSystem.HandleCycleAsWrittenNeverActs | system/project_system.py:519-522 | as written no cycle changes the state; external-only rounds end in NameError and all others in AttributeError |
| ProjectSystem.HandleCycle | system/project_system.py:511-533 | the intended cycle can only raise UnderTemperature or KeyError, never changes the mode, and keeps the set of rooms with a damper and with a target |
| ProjectSystem.HandleCycleRunsMode | system/project_system.py:528-533 | the intended cycle reaches its mode step when no reading is under temperature and every room that reports has a target; a test cycle then ends cleanly without moving a damper or target, and so does an auto cycle in which every damper's room reported |
| ProjectSystem.QueueDrain | system/project_system.py:309-319 | the drain yields the queued items in order and leaves the queue empty |
| PiSensors.FirstLineReady | system/pisensors.py:506 | the check answers whether the stripped first line ends in `YES`, and fails with IndexError on an empty snapshot |
| PiSensors.ReadingAfterMarker | system/pisensors.py:518-521 | the text after `t=` reads as degrees exactly when it is a number, and that number is the thousandths; otherwise ValueError |
| PiSensors.TemperatureOfLine | system/pisensors.py:512-531 | TemperatureNotFound exactly when the line has no `t=`; otherwise the number after the first `t=` over 1000, or ValueError |
| PiSensors.ParseTemperature | system/pisensors.py:512 | the second line is read, and a snapshot with fewer than two lines raises IndexError |
| PiSensors.WaitForReady | system/pisensors.py:500-509 | the wait loop ends only on a snapshot whose first line passes the check; it can only fail with IndexError |
| PiSensors.HardwareRead | system/pisensors.py:492-531 | the read can fail only with IndexError, TemperatureNotFound or ValueError, and is still waiting exactly when the wait loop is |
| PiSensors.HardwareReadWaiting | system/pisensors.py:500-509 | the read keeps waiting exactly when every snapshot's check returned False |
| PiSensors.HardwareReadUsesFirstReadySnapshot | system/pisensors.py:500-527 | the reading comes from the first snapshot that passes the check |
| PiSensors.FromMilli | system/pisensors.py:521 | dividing by 1000 gives the degrees whose thousandths are the reading |
| PiSensors.ParseFloatOfMilliText | system/pisensors.py:521 | the driver's decimal digits, signed or not, read back as the same number |
| PiSensors.TemperatureOfMillidegrees | system/pisensors.py:512-527 | a second line `<prefix>t=<m>` reads as `m / 1000` degrees |
| PiSensors.TypicalReading | system/pisensors.py:492-531 | a typical two-line sensor file with `t=23125` reads as 23.125 degrees |
| PiSensors.SingleSnapshotRead | system/pisensors.py:500-527 | a single snapshot that passes the check reads as its second line's temperature |
| PiSensors.DevicePath | system/pisensors.py:461-464 | the device path is the bus directory, `28-`, the id and `/w1_slave`, in that order |
| PiSensors.BusId | system/pisensors.py:596 | a bus entry is the last twelve characters of the folder name, or all of a shorter one |
| PiSensors.BusIds | system/pisensors.py:596 | one bus entry per matched folder, in listing order |
| PiSensors.BusIdRoundTrip | system/pisensors.py:584-596 | the entry of a `28-<id>` folder is the id, and the path built from it is that folder's reading file |
| PiSensors.MeasurementId | system/pisensors.py:545 | a measurement id has the name's length, each upper-case letter replaced by its own lower-case form and every other character kept, so no upper-case letter remains |
| PiSensors.MeasurementIdIdempotent | system/pisensors.py:545 | lower-casing an id again changes nothing |
| PiSensors.SwitchRead | system/pisensors.py:266 | a switch reads the pin level, inverted exactly when it is active low |
| PiSensors.SwitchReadInvolution | system/pisensors.py:266 | inverting twice gives the pin level back |
| BtChunker.SegmentBytes | bluetooth_connection/my_BT_server.py:71-103 | no size gives one packet with all the data; size 0 fails with ZeroDivisionError; otherwise `len // size + 1` packets (none when negative), packet i being the slice from `i * size` to `(i + 1) * size - 1`; empty data gives one empty packet |
| BtChunker.SegmentBytesDefault | bluetooth_connection/my_BT_server.py:71 | with the default packet size of 1024 the chunker succeeds with `len // 1024 + 1` packets of at most 1023 bytes each |
| BtChunker.SendPackets | bluetooth_connection/my_BT_server.py:91-97 | the loop emits one packet per number, in increasing order |
| BtChunker.FloorDiv | bluetooth_connection/my_BT_server.py:88 | Python's `//` rounds toward negative infinity |
| BtChunker.PacketContents | bluetooth_connection/my_BT_server.py:93-97 | packet i starts at offset `i * size` within the data, ends at `(i + 1) * size - 1` or the end, and has at most `size - 1` bytes |
| BtChunker.ByteSentUnlessSlotEnd | bluetooth_connection/my_BT_server.py:93-97 | every byte that is not the last of its slot is sent, in its own slot's packet at its offset in the slot |
| BtChunker.SlotEndDropped | bluetooth_connection/my_BT_server.py:94 | the last byte of every slot is dropped: its packet stops one byte short of it |
| BtChunker.ByteSlotIsSent | bluetooth_connection/my_BT_server.py:88-91 | every byte's slot is one of the packets the loop sends |
| DataRetrieval.Normalise | data_handling/data_retrieval.py:35-37 | the window's ends come out in increasing order, swapped only when given the wrong way round |
| DataRetrieval.NormaliseSwap | data_handling/data_retrieval.py:35-37 | swapping the range's ends gives the same window |
| DataRetrieval.TimeFiltered | data_handling/data_retrieval.py:34-47 | every yielded sample's time is strictly inside the window, and there are no more samples than rows |
| DataRetrieval.TimeFilteredConcat | data_handling/data_retrieval.py:40-46 | filtering a log in two parts is filtering each part, in order |
| DataRetrieval.TimeFilteredMembership | data_handling/data_retrieval.py:45-46 | a sample is yielded exactly when some row strictly inside the window has that time and reading |
| DataRetrieval.TimeFilteredIsSubsequence | data_handling/data_retrieval.py:40-46 | the yielded samples are an order-preserving selection of the rows' (time, reading) pairs |
| DataRetrieval.TimeFilteredSwapInvariant | data_handling/data_retrieval.py:35-37 | the result does not depend on the order of the range's ends |
| DataRetrieval.TimeDelta | data_handling/data_retrieval.py:49-56 | the time-delta read yields only samples in the open window `(now - delta, now)` |
| DataRetrieval.TimeDeltaMembership | data_handling/data_retrieval.py:51-55 | a sample is yielded exactly when some row lies strictly between `now - delta` and `now` |
| CustomLogger.DirPath | data_handling/custom_logger.py:88 | without a separator the directory is empty; otherwise it is the prefix of the path before the last separator |
| CustomLogger.DirPathSplits | data_handling/custom_logger.py:88 | the directory, a separator and the last component rebuild the path |
| CustomLogger.CreatePathFor | data_handling/custom_logger.py:87-90 | an existing directory is left alone; a missing one is created; an empty directory string fails with FileNotFoundError |
| CustomLogger.CreatePathForFile | data_handling/custom_logger.py:80-90 | a path with no backslash always fails with FileNotFoundError |
| CustomLogger.PosixLogPathFails | data_handling/custom_logger.py:88-90 | the POSIX system log path yields an empty directory, and `makedirs` fails |
| CustomLogger.DirPathIsBeforeLastSep | data_handling/custom_logger.py:88 | the directory is everything before the last separator |
| CustomLogger.PosixDirIsParent | data_handling/custom_logger.py:88-90 | split at `/`, a file below the root gets its parent directory, which is created when missing |
| PyStr.Split | system/project_system.py:156 | `split()` returns only non-empty runs without whitespace |
| PyStr.ParseInt | system/project_system.py:211 | `int()` succeeds only on a string that is not blank |
| PyStr.ParseFloat | system/project_system.py:216 | `float()` succeeds only on a string that is not blank |
| PyStr.SplitJoinSpace | system/project_system.py:156 | splitting single-space-joined words gives those words back |
| PyStr.SplitSkipsLeadingSpace | system/project_system.py:156 | leading whitespace does not change the split |
| PyStr.Find | system/pisensors.py:512 | `find` returns the first occurrence of the pattern, or -1 exactly when there is none |
| PyStr.NegativeSliceIsEndsWith | system/pisensors.py:506 | `s[-3:] == 'YES'` holds exactly when `s` ends in `YES` |
| PyStr.PyIndex | system/pisensors.py:506 | indexing succeeds exactly within `-len .. len - 1`, a negative index counting from the end |
| PyStr.ParseIntOfNatToString | system/project_system.py:211 | `int()` reads a decimal spelling, with or without a minus sign, back as its number |
| PyStr.ParseFloatOfNatToString | system/pisensors.py:521 | `float()` reads decimal digits followed by whitespace as their number |
| PyStr.ParseFloatOfTemp | system/project_system.py:230 | `float("temp")` fails |
| PyStr.JoinSplitOn | data_handling/custom_logger.py:88 | splitting at a character and rejoining with it gives the string back |
| PyDict.Get | system/project_system.py:507 | a lookup succeeds exactly for a present key and returns a value stored under that key |
| PyDict.Put | system/project_system.py:479 | storing under a present key keeps the key order; a new key is appended |
| PyDict.GetPut | system/project_system.py:479 | after storing, the key reads the new value and every other key reads what it did before |

## Left out

- **Threads and the lock race.** The per-sensor reading threads and their join, and the event handler's background thread and its lock race, are left out. The model runs each drain to completion in sequence and classifies the readings after the join.
- **The wall-clock loop.** `enter_main_loop` and every `time.sleep` and `time.time` are left out. This includes the 0.2 second sleep between re-reads of the 1-Wire file; the successive file contents are a parameter. Only `get_delay_time` is modelled.
- **Hardware.** GPIO and PWM calls are left out. The pins are an abstract pair of levels, a damper is its last command, and a servo is its last applied duty cycle.
- **Other hardware and timing code.** `ResistiveSensor`, `sin_response`, `run_config`, the PID terms and `get_update_vector` are left out: they are timing and floating-point numerics.
- **Failing imports.** The live modules do not import as written. `system.sensors` defines neither `W1Bus` nor `TemperatureNotFound`, and `system.active_components` defines no `DeviceEnabler`. The model takes the 1-Wire classes from the Pi sensor file, as the names suggest.
- **Missing sensor method.** No sensor class defines `get_temperature_c_into_queue`, the reading threads' target. The readings of a round are a parameter.
- **Construction errors.** Python-level construction failures are left out. Examples: `RegisterFlowController` called with keyword arguments it does not take; the active-components `Servo` using the unimported `li` and `math`; `get_angle_pwm` calling an undefined `verify_angle`. The servo helpers follow the bench-test copy.
- **Missing damper methods.** `RegisterFlowController` has no `open_register`, `close_register`, `rotate_to_angle` or `apply_duty`. A damper event is modelled as recording the command it asks for.
- **Temperature and float operands.** Comparisons between a `Temperature` and a float are left out, as in `error_sum` over `Temperature` errors. Errors are reals.
- **The `raise TemperatureNotFound` branch** of the classification is left out. Every probe is an element, room or plain sensor, so that branch cannot be reached.
- **End of generators.** `raise StopIteration` at the end of the chunker, the time filter and `queue_drain`'s callers is left out. Python turns it into RuntimeError after the last item. The model collects the items yielded.
- **String and byte encoding.** `_string.encode()` is left out: the chunker takes the bytes directly.
- **Log reading.** CSV file reading and `strptime` are left out. Times are integers on one clock, and `datetime.now()` is a parameter.
- **File system.** `os.path.abspath`, the file system and `makedirs` creating parent directories are left out. The file system is the set of directories that exist, and creating one adds only that directory.
- **Number syntax.** `int()` and `float()` accept decimal literals with an optional sign, point and exponent. Underscores between digits, non-ASCII Unicode decimal digits and `inf`, `infinity` and `nan` are not modelled.
- **Bluetooth.** The sockets, advertising, the receive and send loops and the JSON payload format are left out: they are network I/O.
- **Other code.** Logger construction, visualisation, the runner scripts and the superseded copies of the system files are left out, because none of them is on the live control path.
- DataClasses.LimitFromParams: requires distinct keys, because a JSON object decoded into keyword arguments cannot repeat a key.
- DataClasses.RoomFromParams: requires distinct keys, for the same reason.
- PiSensors.MeasurementId: lower-cases ASCII letters only; Python's Unicode case mapping is not modelled.
- ProjectSystem.AutoCycle: does not raise the AttributeError that `servo.close_register()` and `servo.open_register()` (system/project_system.py:557, 562, 567, 571) raise as written, because `RegisterFlowController` defines neither method; each call is modelled as recording the command.
- ProjectSystem.ExtremeCycle: does not raise the AttributeError of `target_temp += 0.1` and `-= 0.1` (system/project_system.py:593-594). `Temperature.__add__` and `__sub__` read `.celsius` on the float operand; the model steps by a `Temperature(0.1)` operand instead.
- SystemEvents.SetDamper: does not raise the AttributeError that the register events' actions (system/system_events.py:51, 59, 68, 77) raise as written; each action records its command.
- EventHandling.ProcessEventQueue: does not model an action raising between `acquire` (event_system/event_handler.py:49) and `release` (line 58). As written such an exception ends the drain thread with the lock held, so no later `add_event` ever drains the queue; the model assumes every action returns.
- ProjectSystem.SetupModeTargets: states the targets after a setup through the target dict. The per-sensor `target_temp` attributes are that dict.

## Findings

| source | as written | input that shows it | evidently intended | confidence | as-written member | corrected member |
|---|---|---|---|---|---|---|
| data_handling/linear_interpolation.py:59-66 | the lookup first evaluates `y_list[x]` and catches only KeyError; a float index raises TypeError, so the interpolation code never runs | the table x = [0, 1], y = [0, 2] queried at 0.5 | between two x values, return the segment's start value plus its slope times the distance | high, not executed | LinearInterpolation.LookupNeverInterpolates | LinearInterpolation.InterpolateAtInside |
| system/project_system.py:166-183 | `system start`, `system stop` and `system operation mode test/auto/extreme` pass an argument to system events whose only `__init__` is the base class's, which takes none (event_system/events.py:9), so building the event raises TypeError and nothing is dispatched | the line `system start` | build the event (without an argument) and dispatch it | high, not executed | Commands.StartStopCommands | Commands.StartStopIntended |
| system/project_system.py:522 | `handle_cycle` passes `room_readings`, a local name bound nowhere in the method, so the cycle raises NameError before any mode step | a round with only the external sensor's reading, in any mode | use the room readings just gathered, then run the mode's step | high, not executed | ProjectSystem.HandleCycleAsWrittenNeverActs | ProjectSystem.HandleCycleRunsMode |
| system/project_system.py:466 | room and element readings are stored under `sensor.get_id`, which no sensor class defines, so AttributeError is raised before the element's limit check | one element reading of 70 degrees against the 65 degree limit | key each reading by the sensor's `id` and disable the element on an over-temperature reading | high, not executed | ProjectSystem.ClassifyAsWrittenNeverTrips | ProjectSystem.OnlyOverTemperatureIsCaught |
| data_handling/custom_logger.py:88 | the directory is found by splitting the absolute path at backslashes; a POSIX path has none, so the directory is empty and `os.makedirs('')` raises FileNotFoundError | `/home/pi/log/system/system.csv` | split at the platform's separator and create the file's parent directory | high, not executed | CustomLogger.PosixLogPathFails | CustomLogger.PosixDirIsParent |

=== FILE: activecomponents.dfy ===
/**
 * The system's outputs: the Peltier element, driven through a heating pin and
 * a cooling pin, and the servo-driven register (damper) of each room.
 *
 * The GPIO pins are an abstract pair of levels; every pin write the element
 * makes is returned as a `PinWrite` so that the order of the writes can be
 * stated.
 */
module ActiveComponents {

  // ---------------------------------------------------------------------------
  // Pins
  // ---------------------------------------------------------------------------

  datatype Pin = HeatingPin | CoolingPin

  /** One `GPIO.output(pin, level)` call. */
  datatype PinWrite = PinWrite(pin: Pin, level: bool)

  /** The current levels of the two element pins. */
  datatype Pins = Pins(heating: bool, cooling: bool)

  function Write(p: Pins, w: PinWrite): Pins {
    match w.pin
    case HeatingPin => p.(heating := w.level)
    case CoolingPin => p.(cooling := w.level)
  }

  /** The pin levels after performing `ws` in order. */
  function WriteAll(p: Pins, ws: seq<PinWrite>): Pins
    decreases |ws|
  {
    if |ws| == 0 then p else WriteAll(Write(p, ws[0]), ws[1..])
  }

  /** Both pins high at once: the state the element's wiring must never reach. */
  predicate BothHigh(p: Pins) {
    p.heating && p.cooling
  }

  /** No intermediate state of a write sequence has both pins high. */
  predicate NeverBothHigh(p: Pins, ws: seq<PinWrite>) {
    forall k :: 0 <= k <= |ws| ==> !BothHigh(WriteAll(p, ws[..k]))
  }

  // ---------------------------------------------------------------------------
  // The element
  // ---------------------------------------------------------------------------

  /**
   * The element's private state: the `_heating`, `_cooling` and `_enabled`
   * attributes and the levels of its two pins.
   */
  datatype Element = Element(heatingFlag: bool, coolingFlag: bool, enabled: bool, pins: Pins)

  /** The two direction flags disagree, as every setter leaves them. */
  predicate Consistent(e: Element) {
    e.coolingFlag == !e.heatingFlag
  }

  /** The `heating` property. */
  function Heating(e: Element): bool {
    e.heatingFlag
  }

  /** The `cooling` property as written: it reads `_heating`, not `_cooling`. */
  function Cooling(e: Element): bool {
    e.heatingFlag
  }

  /** Assigning `heating = v`. */
  function SetHeating(e: Element, v: bool): (r: Element)
    ensures Consistent(r) && Heating(r) == v
    ensures r.enabled == e.enabled && r.pins == e.pins
  {
    e.(heatingFlag := v, coolingFlag := !v)
  }

  /** Assigning `cooling = v`. */
  function SetCooling(e: Element, v: bool): (r: Element)
    ensures Consistent(r) && r.coolingFlag == v && Heating(r) == !v
    ensures r.enabled == e.enabled && r.pins == e.pins
  {
    e.(coolingFlag := v, heatingFlag := !v)
  }

  /** The pin writes `apply_state` performs, in order. */
  function ApplyStateWrites(e: Element): seq<PinWrite> {
    if e.enabled then
      if Heating(e) then [PinWrite(CoolingPin, false), PinWrite(HeatingPin, true)]
      else [PinWrite(HeatingPin, false), PinWrite(CoolingPin, true)]
    else
      [PinWrite(HeatingPin, false), PinWrite(CoolingPin, false)]
  }

  lemma WriteTwo(p: Pins, a: PinWrite, b: PinWrite)
    ensures WriteAll(p, [a, b]) == Write(Write(p, a), b)
  {
    var q := Write(p, a);
    assert [a, b][1..] == [b];
    assert WriteAll(p, [a, b]) == WriteAll(q, [b]);
    assert [b][1..] == [];
    assert WriteAll(q, [b]) == WriteAll(Write(q, b), []);
  }

  /**
   * `apply_state`: drive the pins to match the enabled flag and the
   * direction. Afterwards exactly the active pin is high, and none when the
   * element is disabled.
   */
  function ApplyState(e: Element): (r: Element)
    ensures r.heatingFlag == e.heatingFlag && r.coolingFlag == e.coolingFlag && r.enabled == e.enabled
    ensures r.pins == Pins(e.enabled && Heating(e), e.enabled && !Heating(e))
  {
    var ws := ApplyStateWrites(e);
    WriteTwo(e.pins, ws[0], ws[1]);
    assert ws == [ws[0], ws[1]];
    e.(pins := WriteAll(e.pins, ws))
  }

  /** Assigning `enabled = v`: disabling applies the state at once, enabling writes nothing. */
  function SetEnabled(e: Element, v: bool): (r: Element)
    ensures r.enabled == v && r.heatingFlag == e.heatingFlag && r.coolingFlag == e.coolingFlag
    ensures !v ==> r.pins == Pins(false, false)
    ensures v ==> r.pins == e.pins
  {
    var e' := e.(enabled := v);
    if !v then ApplyState(e') else e'
  }

  /** A freshly built element: direction as given, disabled, both pins low. */
  function NewElement(heating: bool, pins: Pins): (r: Element)
    ensures Consistent(r) && Heating(r) == heating
    ensures !r.enabled && r.pins == Pins(false, false)
  {
    SetEnabled(SetHeating(Element(false, true, false, pins), heating), false)
  }

  /** The sum of a sequence of reals, as `sum` adds them left to right. */
  function Sum(xs: seq<real>): real
    decreases |xs|
  {
    if |xs| == 0 then 0.0 else xs[0] + Sum(xs[1..])
  }

  /**
   * `generate_target_vector`: heat when the summed room deltas are positive,
   * cool when negative, leave the direction alone at zero. No pin is written.
   */
  function GenerateTargetVector(e: Element, deltas: seq<real>): (r: Element)
    ensures r.enabled == e.enabled && r.pins == e.pins
  {
    var v := Sum(deltas);
    if v > 0.0 then SetHeating(e, true)
    else if v < 0.0 then SetCooling(e, true)
    else e
  }

  // ---------------------------------------------------------------------------
  // Element properties
  // ---------------------------------------------------------------------------

  /** The `cooling` getter mirrors `heating`: after `cooling = True` it reads False. */
  lemma CoolingGetterReadsHeating(e: Element)
    ensures Cooling(SetCooling(e, true)) == false
    ensures Cooling(SetHeating(e, true)) == true
    ensures forall v :: Cooling(SetCooling(e, v)) == !v
  {
  }

  /**
   * `heating = cooling` reassigns `heating` its own value, so on a consistent
   * element it changes nothing, whatever the direction.
   */
  lemma HeatingFromCoolingIsNoOp(e: Element)
    requires Consistent(e)
    ensures SetHeating(e, Cooling(e)) == e
    ensures Heating(SetHeating(e, Cooling(e))) == Heating(e)
  {
  }

  lemma {:induction false} WriteAllAppend(p: Pins, ws: seq<PinWrite>, w: PinWrite)
    ensures WriteAll(p, ws + [w]) == Write(WriteAll(p, ws), w)
    decreases |ws|
  {
    if |ws| > 0 {
      assert (ws + [w])[1..] == ws[1..] + [w];
      WriteAllAppend(Write(p, ws[0]), ws[1..], w);
    }
  }

  /** The pin levels after the first `k` of `apply_state`'s two writes. */
  lemma ApplyStatePrefixes(e: Element)
    ensures WriteAll(e.pins, ApplyStateWrites(e)[..0]) == e.pins
    ensures WriteAll(e.pins, ApplyStateWrites(e)[..1]) == Write(e.pins, ApplyStateWrites(e)[0])
    ensures WriteAll(e.pins, ApplyStateWrites(e)[..2])
      == Write(Write(e.pins, ApplyStateWrites(e)[0]), ApplyStateWrites(e)[1])
  {
    var ws := ApplyStateWrites(e);
    assert ws[..1] == [] + [ws[0]];
    WriteAllAppend(e.pins, [], ws[0]);
    assert ws[..2] == ws[..1] + [ws[1]];
    WriteAllAppend(e.pins, ws[..1], ws[1]);
  }

  /**
   * `apply_state` first drives the pin that must be off low, then drives the
   * active pin high, so neither its end state nor the state between the two
   * writes has both pins high — provided both were not already high.
   */
  lemma ApplyStateNeverBothHigh(e: Element)
    requires !BothHigh(e.pins)
    ensures NeverBothHigh(e.pins, ApplyStateWrites(e))
    ensures e.enabled && Heating(e) ==> ApplyStateWrites(e)[0] == PinWrite(CoolingPin, false)
    ensures e.enabled && !Heating(e) ==> ApplyStateWrites(e)[0] == PinWrite(HeatingPin, false)
    ensures ApplyState(e).pins == WriteAll(e.pins, ApplyStateWrites(e))
  {
    ApplyStatePrefixes(e);
    var ws := ApplyStateWrites(e);
    forall k | 0 <= k <= |ws| ensures !BothHigh(WriteAll(e.pins, ws[..k])) {
      assert |ws| == 2;
    }
  }

  /** Setting `enabled = False` leaves both pins low; setting it True touches no pin. */
  lemma DisablingDrivesPinsLow(e: Element)
    ensures SetEnabled(e, false).pins == Pins(false, false) && !SetEnabled(e, false).enabled
    ensures SetEnabled(e, true).pins == e.pins
    ensures !BothHigh(e.pins) ==> NeverBothHigh(e.pins, ApplyStateWrites(e.(enabled := false)))
  {
    if !BothHigh(e.pins) {
      ApplyStateNeverBothHigh(e.(enabled := false));
    }
  }

  /** The direction `generate_target_vector` leaves, by the sign of the summed deltas. */
  lemma GenerateTargetVectorDirection(e: Element, deltas: seq<real>)
    requires Consistent(e)
    ensures Consistent(GenerateTargetVector(e, deltas))
    ensures Sum(deltas) > 0.0 ==> Heating(GenerateTargetVector(e, deltas))
    ensures Sum(deltas) < 0.0 ==> !Heating(GenerateTargetVector(e, deltas))
    ensures Sum(deltas) == 0.0 ==> GenerateTargetVector(e, deltas) == e
  {
  }

  /** `Sum` adds up a concatenation piecewise, so splitting the deltas changes nothing. */
  lemma {:induction false} SumAppend(xs: seq<real>, ys: seq<real>)
    ensures Sum(xs + ys) == Sum(xs) + Sum(ys)
    decreases |xs|
  {
    if |xs| > 0 {
      assert (xs + ys)[1..] == xs[1..] + ys;
      SumAppend(xs[1..], ys);
    } else {
      assert xs + ys == ys;
    }
  }

  // ---------------------------------------------------------------------------
  // The register flow controller
  // ---------------------------------------------------------------------------

  /** A register's servo: the last angle set and the duty cycle last written, if any. */
  datatype FlowController = FlowController(lastPos: real, duty: real)

  /** The duty cycle for an angle: 1/20 at 0 degrees up to 1/10 at 180 degrees. */
  function AngleDuty(angle: real): real {
    (1.0 + angle / 180.0) / 20.0
  }

  /**
   * `set_to_pos`: an angle in 0..180 that differs from the last one writes
   * its duty cycle and becomes the last position; a repeated angle and an
   * angle out of range change nothing.
   */
  function SetToPos(fc: FlowController, angle: real): (r: FlowController)
    ensures 0.0 <= angle <= 180.0 && angle != fc.lastPos ==>
      r.lastPos == angle && 0.05 <= r.duty <= 0.10
    ensures !(0.0 <= angle <= 180.0) || angle == fc.lastPos ==> r == fc
  {
    if 0.0 <= angle && angle <= 180.0 then
      var angleDelta := fc.lastPos - angle;
      if angleDelta != 0.0 then FlowController(angle, AngleDuty(angle)) else fc
    else fc
  }

  /** The controller after construction: 0 degrees, then moved to 90 degrees (duty 0.075). */
  function NewFlowController(): (r: FlowController)
    ensures r.lastPos == 90.0 && r.duty == 0.075
  {
    SetToPos(FlowController(0.0, 0.0), 90.0)
  }

  /**
   * The written duty cycle determines the angle: it can be read back, larger
   * angles give larger duty cycles, and repeating a move is a no-op.
   */
  lemma SetToPosInverse(fc: FlowController, angle: real, other: real)
    requires 0.0 <= angle <= 180.0 && angle != fc.lastPos
    ensures (SetToPos(fc, angle).duty * 20.0 - 1.0) * 180.0 == angle
    ensures 0.0 <= other <= 180.0 && other != fc.lastPos && angle < other ==>
      SetToPos(fc, angle).duty < SetToPos(fc, other).duty
    ensures SetToPos(SetToPos(fc, angle), angle) == SetToPos(fc, angle)
  {
  }
}

=== FILE: btchunker.dfy ===
/**
 * The Bluetooth packet chunker: the bytes of a message are cut into the
 * packets sent one after the other. With no packet size the whole message is
 * one packet; otherwise packet `i` is the slice from `i * size` up to, but
 * excluding, `(i + 1) * size - 1`, so the last byte of every full slot is
 * never sent.
 */
module BtChunker {
  import opened Outcomes
  import opened PyStr

  type Byte = bv8

  /** Python's floor division `a // b`. */
  function FloorDiv(a: int, b: int): (q: int)
    requires b != 0
    ensures b > 0 ==> b * q <= a < b * q + b
    ensures b < 0 ==> b * q + b < a <= b * q
  {
    if b > 0 then a / b else (-a) / (-b)
  }

  /** The number of packets the loop runs over: `len // size + 1`. */
  function PacketCount(n: nat, size: int): int
    requires size != 0
  {
    FloorDiv(n, size) + 1
  }

  /** Where packet `i` starts: `i * size`. */
  function Offset(i: int, size: int): int {
    i * size
  }

  /** Packet `i` with packet size `size`: from its offset to one before the next packet's. */
  function Packet(data: seq<Byte>, size: int, i: int): (p: seq<Byte>)
    ensures |p| <= |data|
  {
    PySlice(data, Offset(i, size), Offset(i + 1, size) - 1)
  }

  /** The packet size used when the caller gives none. */
  const DefaultPacketSize: int := 1024

  /**
   * `break_string_into_segmented_byte_list`, with the yielded packets
   * collected in order. A size of zero fails with ZeroDivisionError; a
   * negative size gives no packets for non-empty data.
   */
  method SegmentBytes(data: seq<Byte>, packetSize: Option<int>) returns (r: Result<seq<seq<Byte>>>)
    ensures packetSize == None ==> r == Ok([data])
    ensures packetSize == Some(0) ==> r == Raise(ZeroDivisionError)
    ensures packetSize.Some? && packetSize.value != 0 ==>
      && r.Ok?
      && |r.value| == (if PacketCount(|data|, packetSize.value) < 0 then 0 else PacketCount(|data|, packetSize.value))
      && forall i :: 0 <= i < |r.value| ==> r.value[i] == Packet(data, packetSize.value, i)
    ensures packetSize.Some? && packetSize.value > 0 ==> r.Ok? && |r.value| == |data| / packetSize.value + 1
    ensures packetSize.Some? && packetSize.value > 0 && data == [] ==> r == Ok([[]])
  {
    if packetSize.None? {
      return Ok([data]);
    }
    var size := packetSize.value;
    if size == 0 {
      return Raise(ZeroDivisionError);
    }
    var packets := SendPackets(data, size, FloorDiv(|data|, size) + 1);
    if size > 0 && data == [] {
      assert packets[0] == Packet(data, size, 0) == [];
      assert packets == [[]];
    }
    return Ok(packets);
  }

  /** The loop over packet numbers `0 .. count - 1`, each yielding its slice. */
  method SendPackets(data: seq<Byte>, size: int, count: int) returns (packets: seq<seq<Byte>>)
    ensures |packets| == if count < 0 then 0 else count
    ensures forall j :: 0 <= j < |packets| ==> packets[j] == Packet(data, size, j)
  {
    packets := [];
    var i := 0;
    while i < count
      invariant 0 <= i && (count >= 0 ==> i <= count) && (count < 0 ==> i == 0)
      invariant |packets| == i
      invariant forall j :: 0 <= j < i ==> packets[j] == Packet(data, size, j)
    {
      var start := Offset(i, size);
      var end := Offset(i + 1, size) - 1;
      packets := packets + [PySlice(data, start, end)];
      i := i + 1;
    }
  }

  /** Consecutive packets start `size` bytes apart. */
  lemma OffsetNext(i: int, size: int)
    ensures Offset(i + 1, size) == Offset(i, size) + size
  {
  }

  /** Byte `k` lies in slot `k / size`, at position `k % size`. */
  lemma SlotOfByte(k: int, size: int)
    requires size > 0
    ensures k == Offset(k / size, size) + k % size && 0 <= k % size < size
  {
  }

  /** Every packet the loop produces starts within the data. */
  lemma OffsetWithin(n: nat, size: int, i: int)
    requires size > 0 && 0 <= i <= n / size
    ensures 0 <= Offset(i, size) <= n
  {
    MulMonotone(i, n / size, size);
    assert (n / size) * size <= n;
  }

  /**
   * With a positive size, packet `i` starts at offset `i * size` and runs to
   * `(i + 1) * size - 1` or the end of the data, whichever comes first; so it
   * holds at most `size - 1` bytes.
   */
  lemma PacketContents(data: seq<Byte>, size: int, i: int)
    requires size > 0 && 0 <= i < PacketCount(|data|, size)
    ensures 0 <= Offset(i, size) <= |data|
    ensures var end := Offset(i + 1, size) - 1;
      Packet(data, size, i) == data[Offset(i, size)..if end < |data| then end else |data|]
    ensures |Packet(data, size, i)| <= size - 1
  {
    OffsetWithin(|data|, size, i);
    OffsetNext(i, size);
  }

  lemma MulMonotone(a: int, b: int, c: int)
    requires 0 <= a <= b && c >= 0
    ensures a * c <= b * c
  {
  }

  /** With a positive size, byte `k` falls in one of the packets the loop sends. */
  lemma ByteSlotIsSent(n: nat, size: int, k: int)
    requires size > 0 && 0 <= k < n
    ensures k / size < PacketCount(n, size)
  {
    DivMonotone(k, n, size);
  }

  /**
   * With a positive size, a byte that is not the last of its slot is sent as
   * byte `k % size` of packet `k / size`.
   */
  lemma ByteSentUnlessSlotEnd(data: seq<Byte>, size: int, k: int)
    requires size > 0 && 0 <= k < |data| && k % size < size - 1
    ensures k % size < |Packet(data, size, k / size)|
    ensures Packet(data, size, k / size)[k % size] == data[k]
  {
    var i := k / size;
    SlotOfByte(k, size);
    ByteSlotIsSent(|data|, size, k);
    PacketContents(data, size, i);
    OffsetNext(i, size);
  }

  /**
   * With a positive size, the last byte of every slot is dropped: its packet
   * stops one byte short of it, at `size - 1` bytes.
   */
  lemma SlotEndDropped(data: seq<Byte>, size: int, k: int)
    requires size > 0 && 0 <= k < |data| && k % size == size - 1
    ensures |Packet(data, size, k / size)| == size - 1
    ensures Offset(k / size, size) + |Packet(data, size, k / size)| == k
  {
    var i := k / size;
    SlotOfByte(k, size);
    ByteSlotIsSent(|data|, size, k);
    PacketContents(data, size, i);
    OffsetNext(i, size);
  }

  lemma DivMonotone(a: int, b: int, c: int)
    requires 0 <= a <= b && c > 0
    ensures a / c <= b / c
  {
    var qa, qb := a / c, b / c;
    assert qa * c <= a && b < qb * c + c;
    assert qa <= qb by {
      if qa > qb {
        MulMonotone(qb + 1, qa, c);
      }
    }
  }

  /**
   * The chunker called without a packet size: 1024-byte slots, of which
   * 1023 bytes each are sent.
   */
  method SegmentBytesDefault(data: seq<Byte>) returns (r: Result<seq<seq<Byte>>>)
    ensures r.Ok? && |r.value| == |data| / DefaultPacketSize + 1
    ensures forall i :: 0 <= i < |r.value| ==> |r.value[i]| <= DefaultPacketSize - 1
  {
    r := SegmentBytes(data, Some(DefaultPacketSize));
    forall i | 0 <= i < |r.value|
      ensures |r.value[i]| <= DefaultPacketSize - 1
    {
      PacketContents(data, DefaultPacketSize, i);
    }
  }
}

=== FILE: commands.dfy ===
/**
 * The text command handler: a line is split into words, the first word
 * picks a command family and the rest are its arguments. A recognised
 * command builds an event and hands it to the event handler.
 *
 * Python's exception flow is kept: `InvalidCommand` and `KeyError` are
 * caught and logged, every other exception escapes the handler. Events are
 * plain values here. Two kinds of event cannot be built as written: the
 * element events are not defined anywhere, so naming one raises NameError,
 * and the system events inherit an `__init__` without parameters while the
 * handler passes them one, so building one raises TypeError.
 */
module Commands {
  import opened Outcomes
  import opened PyStr
  import opened PyDict
  import opened DataClasses
  import opened SystemState
  import opened SystemEvents
  import opened EventHandling

  /** What one input line comes to. */
  datatype Outcome =
    | Dispatch(event: Event)   // an event was built and goes to the handler
    | Unassigned               // accepted, but no event was built (logged)
    | Rejected                 // InvalidCommand or KeyError, caught and logged
    | Crash(error: PyError)    // any other exception leaves the handler

  /** The modes `system operation mode` names. */
  predicate KnownMode(m: string) {
    m == "test" || m == "auto" || m == "extreme"
  }

  /**
   * The arguments after `system`, as written. The start, stop and mode
   * events inherit `Event.__init__(self)`, yet the handler passes each one an
   * argument (the element or the system), so building any of them raises
   * TypeError; an unknown mode or subcommand raises InvalidCommand.
   */
  function SystemCommand(args: seq<string>): (r: Result<Option<Event>>)
    ensures r.Raise? && r.error in {IndexError, TypeError, InvalidCommand}
    ensures r == Raise(TypeError) ==> |args| > 0 && args[0] in {"start", "stop", "operation"}
  {
    if |args| == 0 then Raise(IndexError)
    else if args[0] == "start" || args[0] == "stop" then Raise(TypeError)
    else if args[0] == "operation" then
      if |args| < 2 then Raise(IndexError)
      else if args[1] == "mode" then
        if |args| < 3 then Raise(IndexError)
        else if KnownMode(args[2]) then Raise(TypeError)
        else Raise(InvalidCommand)
      else Raise(InvalidCommand)
    else Raise(InvalidCommand)
  }

  /**
   * The `system` branch with the events built as `Event.__init__` expects,
   * without an argument: start and stop are dispatched. A mode command still
   * ends in the `raise InvalidCommand` that follows the mode branches.
   */
  function SystemCommandIntended(args: seq<string>): (r: Result<Option<Event>>)
    ensures r.Ok? ==> r.value == Some(SystemStart) || r.value == Some(SystemStop)
    ensures r.Raise? ==> r.error in {IndexError, InvalidCommand}
  {
    if |args| == 0 then Raise(IndexError)
    else if args[0] == "start" then Ok(Some(SystemStart))
    else if args[0] == "stop" then Ok(Some(SystemStop))
    else if args[0] == "operation" then
      if |args| < 2 then Raise(IndexError)
      else if args[1] == "mode" then
        // The mode event is built for test, auto and extreme, then every
        // branch raises InvalidCommand anyway.
        if |args| < 3 then Raise(IndexError) else Raise(InvalidCommand)
      else Raise(InvalidCommand)
    else Raise(InvalidCommand)
  }

  /** The arguments after `element`. */
  function ElementCommand(args: seq<string>): (r: Result<Option<Event>>)
    ensures r.Raise? && r.error in {IndexError, NameError, InvalidCommand}
  {
    if |args| == 0 then Raise(IndexError)
    else if args[0] == "set" then
      if |args| < 2 then Raise(IndexError)
      else if args[1] == "heat" || args[1] == "cool" || args[1] == "heat+cool" then Raise(NameError)
      else Raise(InvalidCommand)
    else if args[0] == "get" then
      if |args| < 2 then Raise(IndexError)
      else if args[1] == "status" then Raise(NameError)
      else Raise(InvalidCommand)
    else Raise(InvalidCommand)
  }

  /**
   * `room <id> set ...`: the value is parsed before the damper is looked up,
   * and `set temp` parses the word "temp" itself rather than the value.
   */
  function RoomSet(s: State, room: int, args: seq<string>): (r: Result<Option<Event>>)
    requires |args| >= 2
    ensures r.Ok? ==> r.value.Some? && DamperRoom(s, r.value.value) && r.value.value.room == room
    ensures r.Raise? ==> r.error in {IndexError, ValueError, KeyError, InvalidCommand}
  {
    if |args| < 3 then Raise(IndexError)
    else if args[2] == "angle" || args[2] == "pwm" then
      if |args| < 4 then Raise(IndexError)
      else
        var v := ParseFloat(args[3]);
        if v.None? then Raise(ValueError)
        else if room !in Keys(s.dampers) then Raise(KeyError)
        else if args[2] == "angle" then Ok(Some(RegisterRotate(room, v.value)))
        else Ok(Some(RegisterPwm(room, v.value)))
    else if args[2] == "open" || args[2] == "close" then
      if room !in Keys(s.dampers) then Raise(KeyError)
      else if args[2] == "open" then Ok(Some(RegisterOpen(room)))
      else Ok(Some(RegisterClose(room)))
    else if args[2] == "temp" then
      ParseFloatOfTemp();
      match ParseFloat(args[2])
      case None => Raise(ValueError)
      case Some(v) =>
        if room !in Keys(s.targets) then Raise(KeyError)
        else Ok(Some(TemperatureTargetUpdated(room, Temperature(v))))
    else Raise(InvalidCommand)
  }

  /** The arguments after `room`. */
  function RoomCommand(s: State, args: seq<string>): (r: Result<Option<Event>>)
    ensures r.Ok? && r.value.Some? ==> DamperRoom(s, r.value.value)
    ensures r.Raise? ==> r.error in {IndexError, ValueError, KeyError, InvalidCommand}
  {
    if |args| == 0 then Raise(IndexError)
    else
      var room := ParseInt(args[0]);
      if room.None? then Raise(ValueError)
      else if |args| < 2 then Raise(IndexError)
      else if args[1] == "set" then RoomSet(s, room.value, args)
      else if args[1] == "get" then
        if |args| < 3 then Raise(IndexError)
        else if args[2] == "status" then
          if room.value in Keys(s.targets) then Ok(None) else Raise(KeyError)
        else Raise(InvalidCommand)
      else Raise(InvalidCommand)
  }

  /** The arguments after `fan`: accepted or refused, never an event. */
  function FanCommand(args: seq<string>): (r: Result<Option<Event>>)
    ensures r.Ok? ==> r.value.None?
    ensures r.Raise? ==> r.error in {IndexError, InvalidCommand}
  {
    if |args| == 0 then Raise(IndexError)
    else if args[0] == "set" then
      if |args| < 2 then Raise(IndexError)
      else if args[1] == "on" || args[1] == "off" then Ok(None)
      else Raise(InvalidCommand)
    else if args[0] == "get" then
      if |args| < 2 then Raise(IndexError) else Ok(None)
    else Raise(InvalidCommand)
  }

  /** The `try` body: the event built, no event, or the exception raised. */
  function ParseCommand(s: State, words: seq<string>): (r: Result<Option<Event>>)
    requires |words| > 0
    ensures r.Ok? && r.value.Some? ==> DamperRoom(s, r.value.value)
    ensures r == Ok(None) ==> words[0] in {"room", "fan"}
    ensures r.Raise? ==> r.error in {IndexError, ValueError, NameError, TypeError, KeyError, InvalidCommand}
  {
    var command := words[0];
    var args := words[1..];
    if command == "system" then SystemCommand(args)
    else if command == "element" then ElementCommand(args)
    else if command == "room" then RoomCommand(s, args)
    else if command == "fan" then FanCommand(args)
    else Raise(InvalidCommand)
  }

  /** The `except (InvalidCommand, KeyError)` clause and the final dispatch test. */
  function Conclude(r: Result<Option<Event>>): (o: Outcome)
    ensures o.Dispatch? <==> r.Ok? && r.value.Some?
    ensures o.Unassigned? <==> r == Ok(None)
    ensures o.Rejected? <==> r == Raise(InvalidCommand) || r == Raise(KeyError)
    ensures o.Crash? ==> r == Raise(o.error) && o.error != InvalidCommand && o.error != KeyError
  {
    match r
    case Ok(Some(e)) => Dispatch(e)
    case Ok(None) => Unassigned
    case Raise(err) => if err == InvalidCommand || err == KeyError then Rejected else Crash(err)
  }

  /** A damper command for a room the system has. */
  predicate DamperRoom(s: State, e: Event) {
    (e.RegisterOpen? || e.RegisterClose? || e.RegisterRotate? || e.RegisterPwm?) && e.room in Keys(s.dampers)
  }

  /**
   * `handle_input` up to the dispatch. The words are split outside the
   * `try`, so a blank line escapes as IndexError. The only events that ever
   * come out are damper commands for a room the system has: the system and
   * element events cannot be built and `set temp` cannot parse its value.
   */
  function HandleLine(s: State, line: string): (o: Outcome)
    ensures |Split(line)| == 0 ==> o == Crash(IndexError)
    ensures o.Dispatch? ==> DamperRoom(s, o.event)
    ensures o.Crash? ==> o.error in {IndexError, ValueError, NameError, TypeError}
    ensures o.Unassigned? ==> Split(line)[0] in {"room", "fan"}
  {
    var words := Split(line);
    if |words| == 0 then Crash(IndexError) else Conclude(ParseCommand(s, words))
  }

  /**
   * `handle_input` with its dispatch: a built event is added to the event
   * handler, which runs it at once unless a drain holds the lock; any other
   * outcome leaves the handler and the state alone.
   */
  method HandleInput(h: Handler, s: State, line: string) returns (o: Outcome, h': Handler, s': State)
    ensures o == HandleLine(s, line)
    ensures o.Dispatch? && !h.locked ==> h' == Handler([], false) && s' == Action(RunAll(s, h.queue), o.event)
    ensures o.Dispatch? && h.locked ==> h' == Handler(h.queue + [o.event], true) && s' == s
    ensures !o.Dispatch? ==> h' == h && s' == s
  {
    o := HandleLine(s, line);
    if o.Dispatch? {
      h', s' := AddEvent(h, s, o.event);
      assert [o.event][1..] == [];
    } else {
      h', s' := h, s;
    }
  }

  // ---------------------------------------------------------------------------
  // Commands as a user types them
  // ---------------------------------------------------------------------------

  /** The decimal spelling of a room id, with a minus sign when negative. */
  function RoomWord(n: int): (w: string)
    ensures ParseInt(w) == Some(n)
    ensures IsToken(w)
  {
    ParseIntOfNatToString(if n < 0 then -n else n);
    SignedDigitsAreToken(n < 0, NatToString(if n < 0 then -n else n));
    if n < 0 then "-" + NatToString(-n) else NatToString(n)
  }

  predicate AllTokens(ws: seq<string>) {
    forall i :: 0 <= i < |ws| ==> IsToken(ws[i])
  }

  /** The command words are single tokens. */
  lemma KeywordsAreTokens()
    ensures IsToken("room") && IsToken("set") && IsToken("get") && IsToken("status")
    ensures IsToken("open") && IsToken("close") && IsToken("angle") && IsToken("pwm")
  {
  }

  /** Words joined with single spaces are handled as those words. */
  lemma HandleJoined(s: State, ws: seq<string>)
    requires |ws| > 0 && AllTokens(ws)
    ensures HandleLine(s, JoinSpace(ws)) == Conclude(ParseCommand(s, ws))
  {
    SplitJoinSpace(ws);
  }

  /** Leading whitespace does not change how a line is handled. */
  lemma LeadingSpaceIgnored(s: State, ws: string, line: string)
    requires AllSpace(ws)
    ensures HandleLine(s, ws + line) == HandleLine(s, line)
  {
    SplitSkipsLeadingSpace(ws, line);
  }

  /** A line starting with `room` is handled by the room branch. */
  lemma RoomBranch(s: State, ws: seq<string>)
    requires |ws| > 0 && ws[0] == "room"
    ensures ParseCommand(s, ws) == RoomCommand(s, ws[1..])
  {
    assert ws[0] != "system" && ws[0] != "element";
  }

  /** `room <id> set ...` with a parsable id goes to the `set` branch for that id. */
  lemma RoomSetBranch(s: State, args: seq<string>)
    requires |args| >= 2 && ParseInt(args[0]).Some? && args[1] == "set"
    ensures RoomCommand(s, args) == RoomSet(s, ParseInt(args[0]).value, args)
  {
  }

  /** `set open` and `set close` need only the damper. */
  lemma RoomSetOpenClose(s: State, n: int, args: seq<string>)
    requires |args| >= 3 && (args[2] == "open" || args[2] == "close")
    ensures RoomSet(s, n, args) ==
      if n !in Keys(s.dampers) then Raise(KeyError)
      else if args[2] == "open" then Ok(Some(RegisterOpen(n)))
      else Ok(Some(RegisterClose(n)))
  {
    assert args[2] != "angle" && args[2] != "pwm";
  }

  /** `set angle <v>` and `set pwm <v>` carry the parsed value to the damper. */
  lemma RoomSetAnglePwm(s: State, n: int, args: seq<string>)
    requires |args| >= 4 && (args[2] == "angle" || args[2] == "pwm") && ParseFloat(args[3]).Some?
    ensures RoomSet(s, n, args) ==
      if n !in Keys(s.dampers) then Raise(KeyError)
      else if args[2] == "angle" then Ok(Some(RegisterRotate(n, ParseFloat(args[3]).value)))
      else Ok(Some(RegisterPwm(n, ParseFloat(args[3]).value)))
  {
  }

  /** A typed `room <id> set ...` line comes down to the `set` branch for that id. */
  lemma RoomSetLine(s: State, line: string, ws: seq<string>)
    requires Split(line) == ws && |ws| >= 3
    requires ws[0] == "room" && ParseInt(ws[1]).Some? && ws[2] == "set"
    ensures HandleLine(s, line) == Conclude(RoomSet(s, ParseInt(ws[1]).value, ws[1..]))
  {
    RoomBranch(s, ws);
    RoomSetBranch(s, ws[1..]);
  }

  /**
   * `room <id> set open` dispatches exactly the open event for a known room
   * and is refused (KeyError) for an unknown one; likewise `close`. Words
   * after the verb are ignored.
   */
  lemma OpenCloseCommands(s: State, line: string, ws: seq<string>)
    requires Split(line) == ws && |ws| >= 4
    requires ws[0] == "room" && ParseInt(ws[1]).Some? && ws[2] == "set" && (ws[3] == "open" || ws[3] == "close")
    ensures var n := ParseInt(ws[1]).value;
      HandleLine(s, line) ==
        if n !in Keys(s.dampers) then Rejected
        else if ws[3] == "open" then Dispatch(RegisterOpen(n))
        else Dispatch(RegisterClose(n))
  {
    RoomSetLine(s, line, ws);
    RoomSetOpenClose(s, ParseInt(ws[1]).value, ws[1..]);
  }

  /**
   * `room <id> set angle <v>` and `room <id> set pwm <v>` dispatch the value
   * typed, for a known room, once the value parses.
   */
  lemma AnglePwmCommands(s: State, line: string, ws: seq<string>)
    requires Split(line) == ws && |ws| >= 5
    requires ws[0] == "room" && ParseInt(ws[1]).Some? && ws[2] == "set" && (ws[3] == "angle" || ws[3] == "pwm")
    requires ParseFloat(ws[4]).Some?
    ensures var n, v := ParseInt(ws[1]).value, ParseFloat(ws[4]).value;
      HandleLine(s, line) ==
        if n !in Keys(s.dampers) then Rejected
        else if ws[3] == "angle" then Dispatch(RegisterRotate(n, v))
        else Dispatch(RegisterPwm(n, v))
  {
    RoomSetLine(s, line, ws);
    RoomSetAnglePwm(s, ParseInt(ws[1]).value, ws[1..]);
  }

  /** An angle or PWM value that does not parse escapes as ValueError, whatever the room. */
  lemma AnglePwmBadValue(s: State, line: string, ws: seq<string>)
    requires Split(line) == ws && |ws| >= 5
    requires ws[0] == "room" && ParseInt(ws[1]).Some? && ws[2] == "set" && (ws[3] == "angle" || ws[3] == "pwm")
    requires ParseFloat(ws[4]).None?
    ensures HandleLine(s, line) == Crash(ValueError)
  {
    RoomSetLine(s, line, ws);
  }

  /** `room <id> set temp ...` always fails with ValueError, whatever follows and whatever the room. */
  lemma SetTempAlwaysFails(s: State, line: string, ws: seq<string>)
    requires Split(line) == ws && |ws| >= 4
    requires ws[0] == "room" && ParseInt(ws[1]).Some? && ws[2] == "set" && ws[3] == "temp"
    ensures HandleLine(s, line) == Crash(ValueError)
  {
    RoomSetLine(s, line, ws);
    ParseFloatOfTemp();
    assert ws[3] != "angle" && ws[3] != "pwm" && ws[3] != "open" && ws[3] != "close";
  }

  /** `room <id> get status` is accepted without an event for a room with a sensor, refused otherwise. */
  lemma RoomStatusCommand(s: State, line: string, ws: seq<string>)
    requires Split(line) == ws && |ws| >= 4
    requires ws[0] == "room" && ParseInt(ws[1]).Some? && ws[2] == "get" && ws[3] == "status"
    ensures HandleLine(s, line) == if ParseInt(ws[1]).value in Keys(s.targets) then Unassigned else Rejected
  {
    RoomBranch(s, ws);
    assert ws[1..][1] == "get" != "set";
  }

  /**
   * No `system operation mode <m>` command changes the mode: a known mode
   * escapes as TypeError from the event's constructor, any other is refused.
   */
  lemma OperationModeCommands(s: State, line: string, ws: seq<string>)
    requires Split(line) == ws && |ws| >= 4
    requires ws[0] == "system" && ws[1] == "operation" && ws[2] == "mode"
    ensures KnownMode(ws[3]) ==> HandleLine(s, line) == Crash(TypeError)
    ensures !KnownMode(ws[3]) ==> HandleLine(s, line) == Rejected
  {
    assert ws[1..][0] == "operation" && ws[1..][1] == "mode" && ws[1..][2] == ws[3];
    assert "operation" != "start" && "operation" != "stop";
  }

  /** As written `system start` and `system stop` escape as TypeError: nothing is dispatched. */
  lemma StartStopCommands(s: State, line: string, ws: seq<string>)
    requires Split(line) == ws && |ws| >= 2
    requires ws[0] == "system" && (ws[1] == "start" || ws[1] == "stop")
    ensures HandleLine(s, line) == Crash(TypeError)
  {
    assert ws[1..][0] == ws[1];
  }

  /**
   * With the events built without an argument, `start` and `stop` yield
   * their event, whose inherited action changes nothing, where the code as
   * written raises TypeError.
   */
  lemma StartStopIntended(s: State, args: seq<string>)
    requires |args| > 0 && (args[0] == "start" || args[0] == "stop")
    ensures SystemCommandIntended(args) == Ok(Some(if args[0] == "start" then SystemStart else SystemStop))
    ensures SystemCommand(args) == Raise(TypeError)
    ensures Action(s, SystemCommandIntended(args).value.value) == s
  {
  }

  /** `fan set on|off` and `fan get ...` are accepted but build no event. */
  lemma FanCommandsUnassigned(s: State, line: string, ws: seq<string>)
    requires Split(line) == ws && |ws| >= 3 && ws[0] == "fan"
    requires (ws[1] == "set" && (ws[2] == "on" || ws[2] == "off")) || ws[1] == "get"
    ensures HandleLine(s, line) == Unassigned
  {
    assert ws[0] != "system" && ws[0] != "element" && ws[0] != "room";
    assert ws[1..][0] == ws[1] && ws[1..][1] == ws[2];
  }

  /** Any first word other than the four command families is refused. */
  lemma UnknownCommandRejected(s: State, line: string)
    requires |Split(line)| > 0 && !(Split(line)[0] in {"system", "element", "room", "fan"})
    ensures HandleLine(s, line) == Rejected
  {
  }

  /** A concrete line: `room 1 set angle 45`, when room 1 has a damper. */
  lemma RotateRoomOneExample(s: State)
    requires 1 in Keys(s.dampers)
    ensures HandleLine(s, JoinSpace(["room", RoomWord(1), "set", "angle", NatToString(45)])) == Dispatch(RegisterRotate(1, 45.0))
  {
    KeywordsAreTokens();
    var v := NatToString(45);
    ParseFloatOfNatToString(45, "");
    assert v + "" == v;
    SignedDigitsAreToken(false, v);
    var ws := ["room", RoomWord(1), "set", "angle", v];
    FiveTokens("room", RoomWord(1), "set", "angle", v);
    SplitJoinSpace(ws);
    AnglePwmCommands(s, JoinSpace(ws), ws);
  }

  lemma FiveTokens(a: string, b: string, c: string, d: string, e: string)
    requires IsToken(a) && IsToken(b) && IsToken(c) && IsToken(d) && IsToken(e)
    ensures forall i :: 0 <= i < 5 ==> IsToken([a, b, c, d, e][i])
  {
  }
}

=== FILE: customlogger.dfy ===
/**
 * Creating the directory a log file goes in. The directory is taken from the
 * absolute path by splitting at a separator character and dropping the last
 * component; it is created, with its parents, only when it does not exist.
 * The file system is the set of directories that exist.
 */
module CustomLogger {
  import opened Outcomes
  import opened PyStr

  /** The separator the logger splits at: a Windows backslash. */
  const WindowsSep: char := '\\'

  /** The separator of the POSIX file system the controller runs on. */
  const PosixSep: char := '/'

  /** Every `sep`-separated component of `path` but the last, rejoined with `sep`. */
  function DirPath(path: string, sep: char): (d: string)
    ensures sep !in path ==> d == ""
    ensures sep in path ==>
      && |d| < |path|
      && path[..|d|] == d
      && path[|d|] == sep
      && sep !in path[|d| + 1..]
  {
    var parts := SplitOn(path, sep);
    var d := JoinOn(PySlice(parts, 0, -1), sep);
    if sep in path then
      DirPathSplits(path, sep);
      d
    else
      d
  }

  /** The directory, a separator and the last component make up the whole path. */
  lemma DirPathSplits(path: string, sep: char)
    requires sep in path
    ensures path == JoinOn(PySlice(SplitOn(path, sep), 0, -1), sep) + [sep] + SplitOn(path, sep)[|SplitOn(path, sep)| - 1]
  {
    var parts := SplitOn(path, sep);
    var i := FirstIndexOf(path, sep);
    assert parts == [path[..i]] + SplitOn(path[i + 1..], sep);
    assert |parts| >= 2;
    assert PySlice(parts, 0, -1) == parts[..|parts| - 1];
    JoinOnDropLast(parts, sep);
    JoinSplitOn(path, sep);
  }

  /** `path.exists(d)`: the empty path never exists. */
  predicate Exists(dirs: set<string>, d: string) {
    d != "" && d in dirs
  }

  /**
   * `create_path_for_file` splitting at `sep`: nothing happens when the
   * directory exists; otherwise `makedirs` creates it, and fails with
   * FileNotFoundError when the directory string is empty.
   */
  function CreatePathFor(dirs: set<string>, absPath: string, sep: char): (r: Result<set<string>>)
    ensures Exists(dirs, DirPath(absPath, sep)) ==> r == Ok(dirs)
    ensures !Exists(dirs, DirPath(absPath, sep)) && DirPath(absPath, sep) != "" ==>
      r == Ok(dirs + {DirPath(absPath, sep)})
    ensures r.Raise? <==> DirPath(absPath, sep) == ""
    ensures r.Raise? ==> r.error == FileNotFoundError
    ensures r.Ok? ==> dirs <= r.value && Exists(r.value, DirPath(absPath, sep))
  {
    var d := DirPath(absPath, sep);
    if Exists(dirs, d) then Ok(dirs)
    else if d == "" then Raise(FileNotFoundError)
    else Ok(dirs + {d})
  }

  /** The directory created for a file, as written: split at backslashes. */
  function CreatePathForFile(dirs: set<string>, absPath: string): (r: Result<set<string>>)
    ensures WindowsSep !in absPath ==> r == Raise(FileNotFoundError)
  {
    CreatePathFor(dirs, absPath, WindowsSep)
  }

  /**
   * On a POSIX path, which has no backslash, the directory string is empty
   * and `makedirs` fails. The system log's path is such a path.
   */
  lemma PosixLogPathFails(dirs: set<string>)
    ensures CreatePathForFile(dirs, "/home/pi/log/system/system.csv") == Raise(FileNotFoundError)
  {
    var p := "/home/pi/log/system/system.csv";
    assert WindowsSep !in p;
  }

  /** The directory is everything before the last separator. */
  lemma DirPathIsBeforeLastSep(path: string, sep: char, j: nat)
    requires j < |path| && path[j] == sep && sep !in path[j + 1..]
    ensures DirPath(path, sep) == path[..j]
  {
    assert sep in path;
  }

  /**
   * Splitting at the platform separator gives the file's parent directory
   * for any file below the root: the path up to its last separator, which
   * `makedirs` creates when missing.
   */
  lemma PosixDirIsParent(dirs: set<string>, absPath: string, j: nat)
    requires 0 < j < |absPath| && absPath[j] == PosixSep && PosixSep !in absPath[j + 1..]
    ensures DirPath(absPath, PosixSep) == absPath[..j] != ""
    ensures CreatePathFor(dirs, absPath, PosixSep).Ok?
    ensures CreatePathFor(dirs, absPath, PosixSep).value == dirs + {absPath[..j]}
  {
    DirPathIsBeforeLastSep(absPath, PosixSep, j);
    assert |absPath[..j]| == j;
  }
}

=== FILE: dataclasses.dfy ===
/**
 * The `Temperature` value type and the configuration records that are
 * serialised through their parameter dictionaries.
 *
 * Temperatures are exact reals in degrees Celsius; the Fahrenheit view is
 * derived from them.
 */
module DataClasses {
  import opened Outcomes
  import opened PyDict

  /** A temperature, stored in degrees Celsius. */
  datatype Temperature = Temperature(celsius: real)

  /** The Fahrenheit reading of a temperature: the Celsius value is recovered from it by the setter's formula. */
  function Fahrenheit(t: Temperature): (f: real)
    ensures (f - 32.0) * 5.0 / 9.0 == t.celsius
  {
    t.celsius * 9.0 / 5.0 + 32.0
  }

  /** Assigning `fahrenheit = f` stores the Celsius value that `f` stands for. */
  function SetFahrenheit(t: Temperature, f: real): (r: Temperature)
    ensures Fahrenheit(r) == f
  {
    Temperature((f - 32.0) * 5.0 / 9.0)
  }

  /** Assigning `celsius = c` stores `c` unchanged. */
  function SetCelsius(t: Temperature, c: real): (r: Temperature)
    ensures r.celsius == c
  {
    Temperature(c)
  }

  /** `self - other`: the difference of the Celsius readings. */
  function Sub(a: Temperature, b: Temperature): (r: Temperature)
    ensures r.celsius + b.celsius == a.celsius
  {
    Temperature(a.celsius - b.celsius)
  }

  /** `self + other` as written: it subtracts, exactly like `Sub`. */
  function Add(a: Temperature, b: Temperature): (r: Temperature)
    ensures r == Sub(a, b)
  {
    Temperature(a.celsius - b.celsius)
  }

  /** `self > other`, strictly on the Celsius readings: the mirror image of `<`. */
  function Gt(a: Temperature, b: Temperature): (r: bool)
    ensures r <==> Lt(b, a)
    ensures r ==> a != b
  {
    a.celsius > b.celsius
  }

  /** `self < other`, strictly on the Celsius readings; the Fahrenheit readings are in the same order. */
  function Lt(a: Temperature, b: Temperature): (r: bool)
    ensures r <==> Fahrenheit(a) < Fahrenheit(b)
    ensures r ==> a != b
  {
    a.celsius < b.celsius
  }

  /** Reading Fahrenheit after setting it, and Celsius after setting it, both give the value back. */
  lemma FahrenheitRoundTrip(t: Temperature, f: real, c: real)
    ensures Fahrenheit(SetFahrenheit(t, f)) == f
    ensures SetFahrenheit(t, Fahrenheit(t)) == t
    ensures SetCelsius(t, c).celsius == c
  {
  }

  /** A room at 19.56 degrees Celsius reads 67.208 degrees Fahrenheit. */
  lemma FahrenheitOfSample()
    ensures Fahrenheit(Temperature(19.56)) == 67.208
  {
  }

  /** -40 is where the two scales meet, read either way. */
  lemma MinusFortyFixedPoint(t: Temperature)
    ensures Fahrenheit(SetCelsius(t, -40.0)) == -40.0
    ensures SetFahrenheit(t, -40.0).celsius == -40.0
    ensures forall c: real :: Fahrenheit(Temperature(c)) == c <==> c == -40.0
  {
  }

  /** The conversion is strictly increasing, so it preserves the ordering of temperatures. */
  lemma FahrenheitMonotone(a: Temperature, b: Temperature)
    ensures Lt(a, b) <==> Fahrenheit(a) < Fahrenheit(b)
  {
  }

  /**
   * `__add__` is not addition: `a + b` and `a - b` coincide, so adding a
   * positive amount lowers the reading, and `+` is not commutative.
   */
  lemma AddSubtracts(a: Temperature, b: Temperature)
    ensures Add(a, b).celsius == a.celsius - b.celsius
    ensures b.celsius > 0.0 ==> Lt(Add(a, b), a)
    ensures Add(a, b) == Add(b, a) <==> a == b
  {
  }

  /** The comparisons are strict: irreflexive, never both true, and mirror images of each other. */
  lemma OrderingStrict(a: Temperature, b: Temperature)
    ensures !Gt(a, a) && !Lt(a, a)
    ensures !(Gt(a, b) && Lt(a, b))
    ensures Gt(a, b) <==> Lt(b, a)
    ensures !Gt(a, b) && !Lt(a, b) <==> a == b
  {
  }

  // ---------------------------------------------------------------------------
  // Configuration records and their parameter dictionaries
  // ---------------------------------------------------------------------------

  /** The element's temperature limits. */
  datatype LimitConfiguration = LimitConfiguration(max: real, min: real)

  /** A room's ideal temperature. */
  datatype RoomConfiguration = RoomConfiguration(idealTemperature: real)

  /** The parameter dictionary of the base `Configuration`: empty. */
  function BaseParams(): (p: Dict<string, real>)
    ensures Keys(p) == []
  {
    []
  }

  /** The parameters of a limit configuration: exactly `max` and `min`, in that order. */
  function LimitParams(c: LimitConfiguration): (p: Dict<string, real>)
    ensures Keys(p) == ["max", "min"]
    ensures Get(p, "max") == Some(c.max) && Get(p, "min") == Some(c.min)
  {
    [("max", c.max), ("min", c.min)]
  }

  /** The parameters of a room configuration: exactly `ideal_temperature`. */
  function RoomParams(c: RoomConfiguration): (p: Dict<string, real>)
    ensures Keys(p) == ["ideal_temperature"]
    ensures Get(p, "ideal_temperature") == Some(c.idealTemperature)
  {
    [("ideal_temperature", c.idealTemperature)]
  }

  /**
   * `LimitConfiguration(**params)`: the constructor takes exactly the keyword
   * arguments `max` and `min`; a missing or an extra one is a TypeError.
   */
  function LimitFromParams(p: Dict<string, real>): (r: Result<LimitConfiguration>)
    requires Distinct(p)
    ensures r.Ok? <==> (forall k :: k in Keys(p) <==> k == "max" || k == "min")
    ensures r.Raise? ==> r.error == TypeError
  {
    var mx := Get(p, "max");
    var mn := Get(p, "min");
    if mx.Some? && mn.Some? && |p| == 2 then
      Ok(LimitConfiguration(mx.value, mn.value))
    else
      assert mx.Some? && mn.Some? ==> |p| >= 2 by {
        if mx.Some? && mn.Some? { TwoKeysNeedTwoEntries(p, "max", "min"); }
      }
      assert |p| > 2 ==> exists k :: k in Keys(p) && k != "max" && k != "min" by {
        if |p| > 2 { ThirdKey(p, "max", "min"); }
      }
      Raise(TypeError)
  }

  /** `RoomConfiguration(**params)`: exactly the keyword `ideal_temperature`. */
  function RoomFromParams(p: Dict<string, real>): (r: Result<RoomConfiguration>)
    requires Distinct(p)
    ensures r.Ok? <==> (forall k :: k in Keys(p) <==> k == "ideal_temperature")
    ensures r.Raise? ==> r.error == TypeError
  {
    var t := Get(p, "ideal_temperature");
    if t.Some? && |p| == 1 then
      Ok(RoomConfiguration(t.value))
    else
      assert |p| > 1 ==> exists k :: k in Keys(p) && k != "ideal_temperature" by {
        if |p| > 1 { OtherKey(p, "ideal_temperature"); }
      }
      Raise(TypeError)
  }

  lemma TwoKeysNeedTwoEntries<K, V>(p: Dict<K, V>, a: K, b: K)
    requires a != b && a in Keys(p) && b in Keys(p)
    ensures |p| >= 2
  {
    var i :| 0 <= i < |p| && Keys(p)[i] == a;
    var j :| 0 <= j < |p| && Keys(p)[j] == b;
    assert i != j;
  }

  lemma OtherKey<K, V>(p: Dict<K, V>, a: K)
    requires Distinct(p) && |p| > 1
    ensures exists k :: k in Keys(p) && k != a
  {
    if p[0].0 != a {
      assert Keys(p)[0] == p[0].0;
      assert p[0].0 in Keys(p);
    } else {
      assert Keys(p)[1] == p[1].0;
      assert p[1].0 in Keys(p);
    }
  }

  lemma ThirdKey<K, V>(p: Dict<K, V>, a: K, b: K)
    requires Distinct(p) && |p| > 2
    ensures exists k :: k in Keys(p) && k != a && k != b
  {
    if p[0].0 != a && p[0].0 != b {
      assert Keys(p)[0] == p[0].0;
      assert p[0].0 in Keys(p);
    } else if p[1].0 != a && p[1].0 != b {
      assert Keys(p)[1] == p[1].0;
      assert p[1].0 in Keys(p);
    } else {
      assert Keys(p)[2] == p[2].0;
      assert p[2].0 in Keys(p);
    }
  }

  /** Serialising a configuration's parameters and constructing from them gives it back. */
  lemma ParamsRoundTrip(c: LimitConfiguration, rc: RoomConfiguration)
    ensures LimitFromParams(LimitParams(c)) == Ok(c)
    ensures RoomFromParams(RoomParams(rc)) == Ok(rc)
  {
  }
}

=== FILE: dataretrieval.dfy ===
/**
 * Reading a device log back for a time window. Each CSV row of a log holds a
 * timestamp, a log level and a reading; the filter keeps the rows strictly
 * inside the window, in file order, as (time, reading) pairs. Timestamps are
 * modelled as integers (seconds on one clock).
 */
module DataRetrieval {

  /** One row of a device log, its timestamp already parsed. */
  datatype Row = Row(time: int, level: string, reading: string)

  /** A row as the filter yields it: the time and the reading, without the level. */
  type Sample = (int, string)

  /** The window's ends in increasing order: swapped when given the wrong way round. */
  function Normalise(range: (int, int)): (w: (int, int))
    ensures w.0 <= w.1
    ensures w == range || w == (range.1, range.0)
  {
    if range.1 < range.0 then (range.1, range.0) else range
  }

  /** Swapping the ends of a range does not change its normalised window. */
  lemma NormaliseSwap(a: int, b: int)
    ensures Normalise((a, b)) == Normalise((b, a))
  {
  }

  /** A time strictly inside the normalised window. */
  predicate InWindow(t: int, range: (int, int)) {
    Normalise(range).0 < t < Normalise(range).1
  }

  /** The sample a row yields. */
  function SampleOf(row: Row): Sample {
    (row.time, row.reading)
  }

  /** Every row's sample, in order. */
  function Samples(rows: seq<Row>): (ss: seq<Sample>)
    ensures |ss| == |rows|
    ensures forall i :: 0 <= i < |rows| ==> ss[i] == SampleOf(rows[i])
  {
    seq(|rows|, i requires 0 <= i < |rows| => SampleOf(rows[i]))
  }

  /**
   * `iget_time_filtered_readings` with the yielded pairs collected: the
   * samples of the rows strictly inside the window, in file order.
   */
  function TimeFiltered(rows: seq<Row>, range: (int, int)): (out: seq<Sample>)
    ensures |out| <= |rows|
    ensures forall i :: 0 <= i < |out| ==> InWindow(out[i].0, range)
    decreases |rows|
  {
    if |rows| == 0 then []
    else
      var rest := TimeFiltered(rows[1..], range);
      if InWindow(rows[0].time, range) then [SampleOf(rows[0])] + rest else rest
  }

  /** Filtering a log split in two is filtering each part, in order. */
  lemma {:induction false} TimeFilteredConcat(a: seq<Row>, b: seq<Row>, range: (int, int))
    ensures TimeFiltered(a + b, range) == TimeFiltered(a, range) + TimeFiltered(b, range)
    decreases |a|
  {
    if |a| == 0 {
      assert a + b == b;
    } else {
      assert (a + b)[1..] == a[1..] + b;
      TimeFilteredConcat(a[1..], b, range);
    }
  }

  /** A sample is yielded exactly when some row inside the window produced it. */
  lemma {:induction false} TimeFilteredMembership(rows: seq<Row>, range: (int, int), s: Sample)
    ensures s in TimeFiltered(rows, range) <==>
      exists i :: 0 <= i < |rows| && SampleOf(rows[i]) == s && InWindow(rows[i].time, range)
    decreases |rows|
  {
    if |rows| > 0 {
      TimeFilteredMembership(rows[1..], range, s);
      if exists i :: 0 <= i < |rows| && SampleOf(rows[i]) == s && InWindow(rows[i].time, range) {
        var i :| 0 <= i < |rows| && SampleOf(rows[i]) == s && InWindow(rows[i].time, range);
        if i > 0 {
          assert rows[1..][i - 1] == rows[i];
        }
      }
      if s in TimeFiltered(rows[1..], range) {
        var i :| 0 <= i < |rows| - 1 && SampleOf(rows[1..][i]) == s && InWindow(rows[1..][i].time, range);
        assert rows[i + 1] == rows[1..][i];
      }
    }
  }

  /** `xs` is `ys` with some elements removed, the rest in their order. */
  predicate Subsequence<T(==)>(xs: seq<T>, ys: seq<T>)
    decreases |ys|
  {
    if |xs| == 0 then true
    else if |ys| == 0 then false
    else if xs[0] == ys[0] then Subsequence(xs[1..], ys[1..])
    else Subsequence(xs, ys[1..])
  }

  /** Dropping the head of the candidate keeps it a subsequence of anything it was one of. */
  lemma {:induction false} SubsequenceDropHead<T>(xs: seq<T>, ys: seq<T>)
    requires |xs| > 0 && Subsequence(xs, ys)
    ensures Subsequence(xs[1..], ys)
    decreases |ys|, 0
  {
    if xs[0] == ys[0] {
      SubsequenceSkip(xs[1..], ys[1..], ys[0]);
    } else {
      SubsequenceDropHead(xs, ys[1..]);
      SubsequenceSkip(xs[1..], ys[1..], ys[0]);
    }
  }

  /** A subsequence stays one when an element is put in front of the sequence. */
  lemma {:induction false} SubsequenceSkip<T>(xs: seq<T>, ys: seq<T>, y: T)
    requires Subsequence(xs, ys)
    ensures Subsequence(xs, [y] + ys)
    decreases |ys|, 1
  {
    assert ([y] + ys)[1..] == ys;
    if |xs| > 0 && xs[0] == y {
      SubsequenceDropHead(xs, ys);
    }
  }

  /** The filter yields an order-preserving selection of the rows' samples. */
  lemma {:induction false} TimeFilteredIsSubsequence(rows: seq<Row>, range: (int, int))
    ensures Subsequence(TimeFiltered(rows, range), Samples(rows))
    decreases |rows|
  {
    if |rows| > 0 {
      TimeFilteredIsSubsequence(rows[1..], range);
      assert Samples(rows) == [SampleOf(rows[0])] + Samples(rows[1..]);
      var rest := TimeFiltered(rows[1..], range);
      if InWindow(rows[0].time, range) {
        assert ([SampleOf(rows[0])] + rest)[1..] == rest;
      } else {
        SubsequenceSkip(rest, Samples(rows[1..]), SampleOf(rows[0]));
      }
    }
  }

  /** The order of the two ends of the range does not matter. */
  lemma TimeFilteredSwapInvariant(rows: seq<Row>, a: int, b: int)
    ensures TimeFiltered(rows, (a, b)) == TimeFiltered(rows, (b, a))
  {
    NormaliseSwap(a, b);
    TimeFilteredSameWindow(rows, (a, b), (b, a));
  }

  lemma {:induction false} TimeFilteredSameWindow(rows: seq<Row>, r1: (int, int), r2: (int, int))
    requires forall t :: InWindow(t, r1) == InWindow(t, r2)
    ensures TimeFiltered(rows, r1) == TimeFiltered(rows, r2)
    decreases |rows|
  {
    if |rows| > 0 {
      TimeFilteredSameWindow(rows[1..], r1, r2);
    }
  }

  /**
   * `iget_data_from_time_delta`: the samples from the last `delta` seconds
   * before `now`, both ends excluded. The range is passed newest first and
   * normalised, so for a non-negative delta the window is `(now - delta, now)`.
   */
  function TimeDelta(rows: seq<Row>, now: int, delta: int): (out: seq<Sample>)
    ensures delta >= 0 ==> forall i :: 0 <= i < |out| ==> now - delta < out[i].0 < now
    ensures delta < 0 ==> forall i :: 0 <= i < |out| ==> now < out[i].0 < now - delta
  {
    TimeFiltered(rows, (now, now - delta))
  }

  /** A row is reported by the time-delta read exactly when it lies in the open window. */
  lemma TimeDeltaMembership(rows: seq<Row>, now: int, delta: int, s: Sample)
    requires delta >= 0
    ensures s in TimeDelta(rows, now, delta) <==>
      exists i :: 0 <= i < |rows| && SampleOf(rows[i]) == s && now - delta < rows[i].time < now
  {
    TimeFilteredMembership(rows, (now, now - delta), s);
  }
}

=== FILE: eventhandler.dfy ===
/**
 * The event handler: a FIFO queue of events and a lock that marks a drain in
 * progress. The background drain thread is run to completion in sequence, so
 * the lock is only ever observed held by a caller that arrives mid-drain.
 */
module EventHandling {
  import opened SystemState
  import opened SystemEvents

  /** The queued events, oldest first, and whether the handle lock is held. */
  datatype Handler = Handler(queue: seq<Event>, locked: bool)

  /** A new handler: empty queue, lock free. */
  function NewHandler(): (h: Handler)
    ensures h.queue == [] && !h.locked
  {
    Handler([], false)
  }

  /**
   * `process_event_queue`: while the queue is not empty, take the lock, take
   * the oldest event, run its action and release the lock. The lock is held
   * only while one action runs, so the returned handler has it free. Returns
   * the drained handler, the state after all actions and the events handled
   * in the order they ran.
   */
  method ProcessEventQueue(h: Handler, s: State) returns (h': Handler, s': State, handled: seq<Event>)
    ensures h'.queue == [] && !h'.locked
    ensures handled == h.queue
    ensures s' == RunAll(s, h.queue)
  {
    var queue := h.queue;
    s' := s;
    handled := [];
    while |queue| > 0
      invariant handled + queue == h.queue
      invariant s' == RunAll(s, handled)
      decreases |queue|
    {
      var e := queue[0];
      queue := queue[1..];
      RunAllAppend(s, handled, e);
      s' := Action(s', e);
      handled := handled + [e];
    }
    h' := Handler(queue, false);
  }

  /**
   * `add_event`: the event joins the tail of the queue, and the queue is
   * drained at once only when the lock is free; otherwise the event waits
   * for the drain in progress.
   */
  method AddEvent(h: Handler, s: State, e: Event) returns (h': Handler, s': State)
    ensures !h.locked ==> h' == Handler([], false) && s' == RunAll(RunAll(s, h.queue), [e])
    ensures h.locked ==> h' == Handler(h.queue + [e], true) && s' == s
  {
    var queued := Handler(h.queue + [e], h.locked);
    if !queued.locked {
      var handled;
      h', s', handled := ProcessEventQueue(queued, s);
      RunAllConcat(s, h.queue, [e]);
    } else {
      h', s' := queued, s;
    }
  }
}

=== FILE: interpolation.dfy ===
/**
 * Straight lines through two points and piecewise-linear interpolation over
 * a table of calibration points.
 */
module LinearInterpolation {
  import opened Outcomes
  import opened PyStr

  // ---------------------------------------------------------------------------
  // Line
  // ---------------------------------------------------------------------------

  /** `y = m * x + b`. */
  datatype Line = Line(m: real, b: real)

  /**
   * `Line(x1, x2, y1, y2)`: the slope through the two points and, as written,
   * the intercept `y2` (not the value at `x = 0`). Equal x values divide by
   * zero.
   */
  function MakeLine(x1: real, x2: real, y1: real, y2: real): (r: Result<Line>)
    ensures r.Raise? <==> x1 == x2
    ensures r.Raise? ==> r.error == ZeroDivisionError
    ensures r.Ok? ==> r.value.m * (x2 - x1) == y2 - y1 && r.value.b == y2
  {
    var deltaX := x2 - x1;
    var deltaY := y2 - y1;
    if deltaX == 0.0 then Raise(ZeroDivisionError) else Ok(Line(deltaY / deltaX, y2))
  }

  /** `line[x]`. */
  function LineAt(l: Line, x: real): real {
    l.m * x + l.b
  }

  /** The line is affine: differences of values are the slope times differences of arguments. */
  lemma LineAffine(l: Line, a: real, c: real)
    ensures LineAt(l, a) - LineAt(l, c) == l.m * (a - c)
    ensures LineAt(l, 0.0) == l.b
  {
  }

  /**
   * Because the intercept is `y2`, the line passes through `(0, y2)` in every
   * case. When `y1 != y2` it passes through its second point only when
   * `x2 == 0`; when `y1 == y2` the slope is zero and it passes through both
   * points wherever they lie.
   */
  lemma LineThroughSecondPointOnlyAtZero(x1: real, x2: real, y1: real, y2: real)
    requires x1 != x2
    ensures LineAt(MakeLine(x1, x2, y1, y2).value, 0.0) == y2
    ensures y1 != y2 ==> (LineAt(MakeLine(x1, x2, y1, y2).value, x2) == y2 <==> x2 == 0.0)
    ensures y1 == y2 ==> LineAt(MakeLine(x1, x2, y1, y2).value, x1) == y1
    ensures y1 == y2 ==> LineAt(MakeLine(x1, x2, y1, y2).value, x2) == y2
  {
    var l := MakeLine(x1, x2, y1, y2).value;
    if y1 != y2 {
      assert l.m != 0.0;
      assert LineAt(l, x2) - y2 == l.m * x2;
    }
  }

  // ---------------------------------------------------------------------------
  // Interpolate
  // ---------------------------------------------------------------------------

  predicate StrictlyAscending(xs: seq<real>) {
    forall i :: 0 <= i < |xs| - 1 ==> xs[i] < xs[i + 1]
  }

  /** A validated interpolation table and the slope of each of its segments. */
  datatype Interpolate = Interpolate(xs: seq<real>, ys: seq<real>, slopes: seq<real>)

  function Min(a: int, b: int): int {
    if a <= b then a else b
  }

  /** `s` is the slope of the segment from `(x0, y0)` to `(x1, y1)`. */
  predicate SlopeFits(s: real, x0: real, x1: real, y0: real, y1: real) {
    s * (x1 - x0) == y1 - y0
  }

  /**
   * The slopes of consecutive segments; like `zip`, it stops at the end of
   * the shorter of the two lists.
   */
  function Slopes(xs: seq<real>, ys: seq<real>): (s: seq<real>)
    requires StrictlyAscending(xs)
    ensures |s| == if Min(|xs|, |ys|) > 0 then Min(|xs|, |ys|) - 1 else 0
    ensures forall i :: 0 <= i < |s| ==> SlopeFits(s[i], xs[i], xs[i + 1], ys[i], ys[i + 1])
    decreases |xs|
  {
    if |xs| < 2 || |ys| < 2 then []
    else
      var rest := Slopes(xs[1..], ys[1..]);
      [(ys[1] - ys[0]) / (xs[1] - xs[0])] + rest
  }

  /**
   * `Interpolate(x_list, y_list)`: ValueError unless the x values strictly
   * ascend; otherwise the table with its segment slopes.
   */
  function MakeInterpolate(xs: seq<real>, ys: seq<real>): (r: Result<Interpolate>)
    ensures r.Ok? <==> StrictlyAscending(xs)
    ensures r.Raise? ==> r.error == ValueError
    ensures r.Ok? ==> r.value.xs == xs && r.value.ys == ys && r.value.slopes == Slopes(xs, ys)
  {
    if exists i :: 0 <= i < |xs| - 1 && xs[i + 1] - xs[i] <= 0.0 then Raise(ValueError)
    else Ok(Interpolate(xs, ys, Slopes(xs, ys)))
  }

  /** The argument of `interp[x]`: Python keeps integers and floats apart. */
  datatype Query = IntQuery(i: int) | FloatQuery(x: real)

  /**
   * `interp[x]` as written: it first tries `y_list[x]`. A float index raises
   * TypeError and an out-of-range integer raises IndexError; the handler only
   * catches KeyError, so neither reaches the interpolation code.
   */
  function LookupAsWritten(ip: Interpolate, q: Query): (r: Result<real>)
    ensures r.Ok? ==> r.value in ip.ys
    ensures r.Raise? ==> r.error in {TypeError, IndexError}
  {
    match q
    case FloatQuery(_) => Raise(TypeError)
    case IntQuery(i) => PyIndex(ip.ys, i)
  }

  /**
   * A float query fails with TypeError wherever it falls, while the intended
   * lookup succeeds for every query inside the table: nothing is ever
   * interpolated.
   */
  lemma LookupNeverInterpolates(ip: Interpolate, k: nat, x: real)
    requires StrictlyAscending(ip.xs) && ip.slopes == Slopes(ip.xs, ip.ys)
    requires |ip.ys| == |ip.xs|
    requires k + 1 < |ip.xs| && ip.xs[k] < x <= ip.xs[k + 1]
    ensures LookupAsWritten(ip, FloatQuery(x)) == Raise(TypeError)
    ensures InterpolateAt(ip, x).Ok?
  {
    InterpolateAtInside(ip, k, x);
  }

  /** The table of a two-point line queried halfway: 0.5 is a float, so the lookup fails. */
  lemma HalfwayLookupFails()
    ensures MakeInterpolate([0.0, 1.0], [0.0, 2.0]).Ok?
    ensures LookupAsWritten(MakeInterpolate([0.0, 1.0], [0.0, 2.0]).value, FloatQuery(0.5)) == Raise(TypeError)
    ensures InterpolateAt(MakeInterpolate([0.0, 1.0], [0.0, 2.0]).value, 0.5) == Ok(1.0)
  {
    var ip := MakeInterpolate([0.0, 1.0], [0.0, 2.0]).value;
    assert ip.slopes == [2.0];
    assert BisectLeft(ip.xs, 0.5) == 1;
  }

  /** `bisect_left(xs, x)`: how many leading entries are below `x`. */
  function BisectLeft(xs: seq<real>, x: real): (i: nat)
    ensures i <= |xs|
    ensures forall j :: 0 <= j < i ==> xs[j] < x
    ensures i < |xs| ==> xs[i] >= x
    decreases |xs|
  {
    if |xs| == 0 then 0
    else if xs[0] < x then 1 + BisectLeft(xs[1..], x)
    else 0
  }

  /**
   * The lookup the handler's body describes, run for every query: the
   * segment is found with `bisect_left`, and the result is the segment's
   * start value plus its slope times the distance from its start. Indices
   * follow Python, so a query left of the table reads the last segment.
   */
  function InterpolateAt(ip: Interpolate, x: real): (r: Result<real>)
    ensures r.Raise? ==> r.error == IndexError
  {
    var i := BisectLeft(ip.xs, x) - 1;
    var y := PyIndex(ip.ys, i);
    var s := PyIndex(ip.slopes, i);
    var x0 := PyIndex(ip.xs, i);
    if y.Ok? && s.Ok? && x0.Ok? then Ok(SegmentValue(y.value, s.value, x0.value, x))
    else Raise(IndexError)
  }

  /** The value at `x` of the segment starting at `(x0, y0)` with slope `s`. */
  function SegmentValue(y0: real, s: real, x0: real, x: real): real {
    y0 + s * (x - x0)
  }

  lemma BisectLeftInside(xs: seq<real>, k: nat, x: real)
    requires StrictlyAscending(xs)
    requires k + 1 < |xs| && xs[k] < x <= xs[k + 1]
    ensures BisectLeft(xs, x) == k + 1
  {
    var i := BisectLeft(xs, x);
    if i < k + 1 {
      AscendingMonotone(xs, i, k);
    }
  }

  lemma {:induction false} AscendingMonotone(xs: seq<real>, i: nat, k: nat)
    requires StrictlyAscending(xs)
    requires i <= k < |xs|
    ensures xs[i] <= xs[k]
    decreases k - i
  {
    if i < k {
      AscendingMonotone(xs, i + 1, k);
    }
  }

  /** `y0 + s * (x - x0)` lies between the segment's end values when `x` lies inside it. */
  lemma SegmentValueBetween(x0: real, x1: real, y0: real, y1: real, s: real, x: real)
    requires x0 < x <= x1
    requires SlopeFits(s, x0, x1, y0, y1)
    ensures y0 <= y1 ==> y0 <= SegmentValue(y0, s, x0, x) <= y1
    ensures y1 <= y0 ==> y1 <= SegmentValue(y0, s, x0, x) <= y0
    ensures x == x1 ==> SegmentValue(y0, s, x0, x) == y1
  {
    var d := x1 - x0;
    var u := x - x0;
    assert 0.0 < u <= d;
    assert s * d == y1 - y0;
    if s >= 0.0 {
      assert s * u >= 0.0;
      assert s * (d - u) >= 0.0;
      assert s * u <= s * d;
      assert y0 <= y1;
    } else {
      assert s * u < 0.0;
      assert s * (d - u) <= 0.0;
      assert s * u >= s * d;
      assert y1 < y0;
    }
  }

  /** Inside the table the corrected lookup is the segment formula of the segment holding `x`. */
  lemma InterpolateAtSegment(ip: Interpolate, k: nat, x: real)
    requires StrictlyAscending(ip.xs) && ip.slopes == Slopes(ip.xs, ip.ys)
    requires |ip.ys| == |ip.xs|
    requires k + 1 < |ip.xs| && ip.xs[k] < x <= ip.xs[k + 1]
    ensures k < |ip.slopes|
    ensures InterpolateAt(ip, x) == Ok(SegmentValue(ip.ys[k], ip.slopes[k], ip.xs[k], x))
  {
    BisectLeftInside(ip.xs, k, x);
    assert |ip.slopes| == |ip.xs| - 1;
    assert PyIndex(ip.ys, k) == Ok(ip.ys[k]);
    assert PyIndex(ip.slopes, k) == Ok(ip.slopes[k]);
    assert PyIndex(ip.xs, k) == Ok(ip.xs[k]);
  }

  /**
   * Inside the table the corrected lookup lies between the end values of its
   * segment, and a stored point reads back its own y value.
   */
  lemma InterpolateAtInside(ip: Interpolate, k: nat, x: real)
    requires StrictlyAscending(ip.xs) && ip.slopes == Slopes(ip.xs, ip.ys)
    requires |ip.ys| == |ip.xs|
    requires k + 1 < |ip.xs| && ip.xs[k] < x <= ip.xs[k + 1]
    ensures InterpolateAt(ip, x).Ok?
    ensures ip.ys[k] <= ip.ys[k + 1] ==> ip.ys[k] <= InterpolateAt(ip, x).value <= ip.ys[k + 1]
    ensures ip.ys[k + 1] <= ip.ys[k] ==> ip.ys[k + 1] <= InterpolateAt(ip, x).value <= ip.ys[k]
    ensures x == ip.xs[k + 1] ==> InterpolateAt(ip, x) == Ok(ip.ys[k + 1])
  {
    InterpolateAtSegment(ip, k, x);
    SegmentValueBetween(ip.xs[k], ip.xs[k + 1], ip.ys[k], ip.ys[k + 1], ip.slopes[k], x);
  }
}

=== FILE: outcomes.dfy ===
/** Failure-carrying wrappers shared by every module of the controller model. */
module Outcomes {

  /** An optional value: Python's `None` or a present value. */
  datatype Option<T> = None | Some(value: T)

  /** The Python exceptions that the modelled code raises or lets escape. */
  datatype PyError =
    | IndexError
    | KeyError
    | ValueError
    | TypeError
    | NameError
    | AttributeError
    | ZeroDivisionError
    | OverTemperature
    | UnderTemperature
    | TemperatureNotFound
    | InvalidCommand
    | FileNotFoundError

  /** Either a value or the exception a Python call would raise. */
  datatype Result<T> = Ok(value: T) | Raise(error: PyError)
}

=== FILE: pisensors.dfy ===
/**
 * The Raspberry Pi sensor layer: the 1-Wire (DS18B20) `w1_slave` file parser,
 * the device-path and bus-id string handling, the measurement id and the
 * active-low switch reading. File contents and pin levels are parameters.
 */
module PiSensors {
  import opened Outcomes
  import opened PyStr

  // ---------------------------------------------------------------------------
  // The w1_slave reading
  // ---------------------------------------------------------------------------

  /**
   * The check on the first line of a snapshot of the file: the last three
   * characters of the stripped line are `YES` (the CRC matched). A snapshot
   * with no lines fails with IndexError.
   */
  function FirstLineReady(lines: seq<string>): (r: Result<bool>)
    ensures |lines| == 0 <==> r == Raise(IndexError)
    ensures |lines| > 0 ==> r == Ok(EndsWith(Strip(lines[0]), "YES"))
  {
    match PyIndex(lines, 0)
    case Raise(e) => Raise(e)
    case Ok(first) =>
      var t := Strip(first);
      NegativeSliceIsEndsWith(t, "YES");
      Ok(PySlice(t, -3, |t|) == "YES")
  }

  /** A snapshot whose first line passed the CRC check. */
  predicate Ready(lines: seq<string>) {
    |lines| > 0 && EndsWith(Strip(lines[0]), "YES")
  }

  /** Thousandths of a degree as degrees. */
  function FromMilli(v: real): (c: real)
    ensures Milli(c) == v
  {
    v / 1000.0
  }

  /** Degrees as thousandths of a degree. */
  function Milli(c: real): real {
    c * 1000.0
  }

  /**
   * The temperature on a reading line: the number after the first `t=`, in
   * thousandths of a degree, converted to degrees Celsius. No `t=` is
   * TemperatureNotFound, and text after `t=` that is not a number is
   * ValueError.
   */
  function TemperatureOfLine(line: string): (r: Result<real>)
    ensures r == Raise(TemperatureNotFound) <==> forall j :: !OccursAt(line, "t=", j)
    ensures r.Ok? ==> Find(line, "t=") >= 0 && ParseFloat(line[Find(line, "t=") + 2..]) == Some(Milli(r.value))
    ensures r.Raise? ==> r.error in {TemperatureNotFound, ValueError}
  {
    var p := Find(line, "t=");
    if p == -1 then Raise(TemperatureNotFound)
    else ReadingAfterMarker(line[p + 2..])
  }

  /** The text after `t=` read as thousandths of a degree; ValueError when it is not a number. */
  function ReadingAfterMarker(rest: string): (r: Result<real>)
    ensures r.Ok? <==> ParseFloat(rest).Some?
    ensures r.Ok? ==> ParseFloat(rest) == Some(Milli(r.value))
    ensures r.Raise? ==> r.error == ValueError
  {
    match ParseFloat(rest)
    case None => Raise(ValueError)
    case Some(v) => Ok(FromMilli(v))
  }

  /** The temperature on the second line of a snapshot; IndexError when there is none. */
  function ParseTemperature(lines: seq<string>): (r: Result<real>)
    ensures |lines| < 2 <==> r == Raise(IndexError)
    ensures |lines| >= 2 ==> r == TemperatureOfLine(lines[1])
  {
    match PyIndex(lines, 1)
    case Raise(e) => Raise(e)
    case Ok(line) => TemperatureOfLine(line)
  }

  /**
   * The wait loop of `_hardware_read` over the successive snapshots of the
   * file that its re-reads see: snapshots whose first line fails the check
   * are skipped (the 0.2 second sleep between them is not modelled) and the
   * first one that passes ends the loop. `Ok(None)` means every snapshot
   * given was skipped and the loop is still waiting.
   */
  function WaitForReady(snapshots: seq<seq<string>>): (r: Result<Option<seq<string>>>)
    ensures r.Raise? ==> r.error == IndexError
    ensures r.Ok? && r.value.Some? ==> Ready(r.value.value)
    decreases |snapshots|
  {
    if |snapshots| == 0 then Ok(None)
    else
      match FirstLineReady(snapshots[0])
      case Raise(e) => Raise(e)
      case Ok(ready) => if ready then Ok(Some(snapshots[0])) else WaitForReady(snapshots[1..])
  }

  /**
   * `_hardware_read`: wait for a snapshot that passes the check, then read
   * the temperature from its second line.
   */
  function HardwareRead(snapshots: seq<seq<string>>): (r: Result<Option<real>>)
    ensures r.Raise? ==> r.error in {IndexError, TemperatureNotFound, ValueError}
    ensures r == Ok(None) <==> WaitForReady(snapshots) == Ok(None)
  {
    match WaitForReady(snapshots)
    case Raise(e) => Raise(e)
    case Ok(None) => Ok(None)
    case Ok(Some(lines)) => Reported(ParseTemperature(lines))
  }

  /** The outcome of parsing one snapshot, as `HardwareRead` reports it. */
  function Reported(r: Result<real>): (o: Result<Option<real>>)
    ensures o != Ok(None)
  {
    match r
    case Raise(e) => Raise(e)
    case Ok(v) => Ok(Some(v))
  }

  /**
   * The read is still waiting exactly when the check on every snapshot
   * returned False.
   */
  lemma HardwareReadWaiting(snapshots: seq<seq<string>>)
    ensures HardwareRead(snapshots) == Ok(None) <==> forall k :: 0 <= k < |snapshots| ==> FirstLineReady(snapshots[k]) == Ok(false)
  {
    if forall k :: 0 <= k < |snapshots| ==> FirstLineReady(snapshots[k]) == Ok(false) {
      WaitAllSkipped(snapshots);
    }
    if WaitForReady(snapshots) == Ok(None) {
      forall k | 0 <= k < |snapshots|
        ensures FirstLineReady(snapshots[k]) == Ok(false)
      {
        WaitSkipped(snapshots, k);
      }
    }
  }

  lemma {:induction false} WaitAllSkipped(snapshots: seq<seq<string>>)
    requires forall k :: 0 <= k < |snapshots| ==> FirstLineReady(snapshots[k]) == Ok(false)
    ensures WaitForReady(snapshots) == Ok(None)
    decreases |snapshots|
  {
    if |snapshots| > 0 {
      var rest := snapshots[1..];
      assert forall k :: 0 <= k < |rest| ==> rest[k] == snapshots[k + 1];
      WaitAllSkipped(rest);
    }
  }

  lemma {:induction false} WaitSkipped(snapshots: seq<seq<string>>, k: nat)
    requires WaitForReady(snapshots) == Ok(None) && k < |snapshots|
    ensures FirstLineReady(snapshots[k]) == Ok(false)
    decreases k
  {
    assert FirstLineReady(snapshots[0]) == Ok(false);
    if k > 0 {
      var rest := snapshots[1..];
      assert rest[k - 1] == snapshots[k];
      WaitSkipped(rest, k - 1);
    }
  }

  /**
   * The reading comes from the first snapshot that passes the check: every
   * earlier one has a first line and fails it.
   */
  lemma HardwareReadUsesFirstReadySnapshot(snapshots: seq<seq<string>>, k: nat)
    requires k < |snapshots| && Ready(snapshots[k])
    requires forall j :: 0 <= j < k ==> |snapshots[j]| > 0 && !Ready(snapshots[j])
    ensures HardwareRead(snapshots) == Reported(ParseTemperature(snapshots[k]))
  {
    WaitStopsAtFirstReady(snapshots, k);
  }

  lemma {:induction false} WaitStopsAtFirstReady(snapshots: seq<seq<string>>, k: nat)
    requires k < |snapshots| && Ready(snapshots[k])
    requires forall j :: 0 <= j < k ==> |snapshots[j]| > 0 && !Ready(snapshots[j])
    ensures WaitForReady(snapshots) == Ok(Some(snapshots[k]))
    decreases k
  {
    if k > 0 {
      var rest := snapshots[1..];
      assert forall j :: 0 <= j < k - 1 ==> rest[j] == snapshots[j + 1];
      WaitStopsAtFirstReady(rest, k - 1);
    }
  }

  /** The digits of a reading in thousandths of a degree, as the driver writes them. */
  function MilliText(m: int): string {
    if m < 0 then "-" + NatToString(-m) else NatToString(m)
  }

  lemma NonNegativeMilliText(m: int, ws: string)
    requires m >= 0 && AllSpace(ws)
    ensures ParseFloat(MilliText(m) + ws) == Some(m as real)
  {
    var n: nat := m;
    assert MilliText(m) == NatToString(n);
    ParseFloatOfNatToString(n, ws);
  }

  lemma NegativeMilliText(m: int, ws: string)
    requires m < 0 && AllSpace(ws)
    ensures ParseFloat(MilliText(m) + ws) == Some(m as real)
  {
    var n: nat := -m;
    NegativeMilliSpelling(m, n, ws);
    ParseFloatOfNegativeNatToString(n, ws);
  }

  lemma NegativeMilliSpelling(m: int, n: nat, ws: string)
    requires m < 0 && n == -m
    ensures MilliText(m) + ws == "-" + NatToString(n) + ws
  {
  }

  /** The driver's digits read back as the same number. */
  lemma ParseFloatOfMilliText(m: int, ws: string)
    requires AllSpace(ws)
    ensures ParseFloat(MilliText(m) + ws) == Some(m as real)
  {
    if m < 0 {
      NegativeMilliText(m, ws);
    } else {
      NonNegativeMilliText(m, ws);
    }
  }

  /** In a line `<prefix>t=<rest>` whose prefix has no `t`, the first `t=` follows the prefix. */
  lemma FindAfterPrefix(prefix: string, rest: string)
    requires 't' !in prefix
    ensures Find(prefix + "t=" + rest, "t=") == |prefix|
  {
    var line := prefix + "t=" + rest;
    var n := |prefix|;
    assert OccursAt(line, "t=", n) by { assert line[n..n + 2] == "t="; }
    forall j | 0 <= j < n ensures !OccursAt(line, "t=", j) {
      assert line[j] == prefix[j] && prefix[j] != 't';
      if j + 2 <= |line| {
        assert line[j..j + 2][0] == line[j];
      }
    }
  }

  /** The line's temperature is the number read after its first `t=`. */
  lemma TemperatureAfterMarker(line: string, n: nat, v: real)
    requires Find(line, "t=") == n
    requires ParseFloat(line[n + 2..]) == Some(v)
    ensures TemperatureOfLine(line) == Ok(FromMilli(v))
  {
  }

  /**
   * A second line of the form `<prefix>t=<m><whitespace>`, whose prefix has no
   * `t`, reads as `m / 1000` degrees.
   */
  lemma TemperatureOfMillidegrees(first: string, prefix: string, m: int, ws: string)
    requires 't' !in prefix && AllSpace(ws)
    ensures TemperatureOfLine(prefix + "t=" + MilliText(m) + ws) == Ok(FromMilli(m as real))
    ensures ParseTemperature([first, prefix + "t=" + MilliText(m) + ws]) == Ok(FromMilli(m as real))
  {
    var line := prefix + "t=" + MilliText(m) + ws;
    FindAfterPrefix(prefix, MilliText(m) + ws);
    assert line == prefix + "t=" + (MilliText(m) + ws);
    assert line[|prefix| + 2..] == MilliText(m) + ws;
    ParseFloatOfMilliText(m, ws);
    TemperatureAfterMarker(line, |prefix|, m as real);
  }

  lemma MilliTextOfExample()
    ensures MilliText(23125) == "23125"
  {
    assert DigitChar(2) == '2' && DigitChar(3) == '3' && DigitChar(1) == '1' && DigitChar(5) == '5';
    assert NatToString(23) == NatToString(2) + [DigitChar(3)];
    assert NatToString(231) == NatToString(23) + [DigitChar(1)];
    assert NatToString(2312) == NatToString(231) + [DigitChar(2)];
    assert NatToString(23125) == NatToString(2312) + [DigitChar(5)];
  }

  /** The CRC line of a typical sensor file passes the check. */
  lemma TypicalCrcLine(first: string)
    requires first == "72 01 4b 46 7f ff 0e 10 57 : crc=57 YES"
    ensures Strip(first + "\n") == first && EndsWith(first, "YES")
  {
    assert LStrip(first + "\n") == first + "\n";
    assert AllSpace("\n");
    RStripTrailingSpace(first, "\n");
  }

  /** The temperature line of a typical sensor file: 23125 thousandths of a degree. */
  lemma TypicalTemperatureLine(prefix: string)
    requires prefix == "72 01 4b 46 7f ff 0e 10 57 "
    ensures TemperatureOfLine(prefix + "t=23125\n") == Ok(23.125)
  {
    assert prefix + "t=23125\n" == prefix + "t=" + "23125" + "\n";
    MilliTextOfExample();
    assert 't' !in prefix;
    assert AllSpace("\n");
    TemperatureOfMillidegrees("", prefix, 23125, "\n");
    assert FromMilli(23125 as real) == 23.125;
  }

  /** A typical sensor file: CRC check passed, 23125 thousandths of a degree. */
  lemma TypicalReading()
    ensures HardwareRead([[
      "72 01 4b 46 7f ff 0e 10 57 : crc=57 YES\n",
      "72 01 4b 46 7f ff 0e 10 57 t=23125\n"]]) == Ok(Some(23.125))
  {
    var first := "72 01 4b 46 7f ff 0e 10 57 : crc=57 YES";
    var prefix := "72 01 4b 46 7f ff 0e 10 57 ";
    var line1 := first + "\n";
    var line2 := prefix + "t=23125\n";
    assert line1 == "72 01 4b 46 7f ff 0e 10 57 : crc=57 YES\n";
    assert line2 == "72 01 4b 46 7f ff 0e 10 57 t=23125\n";
    TypicalCrcLine(first);
    TypicalTemperatureLine(prefix);
    SingleSnapshotRead(line1, line2, 23.125);
  }

  /** A single snapshot whose first line passes the check reads as its second line's temperature. */
  lemma SingleSnapshotRead(line1: string, line2: string, v: real)
    requires EndsWith(Strip(line1), "YES") && TemperatureOfLine(line2) == Ok(v)
    ensures HardwareRead([[line1, line2]]) == Ok(Some(v))
  {
    assert Ready([line1, line2]);
    HardwareReadUsesFirstReadySnapshot([[line1, line2]], 0);
  }

  // ---------------------------------------------------------------------------
  // Paths and ids
  // ---------------------------------------------------------------------------

  /** Where the kernel lists the 1-Wire devices. */
  const BaseDir: string := "/sys/bus/w1/devices/"

  /** The reading file of the temperature sensor with the given id. */
  function DevicePath(id: string): (p: string)
    ensures |p| == |BaseDir| + 3 + |id| + 9
    ensures p[..|BaseDir|] == BaseDir && p[|BaseDir|..|BaseDir| + 3] == "28-"
    ensures p[|BaseDir| + 3..|p| - 9] == id
    ensures EndsWith(p, "/w1_slave")
  {
    BaseDir + "28-" + id + "/w1_slave"
  }

  /** A bus entry: the last twelve characters of a matched device folder. */
  function BusId(folder: string): (id: string)
    ensures |id| == if |folder| < 12 then |folder| else 12
    ensures EndsWith(folder, id)
  {
    PySlice(folder, -12, |folder|)
  }

  /** The bus ids of the matched folders, in the order they were listed. */
  function BusIds(folders: seq<string>): (ids: seq<string>)
    ensures |ids| == |folders|
    ensures forall i :: 0 <= i < |folders| ==> |ids[i]| <= 12 && EndsWith(folders[i], ids[i])
  {
    seq(|folders|, i requires 0 <= i < |folders| => BusId(folders[i]))
  }

  /**
   * For a device folder `28-<id>` with a twelve-character id, the bus entry is
   * the id, and the path built from it is that folder's reading file.
   */
  lemma BusIdRoundTrip(id: string)
    requires |id| == 12
    ensures BusId(BaseDir + "28-" + id) == id
    ensures DevicePath(BusId(BaseDir + "28-" + id)) == BaseDir + "28-" + id + "/w1_slave"
  {
    var folder := BaseDir + "28-" + id;
    assert folder[|folder| - 12..] == id;
  }

  /** The id a measurement records: the sensor name, lower-cased. */
  function MeasurementId(name: string): (id: string)
    ensures |id| == |name|
    ensures forall i :: 0 <= i < |id| ==> !IsUpper(id[i])
    ensures forall i :: 0 <= i < |id| ==> !IsUpper(name[i]) ==> id[i] == name[i]
    ensures forall i :: 0 <= i < |name| ==> id[i] == LowerChar(name[i])
  {
    Lower(name)
  }

  /** Lower-casing an id a second time changes nothing. */
  lemma MeasurementIdIdempotent(name: string)
    ensures MeasurementId(MeasurementId(name)) == MeasurementId(name)
  {
  }

  // ---------------------------------------------------------------------------
  // Switch sensor
  // ---------------------------------------------------------------------------

  /** A switch reading: the pin level, inverted when the switch is active low. */
  function SwitchRead(level: bool, activeLow: bool): (pressed: bool)
    ensures !activeLow ==> pressed == level
    ensures activeLow ==> pressed == !level
  {
    level != activeLow
  }

  /** Applying the active-low inversion twice gives the pin level back. */
  lemma SwitchReadInvolution(level: bool, activeLow: bool)
    ensures SwitchRead(SwitchRead(level, activeLow), activeLow) == level
  {
  }
}

=== FILE: projectsystem.dfy ===
/**
 * The decision step of the main system: the direction-filtered error sum,
 * the damper policy of the auto cycle, the target drift of the extreme
 * cycle, the mode setups, the sleep time between cycles, the room errors
 * and the classification of one round of sensor readings.
 *
 * Room errors are plain `real`s (degrees Celsius, reading minus target).
 */
module ProjectSystem {
  import opened Outcomes
  import opened PyDict
  import opened DataClasses
  import opened Sensors
  import opened ActiveComponents
  import opened SystemState

  // ---------------------------------------------------------------------------
  // error_sum
  // ---------------------------------------------------------------------------

  /** A room error that asks for no more work in the element's direction. */
  predicate Satisfied(heating: bool, e: real) {
    if heating then e >= 0.0 else e <= 0.0
  }

  /** What one error adds to the sum: only errors in the wrong direction for the mode count. */
  function Contribution(heating: bool, e: real): (c: real)
    ensures heating ==> c <= 0.0
    ensures !heating ==> c >= 0.0
    ensures c == 0.0 <==> Satisfied(heating, e)
  {
    if heating then (if e < 0.0 then e else 0.0)
    else (if e > 0.0 then e else 0.0)
  }

  /**
   * `error_sum`: while heating, the sum of the negative errors (rooms still
   * below target); otherwise the sum of the positive ones.
   */
  function ErrorSum(heating: bool, errors: seq<real>): (r: real)
    ensures heating ==> r <= 0.0
    ensures !heating ==> r >= 0.0
    decreases |errors|
  {
    if |errors| == 0 then 0.0 else Contribution(heating, errors[0]) + ErrorSum(heating, errors[1..])
  }

  /** The sum is zero exactly when every room is satisfied in the current direction. */
  lemma {:induction false} ErrorSumZeroIff(heating: bool, errors: seq<real>)
    ensures ErrorSum(heating, errors) == 0.0 <==> forall i :: 0 <= i < |errors| ==> Satisfied(heating, errors[i])
    decreases |errors|
  {
    if |errors| > 0 {
      ErrorSumZeroIff(heating, errors[1..]);
      assert forall i :: 1 <= i < |errors| ==> errors[i] == errors[1..][i - 1];
    }
  }

  lemma {:induction false} ErrorSumConcat(heating: bool, xs: seq<real>, ys: seq<real>)
    ensures ErrorSum(heating, xs + ys) == ErrorSum(heating, xs) + ErrorSum(heating, ys)
    decreases |xs|
  {
    if |xs| == 0 {
      assert xs + ys == ys;
    } else {
      assert (xs + ys)[1..] == xs[1..] + ys;
      ErrorSumConcat(heating, xs[1..], ys);
    }
  }

  /** The sum does not depend on the order in which the rooms are visited. */
  lemma {:induction false} ErrorSumPermutation(heating: bool, xs: seq<real>, ys: seq<real>)
    requires multiset(xs) == multiset(ys)
    ensures ErrorSum(heating, xs) == ErrorSum(heating, ys)
    decreases |xs|
  {
    if |xs| == 0 {
      assert |ys| == |multiset(ys)| == 0;
    } else {
      assert xs[0] in multiset(ys);
      var j :| 0 <= j < |ys| && ys[j] == xs[0];
      var rest := ys[..j] + ys[j + 1..];
      MultisetRemoveAt(xs, ys, j);
      ErrorSumPermutation(heating, xs[1..], rest);
      ErrorSumRemoveAt(heating, ys, j);
    }
  }

  /** Taking the same element out of two equal multisets leaves equal multisets. */
  lemma MultisetRemoveAt(xs: seq<real>, ys: seq<real>, j: int)
    requires |xs| > 0 && multiset(xs) == multiset(ys) && 0 <= j < |ys| && ys[j] == xs[0]
    ensures multiset(xs[1..]) == multiset(ys[..j] + ys[j + 1..])
  {
    assert ys == ys[..j] + [ys[j]] + ys[j + 1..];
    assert xs == [xs[0]] + xs[1..];
    calc {
      multiset(xs[1..]);
      multiset(xs) - multiset{xs[0]};
      multiset(ys) - multiset{ys[j]};
      { assert multiset(ys) == multiset(ys[..j]) + multiset{ys[j]} + multiset(ys[j + 1..]); }
      multiset(ys[..j]) + multiset(ys[j + 1..]);
    }
  }

  /** The sum counts element `j` once, wherever it sits. */
  lemma ErrorSumRemoveAt(heating: bool, ys: seq<real>, j: int)
    requires 0 <= j < |ys|
    ensures ErrorSum(heating, ys) == Contribution(heating, ys[j]) + ErrorSum(heating, ys[..j] + ys[j + 1..])
  {
    assert ys == ys[..j] + [ys[j]] + ys[j + 1..];
    ErrorSumConcat(heating, ys[..j] + [ys[j]], ys[j + 1..]);
    ErrorSumConcat(heating, ys[..j], [ys[j]]);
    ErrorSumConcat(heating, ys[..j], ys[j + 1..]);
    assert ErrorSum(heating, [ys[j]]) == Contribution(heating, ys[j]);
  }

  // ---------------------------------------------------------------------------
  // handle_auto_cycle
  // ---------------------------------------------------------------------------

  /** The result of a cycle step: the state reached and the exception that ended it, if any. */
  datatype Cycle = Cycle(state: State, raised: Option<PyError>)

  /**
   * The command one room's damper receives in an auto cycle. As written the
   * `cooling` test reads the heating flag, so the `elif` fires exactly when
   * heating.
   */
  function DamperPolicy(e: Element, err: real): (p: DamperPos)
    ensures p == Closed || p == Opened
    ensures p == Opened ==> e.enabled
  {
    if e.enabled then
      if Heating(e) && err >= 0.0 then Closed
      else if Cooling(e) && err <= 0.0 then Closed
      else Opened
    else Closed
  }

  /**
   * Consequently the room's error never matters: an enabled element that is
   * heating closes every damper, one that is cooling opens every damper, and
   * a disabled element closes every damper.
   */
  lemma DamperPolicyIgnoresError(e: Element, err: real, other: real)
    ensures !e.enabled ==> DamperPolicy(e, err) == Closed
    ensures e.enabled && Heating(e) && err >= 0.0 ==> DamperPolicy(e, err) == Closed
    ensures e.enabled ==> DamperPolicy(e, err) == if Heating(e) then Closed else Opened
    ensures DamperPolicy(e, err) == DamperPolicy(e, other)
  {
  }

  /** Position of the first damper whose room has no error entry (`|ds|` when there is none). */
  function FirstMissing(ds: Dict<int, DamperPos>, errors: Dict<int, real>): (k: nat)
    ensures k <= |ds|
    ensures forall j :: 0 <= j < k ==> ds[j].0 in Keys(errors)
    ensures k < |ds| ==> ds[k].0 !in Keys(errors)
    decreases |ds|
  {
    if |ds| == 0 || ds[0].0 !in Keys(errors) then 0 else 1 + FirstMissing(ds[1..], errors)
  }

  /**
   * The damper loop of the auto cycle, in the dampers' insertion order. A
   * damper without an error entry raises KeyError: the dampers before it
   * keep their new command and it and the rest keep their old one. The flag
   * says whether KeyError was raised.
   */
  function AutoDampers(ds: Dict<int, DamperPos>, e: Element, errors: Dict<int, real>): (r: (Dict<int, DamperPos>, bool))
    ensures |r.0| == |ds|
    ensures r.1 <==> FirstMissing(ds, errors) < |ds|
    ensures forall i :: 0 <= i < |ds| ==> r.0[i].0 == ds[i].0
    ensures forall i :: 0 <= i < FirstMissing(ds, errors) ==> r.0[i].1 == DamperPolicy(e, Get(errors, ds[i].0).value)
    ensures forall i :: FirstMissing(ds, errors) <= i < |ds| ==> r.0[i] == ds[i]
    decreases |ds|
  {
    if |ds| == 0 then ([], false)
    else
      match Get(errors, ds[0].0)
      case None => (ds, true)
      case Some(err) =>
        var rest := AutoDampers(ds[1..], e, errors);
        ([(ds[0].0, DamperPolicy(e, err))] + rest.0, rest.1)
  }

  /**
   * `heating = cooling` followed by `apply_state`. The direction stays as it
   * was, since the `cooling` getter reads the heating flag; only the pins are
   * rewritten to match it.
   */
  function FlipDirection(e: Element): (r: Element)
    ensures Consistent(r) && Heating(r) == Heating(e) && r.enabled == e.enabled
    ensures r.pins == Pins(e.enabled && Heating(e), e.enabled && !Heating(e))
  {
    ApplyState(SetHeating(e, Cooling(e)))
  }

  /**
   * `handle_auto_cycle`: command every damper, then flip the element's
   * direction when no room needs more work in the current one. The errors are
   * summed in the order of their dict.
   */
  function AutoCycle(s: State, errors: Dict<int, real>): (r: Cycle)
    ensures Keys(r.state.dampers) == Keys(s.dampers)
    ensures r.state.targets == s.targets && r.state.mode == s.mode && r.state.updateInterval == s.updateInterval
    ensures r.raised.Some? <==> exists i :: 0 <= i < |s.dampers| && s.dampers[i].0 !in Keys(errors)
    ensures r.raised.Some? ==> r.raised == Some(KeyError) && r.state.element == s.element
  {
    var (ds, missing) := AutoDampers(s.dampers, s.element, errors);
    if missing then Cycle(s.(dampers := ds), Some(KeyError))
    else if ErrorSum(Heating(s.element), Values(errors)) == 0.0 then
      Cycle(s.(dampers := ds, element := FlipDirection(s.element)), None)
    else Cycle(s.(dampers := ds), None)
  }

  /**
   * With an error for every room, each damper receives the policy's command
   * for its room's error; a disabled element closes them all.
   */
  lemma AutoCycleCommandsEveryDamper(s: State, errors: Dict<int, real>, i: int)
    requires forall j :: 0 <= j < |s.dampers| ==> s.dampers[j].0 in Keys(errors)
    requires 0 <= i < |s.dampers|
    ensures AutoCycle(s, errors).raised == None
    ensures AutoCycle(s, errors).state.dampers[i] == (s.dampers[i].0, DamperPolicy(s.element, Get(errors, s.dampers[i].0).value))
    ensures !s.element.enabled ==> AutoCycle(s, errors).state.dampers[i].1 == Closed
  {
    var k := FirstMissing(s.dampers, errors);
    assert k == |s.dampers|;
  }

  /**
   * A room with no error entry raises KeyError instead of being skipped: the
   * dampers ahead of it in the dict are commanded, the others are left as
   * they were, and the element is not touched.
   */
  lemma AutoCycleMissingRoom(s: State, errors: Dict<int, real>, k: nat)
    requires k < |s.dampers| && s.dampers[k].0 !in Keys(errors)
    requires forall j :: 0 <= j < k ==> s.dampers[j].0 in Keys(errors)
    ensures AutoCycle(s, errors).raised == Some(KeyError)
    ensures forall j :: k <= j < |s.dampers| ==> AutoCycle(s, errors).state.dampers[j] == s.dampers[j]
    ensures forall j :: 0 <= j < k ==>
      AutoCycle(s, errors).state.dampers[j].1 == DamperPolicy(s.element, Get(errors, s.dampers[j].0).value)
    ensures AutoCycle(s, errors).state.element == s.element
  {
    assert FirstMissing(s.dampers, errors) == k;
  }

  /**
   * The direction flip is a no-op on the mode: after any complete auto cycle
   * the element heats exactly when it did before and is enabled exactly when
   * it was; the pins are rewritten only when the error sum is zero.
   */
  lemma AutoCycleKeepsDirection(s: State, errors: Dict<int, real>)
    requires Consistent(s.element)
    requires AutoCycle(s, errors).raised == None
    ensures Heating(AutoCycle(s, errors).state.element) == Heating(s.element)
    ensures AutoCycle(s, errors).state.element.enabled == s.element.enabled
    ensures ErrorSum(Heating(s.element), Values(errors)) == 0.0 ==>
      AutoCycle(s, errors).state.element == ApplyState(s.element)
    ensures ErrorSum(Heating(s.element), Values(errors)) != 0.0 ==>
      AutoCycle(s, errors).state.element == s.element
  {
    HeatingFromCoolingIsNoOp(s.element);
  }

  // ---------------------------------------------------------------------------
  // handle_extreme_cycle, setup_*_mode, get_delay_time
  // ---------------------------------------------------------------------------

  /** The 0.1 degree step of the extreme cycle. */
  const ExtremeStep: Temperature := Temperature(0.1)

  /**
   * `handle_extreme_cycle`: when the error sum is zero, flip the direction,
   * then add 0.1 to room 0's target and subtract 0.1 from room 2's. Because
   * `Temperature.__add__` subtracts, both targets go down. A missing room 0
   * or 2 raises KeyError after the updates made so far.
   */
  function ExtremeCycle(s: State, errors: Dict<int, real>): (r: Cycle)
    ensures r.state.dampers == s.dampers && r.state.mode == s.mode
    ensures Keys(r.state.targets) == Keys(s.targets)
    ensures r.raised.Some? ==> r.raised == Some(KeyError)
  {
    if ErrorSum(Heating(s.element), Values(errors)) != 0.0 then Cycle(s, None)
    else
      var s1 := s.(element := FlipDirection(s.element));
      match Get(s1.targets, 0)
      case None => Cycle(s1, Some(KeyError))
      case Some(t0) =>
        var s2 := s1.(targets := Put(s1.targets, 0, Add(t0, ExtremeStep)));
        match Get(s2.targets, 2)
        case None => Cycle(s2, Some(KeyError))
        case Some(t2) => Cycle(s2.(targets := Put(s2.targets, 2, Sub(t2, ExtremeStep))), None)
  }

  /** Room 0's target after the extreme cycle's `+= 0.1`. */
  function StepRoomZero(ts: Dict<int, Temperature>): (r: Dict<int, Temperature>)
    requires 0 in Keys(ts)
    ensures Keys(r) == Keys(ts)
  {
    Put(ts, 0, Add(Get(ts, 0).value, ExtremeStep))
  }

  /** Room 2's target after the extreme cycle's `-= 0.1`. */
  function StepRoomTwo(ts: Dict<int, Temperature>): (r: Dict<int, Temperature>)
    requires 2 in Keys(ts)
    ensures Keys(r) == Keys(ts)
  {
    Put(ts, 2, Sub(Get(ts, 2).value, ExtremeStep))
  }

  /** The targets after a zero-sum extreme cycle, with rooms 0 and 2 present. */
  function SteppedTargets(ts: Dict<int, Temperature>): Dict<int, Temperature>
    requires 0 in Keys(ts) && 2 in Keys(ts)
  {
    StepRoomTwo(StepRoomZero(ts))
  }

  lemma ExtremeCycleZeroSum(s: State, errors: Dict<int, real>)
    requires 0 in Keys(s.targets) && 2 in Keys(s.targets)
    requires ErrorSum(Heating(s.element), Values(errors)) == 0.0
    ensures ExtremeCycle(s, errors) == Cycle(s.(element := FlipDirection(s.element), targets := SteppedTargets(s.targets)), None)
  {
  }

  lemma StepRoomZeroValues(ts: Dict<int, Temperature>, room: int)
    requires 0 in Keys(ts)
    ensures Get(StepRoomZero(ts), 0) == Some(Add(Get(ts, 0).value, ExtremeStep))
    ensures room != 0 ==> Get(StepRoomZero(ts), room) == Get(ts, room)
  {
    var t := Add(Get(ts, 0).value, ExtremeStep);
    GetPut(ts, 0, t, 0);
    GetPut(ts, 0, t, room);
  }

  lemma StepRoomTwoValues(ts: Dict<int, Temperature>, room: int)
    requires 2 in Keys(ts)
    ensures Get(StepRoomTwo(ts), 2) == Some(Sub(Get(ts, 2).value, ExtremeStep))
    ensures room != 2 ==> Get(StepRoomTwo(ts), room) == Get(ts, room)
  {
    var t := Sub(Get(ts, 2).value, ExtremeStep);
    GetPut(ts, 2, t, 2);
    GetPut(ts, 2, t, room);
  }

  lemma SteppedTargetsValues(ts: Dict<int, Temperature>, room: int)
    requires 0 in Keys(ts) && 2 in Keys(ts)
    ensures Get(SteppedTargets(ts), 0) == Some(Add(Get(ts, 0).value, ExtremeStep))
    ensures Get(SteppedTargets(ts), 2) == Some(Sub(Get(ts, 2).value, ExtremeStep))
    ensures room != 0 && room != 2 ==> Get(SteppedTargets(ts), room) == Get(ts, room)
  {
    var ts1 := StepRoomZero(ts);
    StepRoomZeroValues(ts, 2);
    StepRoomZeroValues(ts, room);
    StepRoomTwoValues(ts1, 0);
    StepRoomTwoValues(ts1, room);
  }

  /**
   * With rooms 0 and 2 present, a zero error sum lowers both of their targets
   * by 0.1 and leaves every other room's target alone; a non-zero sum
   * changes nothing.
   */
  lemma ExtremeCycleTargets(s: State, errors: Dict<int, real>, room: int)
    requires 0 in Keys(s.targets) && 2 in Keys(s.targets)
    ensures ErrorSum(Heating(s.element), Values(errors)) != 0.0 ==> ExtremeCycle(s, errors) == Cycle(s, None)
    ensures ErrorSum(Heating(s.element), Values(errors)) == 0.0 ==>
      var r := ExtremeCycle(s, errors);
      && r.raised == None
      && Get(r.state.targets, 0).Some? && Get(r.state.targets, 0).value.celsius == Get(s.targets, 0).value.celsius - 0.1
      && Get(r.state.targets, 2).Some? && Get(r.state.targets, 2).value.celsius == Get(s.targets, 2).value.celsius - 0.1
      && (room != 0 && room != 2 ==> Get(r.state.targets, room) == Get(s.targets, room))
  {
    if ErrorSum(Heating(s.element), Values(errors)) == 0.0 {
      ExtremeCycleZeroSum(s, errors);
      SteppedTargetsValues(s.targets, room);
    }
  }

  /** Every room's target set to the same temperature, rooms and their order kept. */
  function SetAllTargets(ts: Dict<int, Temperature>, t: Temperature): (r: Dict<int, Temperature>)
    ensures Keys(r) == Keys(ts)
    ensures forall i :: 0 <= i < |r| ==> r[i].1 == t
  {
    seq(|ts|, i requires 0 <= i < |ts| => (ts[i].0, t))
  }

  /** The target every mode setup installs, 22.5 degrees. */
  const SetupTarget: Temperature := Temperature(22.5)

  /** `setup_test_mode`, `setup_auto_mode` and `setup_extreme_mode`. */
  function SetupMode(s: State, m: Mode): (r: State)
    ensures r.mode == m && r.dampers == s.dampers && r.element == s.element && r.updateInterval == s.updateInterval
    ensures Keys(r.targets) == Keys(s.targets)
    ensures forall i :: 0 <= i < |r.targets| ==> r.targets[i].1 == SetupTarget
  {
    s.(mode := m, targets := SetAllTargets(s.targets, SetupTarget))
  }

  lemma {:induction false} GetUniform(ts: Dict<int, Temperature>, t: Temperature, room: int)
    requires forall i :: 0 <= i < |ts| ==> ts[i].1 == t
    ensures Get(ts, room) == if room in Keys(ts) then Some(t) else None
  {
    if room in Keys(ts) {
      var v := Get(ts, room).value;
      assert (room, v) in ts;
    }
  }

  /**
   * After a mode setup the mode is the one asked for and every room that has
   * a target reads 22.5; no room is added or removed and nothing else changes.
   */
  lemma SetupModeTargets(s: State, m: Mode, room: int)
    ensures SetupMode(s, m).mode == m
    ensures Keys(SetupMode(s, m).targets) == Keys(s.targets)
    ensures Get(SetupMode(s, m).targets, room) == if room in Keys(s.targets) then Some(SetupTarget) else None
    ensures SetupMode(s, m).dampers == s.dampers && SetupMode(s, m).element == s.element
  {
    GetUniform(SetAllTargets(s.targets, SetupTarget), SetupTarget, room);
  }

  /** `get_delay_time`: the rest of the update interval, or 0 after an overrun. */
  function GetDelayTime(updateInterval: real, cycleTime: real): (r: real)
    ensures r >= 0.0
    ensures cycleTime <= updateInterval ==> cycleTime + r == updateInterval
    ensures cycleTime > updateInterval ==> r == 0.0
  {
    var sleepTime := updateInterval - cycleTime;
    if sleepTime < 0.0 then 0.0 else sleepTime
  }

  // ---------------------------------------------------------------------------
  // get_room_temperature_errors
  // ---------------------------------------------------------------------------

  /** The error of room `id`'s sensor for a reading, in degrees Celsius. */
  function RoomError(id: int, target: Temperature, reading: Temperature): (e: real)
    ensures target.celsius + e == reading.celsius
    ensures e > 0.0 <==> Gt(reading, target)
  {
    TemperatureError(TargetSensor(id, target), reading).celsius
  }

  /**
   * `get_room_temperature_errors`: for each reading, in order, the room's
   * error (reading minus the room's target). A reading for a room without a
   * target sensor raises KeyError.
   */
  function RoomTemperatureErrors(targets: Dict<int, Temperature>, readings: Dict<int, Temperature>): (r: Result<Dict<int, real>>)
    ensures r.Ok? <==> forall i :: 0 <= i < |readings| ==> readings[i].0 in Keys(targets)
    ensures r.Raise? ==> r.error == KeyError
    ensures r.Ok? ==> forall id :: id in Keys(r.value) <==> id in Keys(readings)
    decreases |readings|
  {
    if |readings| == 0 then Ok([])
    else
      var last := readings[|readings| - 1];
      var front := readings[..|readings| - 1];
      assert Keys(readings) == Keys(front) + [last.0];
      match RoomTemperatureErrors(targets, front)
      case Raise(err) => Raise(err)
      case Ok(acc) =>
        match Get(targets, last.0)
        case None => Raise(KeyError)
        case Some(target) => Ok(Put(acc, last.0, RoomError(last.0, target, last.1)))
  }

  /** One unfolding of the error loop: the last reading's error is put on top of the others'. */
  lemma RoomTemperatureErrorsLast(targets: Dict<int, Temperature>, readings: Dict<int, Temperature>)
    requires |readings| > 0 && RoomTemperatureErrors(targets, readings).Ok?
    ensures var n := |readings| - 1;
      && readings[n].0 in Keys(targets)
      && RoomTemperatureErrors(targets, readings[..n]).Ok?
      && RoomTemperatureErrors(targets, readings).value == Put(
        RoomTemperatureErrors(targets, readings[..n]).value,
        readings[n].0,
        RoomError(readings[n].0, Get(targets, readings[n].0).value, readings[n].1))
  {
  }

  /** Each room's error is its reading minus its own target. */
  lemma {:induction false} RoomTemperatureErrorValues(targets: Dict<int, Temperature>, readings: Dict<int, Temperature>, i: int)
    requires Distinct(readings)
    requires RoomTemperatureErrors(targets, readings).Ok?
    requires 0 <= i < |readings|
    ensures readings[i].0 in Keys(targets)
    ensures Get(RoomTemperatureErrors(targets, readings).value, readings[i].0)
      == Some(RoomError(readings[i].0, Get(targets, readings[i].0).value, readings[i].1))
    decreases |readings|
  {
    var n := |readings| - 1;
    var front := readings[..n];
    var key := readings[n].0;
    assert key in Keys(targets) && RoomTemperatureErrors(targets, front).Ok? by {
      RoomTemperatureErrorsLast(targets, readings);
    }
    var acc := RoomTemperatureErrors(targets, front).value;
    var err := RoomError(key, Get(targets, key).value, readings[n].1);
    assert RoomTemperatureErrors(targets, readings).value == Put(acc, key, err) by {
      RoomTemperatureErrorsLast(targets, readings);
    }
    if i == n {
      GetPut(acc, key, err, key);
    } else {
      assert readings[i].0 != key && front[i] == readings[i] && Distinct(front);
      RoomTemperatureErrorValues(targets, front, i);
      GetPut(acc, key, err, readings[i].0);
    }
  }

  // ---------------------------------------------------------------------------
  // Classifying one round of readings (get_temperature_readings after the join)
  // ---------------------------------------------------------------------------

  /** The sensor a reading came from: an element sensor, a room's target sensor or a plain one. */
  datatype Probe = ElementProbe(sensor: ElementSensor) | RoomProbe(room: int) | ExternalProbe

  /** A reading as the sensor threads queue it: the sensor and its temperature. */
  type Reading = (Probe, Temperature)

  /**
   * The external readings in arrival order, the room and element readings
   * keyed by sensor id, the element after any over-temperature trip, and the
   * exception that ended the round, if any.
   */
  datatype Classification = Classification(
    external: seq<Temperature>,
    rooms: Dict<int, Temperature>,
    elementReadings: Dict<string, Temperature>,
    element: Element,
    raised: Option<PyError>)

  /** An element reading above its sensor's maximum. */
  predicate TripsOver(r: Reading) {
    r.0.ElementProbe? && CheckTemperatureLimits(r.0.sensor, r.1) == Some(OverTemperature)
  }

  /** An element reading below its sensor's minimum (and not above its maximum). */
  predicate TripsUnder(r: Reading) {
    r.0.ElementProbe? && CheckTemperatureLimits(r.0.sensor, r.1) == Some(UnderTemperature)
  }

  /**
   * One reading, stored under its sensor's `id` attribute. An element
   * reading is stored, then checked: the handler
   * `except OverTemperature or UnderTemperature` names only OverTemperature,
   * which disables the element; UnderTemperature escapes.
   */
  function ClassifyOne(c: Classification, r: Reading): (c': Classification)
    ensures c'.raised.Some? <==> c.raised.Some? || TripsUnder(r)
  {
    if c.raised.Some? then c
    else
      match r.0
      case ElementProbe(sensor) =>
        var c1 := c.(elementReadings := Put(c.elementReadings, sensor.id, r.1));
        (match CheckTemperatureLimits(sensor, r.1)
         case None => c1
         case Some(err) =>
           if err == OverTemperature then c1.(element := SetEnabled(c1.element, false))
           else c1.(raised := Some(err)))
      case RoomProbe(room) => c.(rooms := Put(c.rooms, room, r.1))
      case ExternalProbe => c.(external := c.external + [r.1])
  }

  /** Room ids that some reading of `rs` came from. */
  predicate RoomReported(rs: seq<Reading>, room: int) {
    exists i :: 0 <= i < |rs| && rs[i].0 == RoomProbe(room)
  }

  /**
   * The readings in queue order. Without an under-temperature reading the
   * round completes, the element ends enabled exactly when it started
   * enabled and no reading tripped its maximum, and the room dict holds
   * exactly the rooms that reported.
   */
  function Classify(e: Element, rs: seq<Reading>): (c: Classification)
    ensures c.raised.Some? ==> c.raised == Some(UnderTemperature)
    ensures c.raised.None? <==> forall i :: 0 <= i < |rs| ==> !TripsUnder(rs[i])
    ensures c.raised.None? ==> (c.element.enabled <==> e.enabled && forall i :: 0 <= i < |rs| ==> !TripsOver(rs[i]))
    decreases |rs|
  {
    if |rs| == 0 then Classification([], [], [], e, None)
    else
      var n := |rs| - 1;
      var c := Classify(e, rs[..n]);
      assert forall i :: 0 <= i < n ==> rs[..n][i] == rs[i];
      ClassifyOne(c, rs[n])
  }

  /**
   * The round only ever switches the element off: its flags stay, an element
   * still enabled is untouched, and one switched off has both pins low.
   */
  lemma {:induction false} ClassifyElement(e: Element, rs: seq<Reading>)
    ensures Classify(e, rs).element.heatingFlag == e.heatingFlag
    ensures Classify(e, rs).element.coolingFlag == e.coolingFlag
    ensures Classify(e, rs).element.enabled ==> Classify(e, rs).element == e
    ensures !Classify(e, rs).element.enabled && e.enabled ==> Classify(e, rs).element.pins == Pins(false, false)
    decreases |rs|
  {
    if |rs| > 0 {
      ClassifyElement(e, rs[..|rs| - 1]);
    }
  }

  /** The room dict holds only rooms that reported. */
  lemma ClassifyRoomsReported(e: Element, rs: seq<Reading>)
    ensures forall room :: room in Keys(Classify(e, rs).rooms) ==> RoomReported(rs, room)
  {
    forall room | room in Keys(Classify(e, rs).rooms)
      ensures RoomReported(rs, room)
    {
      ClassifyRoomReported(e, rs, room);
    }
  }

  /** A room has an entry only if one of the readings came from it. */
  lemma {:induction false} ClassifyRoomReported(e: Element, rs: seq<Reading>, room: int)
    requires room in Keys(Classify(e, rs).rooms)
    ensures RoomReported(rs, room)
    decreases |rs|
  {
    assert |rs| > 0;
    var n := |rs| - 1;
    var prefix := rs[..n];
    ClassifyLastRooms(e, rs);
    if rs[n].0 != RoomProbe(room) {
      ClassifyRoomReported(e, prefix, room);
      var i :| 0 <= i < n && prefix[i].0 == RoomProbe(room);
      assert rs[i] == prefix[i];
    }
  }

  /** When the round completes, every room that reported is in the room dict. */
  lemma ClassifyRoomsComplete(e: Element, rs: seq<Reading>)
    ensures Classify(e, rs).raised.None? ==> forall room :: RoomReported(rs, room) ==> room in Keys(Classify(e, rs).rooms)
  {
    if Classify(e, rs).raised.None? {
      forall room | RoomReported(rs, room)
        ensures room in Keys(Classify(e, rs).rooms)
      {
        var i :| 0 <= i < |rs| && rs[i].0 == RoomProbe(room);
        ClassifyKeepsReading(e, rs, i);
      }
    }
  }

  /** A completed round has an entry for the room of every room reading. */
  lemma {:induction false} ClassifyKeepsReading(e: Element, rs: seq<Reading>, i: int)
    requires 0 <= i < |rs| && rs[i].0.RoomProbe? && Classify(e, rs).raised.None?
    ensures rs[i].0.room in Keys(Classify(e, rs).rooms)
    decreases |rs|
  {
    var n := |rs| - 1;
    var prefix := rs[..n];
    ClassifyLastRooms(e, rs);
    if i < n {
      assert prefix[i] == rs[i];
      ClassifyKeepsReading(e, prefix, i);
    }
  }

  /** The last reading of a round adds its room's entry, if it is a room reading and the round is still going. */
  lemma ClassifyLastRooms(e: Element, rs: seq<Reading>)
    requires |rs| > 0
    ensures var c, r := Classify(e, rs[..|rs| - 1]), rs[|rs| - 1];
      Classify(e, rs).rooms == if c.raised.None? && r.0.RoomProbe? then Put(c.rooms, r.0.room, r.1) else c.rooms
    ensures Classify(e, rs).raised.None? ==> Classify(e, rs[..|rs| - 1]).raised.None?
  {
    ClassifyOneRooms(Classify(e, rs[..|rs| - 1]), rs[|rs| - 1]);
  }

  /** One reading adds its room's entry, if it is a room reading, and changes no other. */
  lemma ClassifyOneRooms(c: Classification, r: Reading)
    ensures ClassifyOne(c, r).rooms == if c.raised.None? && r.0.RoomProbe? then Put(c.rooms, r.0.room, r.1) else c.rooms
  {
  }

  /**
   * With the element limits of 65 and -20 degrees, a 70 degree element
   * reading disables the element and the round goes on, while a -25 degree
   * reading escapes as UnderTemperature and leaves the element as it was.
   */
  lemma OnlyOverTemperatureIsCaught(e: Element, id: string)
    ensures var c := Classify(e, [(ElementProbe(NewElementSensor(id, ElementMaxTemp, ElementMinTemp)), Temperature(70.0))]);
      c.raised == None && !c.element.enabled
    ensures var c := Classify(e, [(ElementProbe(NewElementSensor(id, ElementMaxTemp, ElementMinTemp)), Temperature(-25.0))]);
      c.raised == Some(UnderTemperature) && c.element == e
  {
    var sensor := NewElementSensor(id, ElementMaxTemp, ElementMinTemp);
    ElementLimitsAreInclusive(id, 70.0);
    ElementLimitsAreInclusive(id, -25.0);
    assert TripsOver((ElementProbe(sensor), Temperature(70.0)));
    assert TripsUnder((ElementProbe(sensor), Temperature(-25.0)));
  }

  /**
   * The classification as written: room and element readings are stored
   * under `sensor.get_id`, an attribute no sensor class defines, so the first
   * such reading raises AttributeError before its limit check; only external
   * readings get through.
   */
  function ClassifyAsWritten(e: Element, rs: seq<Reading>): (c: Classification)
    ensures c.element == e && c.rooms == [] && c.elementReadings == []
    ensures c.raised.None? <==> forall i :: 0 <= i < |rs| ==> rs[i].0.ExternalProbe?
    ensures c.raised.Some? ==> c.raised == Some(AttributeError)
    decreases |rs|
  {
    if |rs| == 0 then Classification([], [], [], e, None)
    else
      var n := |rs| - 1;
      var c := ClassifyAsWritten(e, rs[..n]);
      assert forall i :: 0 <= i < n ==> rs[..n][i] == rs[i];
      if c.raised.Some? then c
      else if rs[n].0.ExternalProbe? then c.(external := c.external + [rs[n].1])
      else c.(raised := Some(AttributeError))
  }

  /**
   * As written an over-temperature element reading never trips the element:
   * the 70 degree reading that the intended classification answers by
   * switching the element off raises AttributeError and leaves it as it was.
   */
  lemma ClassifyAsWrittenNeverTrips(e: Element, id: string)
    ensures var r := (ElementProbe(NewElementSensor(id, ElementMaxTemp, ElementMinTemp)), Temperature(70.0));
      && TripsOver(r)
      && ClassifyAsWritten(e, [r]).raised == Some(AttributeError)
      && ClassifyAsWritten(e, [r]).element == e
  {
    ElementLimitsAreInclusive(id, 70.0);
    var r := (ElementProbe(NewElementSensor(id, ElementMaxTemp, ElementMinTemp)), Temperature(70.0));
    assert !([r][0].0.ExternalProbe?);
  }

  // ---------------------------------------------------------------------------
  // handle_cycle
  // ---------------------------------------------------------------------------

  /**
   * `handle_cycle` as written: the readings are classified and stored, then
   * the room errors are computed from `room_readings`, a name bound nowhere
   * in the method, so every round that gets that far raises NameError before
   * the mode's step. A round with a room or element reading already fails
   * with AttributeError in the classification.
   */
  function HandleCycleAsWritten(s: State, rs: seq<Reading>): (r: Cycle)
    ensures r.raised.Some?
  {
    var c := ClassifyAsWritten(s.element, rs);
    var s1 := s.(element := c.element);
    if c.raised.Some? then Cycle(s1, c.raised) else Cycle(s1, Some(NameError))
  }

  /**
   * As written no cycle changes the state at all, whatever the mode: a round
   * of external readings only ends in NameError, any other in AttributeError.
   */
  lemma HandleCycleAsWrittenNeverActs(s: State, rs: seq<Reading>)
    ensures HandleCycleAsWritten(s, rs).state == s
    ensures (forall i :: 0 <= i < |rs| ==> rs[i].0.ExternalProbe?) ==> HandleCycleAsWritten(s, rs).raised == Some(NameError)
    ensures (exists i :: 0 <= i < |rs| && !rs[i].0.ExternalProbe?) ==> HandleCycleAsWritten(s, rs).raised == Some(AttributeError)
  {
  }

  /**
   * `handle_cycle` with the room errors computed from the readings just
   * gathered, then the mode's step: auto commands the dampers, test does
   * nothing, extreme drifts the targets.
   */
  function HandleCycle(s: State, rs: seq<Reading>): (r: Cycle)
    ensures r.raised.Some? ==> r.raised.value in {UnderTemperature, KeyError}
    ensures r.state.mode == s.mode
    ensures Keys(r.state.dampers) == Keys(s.dampers) && Keys(r.state.targets) == Keys(s.targets)
  {
    var c := Classify(s.element, rs);
    var s1 := s.(element := c.element);
    if c.raised.Some? then Cycle(s1, c.raised)
    else
      match RoomTemperatureErrors(s.targets, c.rooms)
      case Raise(err) => Cycle(s1, Some(err))
      case Ok(errors) =>
        match s.mode
        case Auto => AutoCycle(s1, errors)
        case Test => Cycle(s1, None)
        case Extreme => ExtremeCycle(s1, errors)
  }

  /**
   * With no under-temperature reading and readings only from rooms that have
   * a target, a cycle reaches its mode's step: a test cycle ends cleanly and
   * changes no damper or target, and an auto cycle in which every damper's
   * room reported ends cleanly too.
   */
  lemma HandleCycleRunsMode(s: State, rs: seq<Reading>)
    requires forall i :: 0 <= i < |rs| ==> !TripsUnder(rs[i])
    requires forall i :: 0 <= i < |rs| && rs[i].0.RoomProbe? ==> rs[i].0.room in Keys(s.targets)
    ensures HandleCycle(s, rs).raised != Some(NameError)
    ensures s.mode == Test ==>
      && HandleCycle(s, rs).raised == None
      && HandleCycle(s, rs).state.dampers == s.dampers
      && HandleCycle(s, rs).state.targets == s.targets
    ensures s.mode == Auto && (forall j :: 0 <= j < |s.dampers| ==> RoomReported(rs, s.dampers[j].0)) ==>
      HandleCycle(s, rs).raised == None
  {
    var c := Classify(s.element, rs);
    ClassifyRoomsReported(s.element, rs);
    ClassifyRoomsComplete(s.element, rs);
    forall i | 0 <= i < |c.rooms|
      ensures c.rooms[i].0 in Keys(s.targets)
    {
      assert c.rooms[i].0 in Keys(c.rooms);
      var k :| 0 <= k < |rs| && rs[k].0 == RoomProbe(c.rooms[i].0);
    }
    var errors := RoomTemperatureErrors(s.targets, c.rooms).value;
    if s.mode == Auto && (forall j :: 0 <= j < |s.dampers| ==> RoomReported(rs, s.dampers[j].0)) {
      forall j | 0 <= j < |s.dampers|
        ensures s.dampers[j].0 in Keys(errors)
      {
        assert s.dampers[j].0 in Keys(c.rooms);
      }
    }
  }

  // ---------------------------------------------------------------------------
  // queue_drain
  // ---------------------------------------------------------------------------

  /**
   * `queue_drain`: take items with `get_nowait` until the queue is empty.
   * The items come out in the order they were queued and the queue ends
   * empty.
   */
  method QueueDrain<T>(q: seq<T>) returns (items: seq<T>, rest: seq<T>)
    ensures items == q && rest == []
  {
    items, rest := [], q;
    while |rest| > 0
      invariant items + rest == q
      decreases |rest|
    {
      items, rest := items + [rest[0]], rest[1..];
    }
  }
}

=== FILE: pydict.dfy ===
/**
 * Python's `dict` as the controller uses it: entries kept in insertion order,
 * lookup by key, and assignment that updates an existing key in place or
 * appends a new one at the end.
 */
module PyDict {
  import opened Outcomes

  /** The (key, value) entries of a dict, in insertion order. */
  type Dict<K, V> = seq<(K, V)>

  function Keys<K, V>(d: Dict<K, V>): (ks: seq<K>)
    ensures |ks| == |d|
    ensures forall i :: 0 <= i < |d| ==> ks[i] == d[i].0
  {
    seq(|d|, i requires 0 <= i < |d| => d[i].0)
  }

  /** `d.values()`, in iteration order. */
  function Values<K, V>(d: Dict<K, V>): (vs: seq<V>)
    ensures |vs| == |d|
    ensures forall i :: 0 <= i < |d| ==> vs[i] == d[i].1
  {
    seq(|d|, i requires 0 <= i < |d| => d[i].1)
  }

  /** The keys of an entry put in front of a dict. */
  lemma KeysCons<K, V>(x: (K, V), rest: Dict<K, V>)
    ensures Keys([x] + rest) == [x.0] + Keys(rest)
  {
    var d := [x] + rest;
    var l, r := Keys(d), [x.0] + Keys(rest);
    forall i | 0 <= i < |l| ensures l[i] == r[i] {
      if i > 0 {
        assert d[i] == rest[i - 1];
      }
    }
  }

  /** The keys of a non-empty dict: the first key, then the keys of the rest. */
  lemma KeysFirst<K, V>(d: Dict<K, V>)
    requires |d| > 0
    ensures Keys(d) == [d[0].0] + Keys(d[1..])
  {
    assert d == [d[0]] + d[1..];
    KeysCons(d[0], d[1..]);
  }

  /** No key occurs twice: every dict built with `Put` has this shape. */
  predicate Distinct<K(==), V>(d: Dict<K, V>) {
    forall i, j :: 0 <= i < j < |d| ==> d[i].0 != d[j].0
  }

  /** `d[k]` (or `d.get(k)`): the value stored under `k`, if any. */
  function Get<K(==), V>(d: Dict<K, V>, k: K): (r: Option<V>)
    ensures r.Some? <==> k in Keys(d)
    ensures r.Some? ==> (k, r.value) in d
  {
    if |d| == 0 then None
    else if d[0].0 == k then Some(d[0].1)
    else
      KeysFirst(d);
      Get(d[1..], k)
  }

  /** `d[k] = v`: an existing key keeps its place, a new key goes to the end. */
  function Put<K(==), V>(d: Dict<K, V>, k: K, v: V): (r: Dict<K, V>)
    ensures k in Keys(d) ==> Keys(r) == Keys(d)
    ensures k !in Keys(d) ==> Keys(r) == Keys(d) + [k]
  {
    if |d| == 0 then [(k, v)]
    else if d[0].0 == k then
      KeysFirst(d);
      KeysCons((k, v), d[1..]);
      [(k, v)] + d[1..]
    else
      var rest := Put(d[1..], k, v);
      KeysFirst(d);
      KeysCons(d[0], rest);
      [d[0]] + rest
  }

  /** After `d[k] = v`, `d[k]` is `v` and every other key reads as before. */
  lemma {:induction false} GetPut<K, V>(d: Dict<K, V>, k: K, v: V, k': K)
    ensures Get(Put(d, k, v), k') == if k' == k then Some(v) else Get(d, k')
  {
    if |d| > 0 && d[0].0 != k {
      GetPut(d[1..], k, v, k');
      assert Put(d, k, v)[1..] == Put(d[1..], k, v);
    } else if |d| > 0 {
      assert Put(d, k, v)[1..] == d[1..];
    }
  }

  lemma HeadKeyNotInTail<K, V>(d: Dict<K, V>)
    requires |d| > 0
    requires Distinct(d)
    ensures d[0].0 !in Keys(d[1..])
  {
    forall i | 0 <= i < |d| - 1 ensures Keys(d[1..])[i] != d[0].0 {
      assert Keys(d[1..])[i] == d[i + 1].0;
    }
  }

  /** An entry whose key is new may be put in front of a dict without repeating a key. */
  lemma DistinctCons<K, V>(x: (K, V), rest: Dict<K, V>)
    requires Distinct(rest) && x.0 !in Keys(rest)
    ensures Distinct([x] + rest)
  {
    var r := [x] + rest;
    forall i, j | 0 <= i < j < |r| ensures r[i].0 != r[j].0 {
      assert r[j] == rest[j - 1];
      if i == 0 {
        assert Keys(rest)[j - 1] == rest[j - 1].0;
      } else {
        assert r[i] == rest[i - 1];
      }
    }
  }

  /** Assignment keeps the keys distinct. */
  lemma {:induction false} PutDistinct<K, V>(d: Dict<K, V>, k: K, v: V)
    requires Distinct(d)
    ensures Distinct(Put(d, k, v))
  {
    if |d| > 0 {
      assert Distinct(d[1..]) by {
        forall i, j | 0 <= i < j < |d| - 1 ensures d[1..][i].0 != d[1..][j].0 {
          assert d[1..][i] == d[i + 1] && d[1..][j] == d[j + 1];
        }
      }
      HeadKeyNotInTail(d);
      if d[0].0 != k {
        PutDistinct(d[1..], k, v);
        DistinctCons(d[0], Put(d[1..], k, v));
      } else {
        DistinctCons((k, v), d[1..]);
      }
    }
  }
}

=== FILE: pystr.dfy ===
/**
 * The slice of Python's `str` and `int`/`float` parsing behaviour that the
 * controller relies on: whitespace splitting, stripping, `find`, negative-index
 * slicing, single-character `split`/`join`, ASCII lower-casing and the numeric
 * literal grammar accepted by `int(...)` and `float(...)`.
 */
module PyStr {
  import opened Outcomes

  // ---------------------------------------------------------------------------
  // Whitespace
  // ---------------------------------------------------------------------------

  /** The characters for which Python's `str.isspace()` holds. */
  predicate IsSpace(c: char) {
    || c == ' '
    || ('\t' <= c <= '\r')
    || ('\U{1C}' <= c <= '\U{1F}')
    || c == '\U{85}' || c == '\U{A0}' || c == '\U{1680}'
    || ('\U{2000}' <= c <= '\U{200A}')
    || c == '\U{2028}' || c == '\U{2029}' || c == '\U{202F}' || c == '\U{205F}' || c == '\U{3000}'
  }

  predicate NoSpace(s: string) {
    forall i :: 0 <= i < |s| ==> !IsSpace(s[i])
  }

  /** A token as `str.split()` produces it: non-empty, without whitespace. */
  predicate IsToken(s: string) {
    |s| > 0 && NoSpace(s)
  }

  /** Length of the leading run of non-whitespace characters. */
  function TokenLen(s: string): (n: nat)
    ensures n <= |s|
    ensures forall i :: 0 <= i < n ==> !IsSpace(s[i])
    ensures n < |s| ==> IsSpace(s[n])
  {
    if |s| == 0 || IsSpace(s[0]) then 0 else 1 + TokenLen(s[1..])
  }

  /** `s.split()` with no separator: the maximal runs of non-whitespace, in order. */
  function Split(s: string): (r: seq<string>)
    ensures forall i :: 0 <= i < |r| ==> IsToken(r[i])
    decreases |s|
  {
    if |s| == 0 then []
    else if IsSpace(s[0]) then Split(s[1..])
    else
      var n := TokenLen(s);
      [s[..n]] + Split(s[n..])
  }

  /** `" ".join(ts)`. */
  function JoinSpace(ts: seq<string>): string {
    if |ts| == 0 then ""
    else if |ts| == 1 then ts[0]
    else ts[0] + " " + JoinSpace(ts[1..])
  }

  lemma {:induction false} TokenLenOfToken(t: string, rest: string)
    requires NoSpace(t)
    requires |rest| == 0 || IsSpace(rest[0])
    ensures TokenLen(t + rest) == |t|
    decreases |t|
  {
    if |t| > 0 {
      assert (t + rest)[1..] == t[1..] + rest;
      TokenLenOfToken(t[1..], rest);
    }
  }

  lemma {:induction false} SplitOfToken(t: string, rest: string)
    requires IsToken(t)
    requires |rest| == 0 || IsSpace(rest[0])
    ensures Split(t + rest) == [t] + Split(rest)
  {
    TokenLenOfToken(t, rest);
    assert (t + rest)[..|t|] == t;
    assert (t + rest)[|t|..] == rest;
  }

  /**
   * Splitting words joined with single spaces gives the words back: the
   * partner of `Split` used by the command grammar.
   */
  lemma {:induction false} SplitJoinSpace(ts: seq<string>)
    requires forall i :: 0 <= i < |ts| ==> IsToken(ts[i])
    ensures Split(JoinSpace(ts)) == ts
    decreases |ts|
  {
    if |ts| == 0 {
    } else if |ts| == 1 {
      SplitOfToken(ts[0], "");
      assert ts[0] + "" == ts[0];
      assert [ts[0]] + [] == ts;
    } else {
      var rest := JoinSpace(ts[1..]);
      assert ts[0] + " " + rest == ts[0] + (" " + rest);
      SplitOfToken(ts[0], " " + rest);
      assert (" " + rest)[1..] == rest;
      SplitJoinSpace(ts[1..]);
      assert [ts[0]] + ts[1..] == ts;
    }
  }

  /** Leading whitespace never changes the words of a line. */
  lemma {:induction false} SplitSkipsLeadingSpace(ws: string, s: string)
    requires forall i :: 0 <= i < |ws| ==> IsSpace(ws[i])
    ensures Split(ws + s) == Split(s)
    decreases |ws|
  {
    if |ws| > 0 {
      assert (ws + s)[1..] == ws[1..] + s;
      SplitSkipsLeadingSpace(ws[1..], s);
    } else {
      assert ws + s == s;
    }
  }

  // ---------------------------------------------------------------------------
  // strip, endswith, find, slicing
  // ---------------------------------------------------------------------------

  function LStrip(s: string): (r: string)
    ensures |r| <= |s| && r == s[|s| - |r|..]
    ensures |r| > 0 ==> !IsSpace(r[0])
    ensures forall i :: 0 <= i < |s| - |r| ==> IsSpace(s[i])
  {
    if |s| > 0 && IsSpace(s[0]) then LStrip(s[1..]) else s
  }

  function RStrip(s: string): (r: string)
    ensures |r| <= |s| && r == s[..|r|]
    ensures |r| > 0 ==> !IsSpace(r[|r| - 1])
    ensures forall i :: |r| <= i < |s| ==> IsSpace(s[i])
  {
    if |s| > 0 && IsSpace(s[|s| - 1]) then RStrip(s[..|s| - 1]) else s
  }

  /** `s.strip()`: `s` without leading and trailing whitespace. */
  function Strip(s: string): string {
    RStrip(LStrip(s))
  }

  predicate AllSpace(s: string) {
    forall i :: 0 <= i < |s| ==> IsSpace(s[i])
  }

  lemma {:induction false} LStripAllSpace(ws: string)
    requires AllSpace(ws)
    ensures LStrip(ws) == ""
    decreases |ws|
  {
    if |ws| > 0 {
      LStripAllSpace(ws[1..]);
    }
  }

  lemma {:induction false} RStripTrailingSpace(t: string, ws: string)
    requires |t| == 0 || !IsSpace(t[|t| - 1])
    requires AllSpace(ws)
    ensures RStrip(t + ws) == t
    decreases |ws|
  {
    if |ws| > 0 {
      assert (t + ws)[..|t + ws| - 1] == t + ws[..|ws| - 1];
      RStripTrailingSpace(t, ws[..|ws| - 1]);
    } else {
      assert t + ws == t;
    }
  }

  /** A token followed by trailing whitespace strips back to the token. */
  lemma StripTokenWithTrailingSpace(t: string, ws: string)
    requires NoSpace(t)
    requires AllSpace(ws)
    ensures Strip(t + ws) == t
  {
    if |t| > 0 {
      assert (t + ws)[0] == t[0];
      assert LStrip(t + ws) == t + ws;
      RStripTrailingSpace(t, ws);
    } else {
      assert t + ws == ws;
      LStripAllSpace(ws);
    }
  }

  predicate EndsWith(s: string, suffix: string) {
    |suffix| <= |s| && s[|s| - |suffix|..] == suffix
  }

  /** Python's normalisation of a slice bound for a sequence of length `n`. */
  function SliceBound(i: int, n: nat): (r: nat)
    ensures r <= n
    ensures 0 <= i <= n ==> r == i
    ensures -(n as int) <= i < 0 ==> r == n + i
    ensures i < -(n as int) ==> r == 0
    ensures n < i ==> r == n
  {
    if i < 0 then (if i + n < 0 then 0 else i + n) else if i > n then n else i
  }

  /** `s[start:stop]` with Python's negative-index and clamping rules. */
  function PySlice<T>(s: seq<T>, start: int, stop: int): (r: seq<T>)
    ensures |r| <= |s|
  {
    var a := SliceBound(start, |s|);
    var b := SliceBound(stop, |s|);
    if a < b then s[a..b] else []
  }

  /** `s[i]` with Python's negative indices: IndexError outside `-len(s) .. len(s) - 1`. */
  function PyIndex<T>(s: seq<T>, i: int): (r: Result<T>)
    ensures r.Ok? <==> -|s| <= i < |s|
    ensures 0 <= i < |s| ==> r == Ok(s[i])
    ensures -|s| <= i < 0 ==> r == Ok(s[|s| + i])
  {
    if 0 <= i < |s| then Ok(s[i])
    else if -|s| <= i < 0 then Ok(s[|s| + i])
    else Raise(IndexError)
  }

  /** `s[-k:] == suffix` for a non-empty suffix of length `k` is exactly `endswith`. */
  lemma NegativeSliceIsEndsWith(s: string, suffix: string)
    requires |suffix| > 0
    ensures PySlice(s, -|suffix|, |s|) == suffix <==> EndsWith(s, suffix)
  {
    if |s| < |suffix| {
      assert |PySlice(s, -|suffix|, |s|)| <= |s|;
    }
  }

  /** `pat` occurs in `s` at position `j`. */
  predicate OccursAt(s: string, pat: string, j: int) {
    0 <= j && j + |pat| <= |s| && s[j..j + |pat|] == pat
  }

  function FindFrom(s: string, pat: string, i: nat): (r: int)
    requires i <= |s|
    ensures r == -1 || (i <= r && OccursAt(s, pat, r))
    ensures r == -1 ==> forall j :: i <= j ==> !OccursAt(s, pat, j)
    ensures r != -1 ==> forall j :: i <= j < r ==> !OccursAt(s, pat, j)
    decreases |s| - i
  {
    if i + |pat| > |s| then -1
    else if s[i..i + |pat|] == pat then i
    else if i == |s| then -1
    else FindFrom(s, pat, i + 1)
  }

  /** `s.find(pat)`: the first position where `pat` occurs, or -1. */
  function Find(s: string, pat: string): (r: int)
    ensures r == -1 || OccursAt(s, pat, r)
    ensures r == -1 <==> forall j :: !OccursAt(s, pat, j)
    ensures r != -1 ==> forall j :: j < r ==> !OccursAt(s, pat, j)
  {
    FindFrom(s, pat, 0)
  }

  // ---------------------------------------------------------------------------
  // Single-character split and join
  // ---------------------------------------------------------------------------

  function FirstIndexOf(s: string, c: char): (i: nat)
    requires c in s
    ensures i < |s| && s[i] == c && c !in s[..i]
  {
    if s[0] == c then 0
    else
      assert c in s[1..] by { var k :| 0 <= k < |s| && s[k] == c; assert s[1..][k - 1] == c; }
      var j := FirstIndexOf(s[1..], c);
      assert s[..j + 1] == [s[0]] + s[1..][..j];
      1 + j
  }

  /** `s.split(c)` for a one-character separator `c`. */
  function SplitOn(s: string, c: char): (r: seq<string>)
    ensures |r| >= 1
    ensures forall i :: 0 <= i < |r| ==> c !in r[i]
    decreases |s|
  {
    if c !in s then [s]
    else
      var i := FirstIndexOf(s, c);
      [s[..i]] + SplitOn(s[i + 1..], c)
  }

  /** `c.join(ps)` for a one-character separator `c`. */
  function JoinOn(ps: seq<string>, c: char): string {
    if |ps| == 0 then ""
    else if |ps| == 1 then ps[0]
    else ps[0] + [c] + JoinOn(ps[1..], c)
  }

  /** Splitting at `c` and joining with `c` gives the original string back. */
  lemma {:induction false} JoinSplitOn(s: string, c: char)
    ensures JoinOn(SplitOn(s, c), c) == s
    decreases |s|
  {
    if c in s {
      var i := FirstIndexOf(s, c);
      JoinSplitOn(s[i + 1..], c);
      var ps := SplitOn(s, c);
      assert ps[1..] == SplitOn(s[i + 1..], c);
      assert s == s[..i] + [c] + s[i + 1..];
    }
  }

  /**
   * Joining all but the last piece, then the separator and the last piece,
   * rebuilds the joined string; so the shorter join is a prefix of the longer.
   */
  lemma {:induction false} JoinOnDropLast(ps: seq<string>, c: char)
    requires |ps| >= 2
    ensures JoinOn(ps, c) == JoinOn(ps[..|ps| - 1], c) + [c] + ps[|ps| - 1]
    decreases |ps|
  {
    if |ps| == 2 {
      assert ps[..1] == [ps[0]];
    } else {
      JoinOnDropLast(ps[1..], c);
      assert ps[1..][..|ps| - 2] == ps[..|ps| - 1][1..];
    }
  }

  // ---------------------------------------------------------------------------
  // ASCII lower-casing
  // ---------------------------------------------------------------------------

  predicate IsUpper(c: char) { 'A' <= c <= 'Z' }

  function LowerChar(c: char): char {
    if IsUpper(c) then (c as int + 32) as char else c
  }

  /** `s.lower()` on the ASCII letters. */
  function Lower(s: string): (r: string)
    ensures |r| == |s|
    ensures forall i :: 0 <= i < |s| ==> r[i] == LowerChar(s[i])
  {
    seq(|s|, i requires 0 <= i < |s| => LowerChar(s[i]))
  }

  // ---------------------------------------------------------------------------
  // Numeric literals
  // ---------------------------------------------------------------------------

  predicate IsDigit(c: char) { '0' <= c <= '9' }

  predicate AllDigits(s: string) {
    forall i :: 0 <= i < |s| ==> IsDigit(s[i])
  }

  function DigitValue(c: char): nat
    requires IsDigit(c)
  {
    c as int - '0' as int
  }

  function DigitChar(d: nat): (c: char)
    requires d < 10
    ensures IsDigit(c) && DigitValue(c) == d
  {
    ('0' as int + d) as char
  }

  /** The value of a run of decimal digits, most significant first. */
  function DigitsValue(s: string): nat
    requires AllDigits(s)
  {
    if |s| == 0 then 0 else 10 * DigitsValue(s[..|s| - 1]) + DigitValue(s[|s| - 1])
  }

  /** `str(n)` for a natural number. */
  function NatToString(n: nat): (s: string)
    ensures |s| > 0 && AllDigits(s)
  {
    if n < 10 then [DigitChar(n)] else NatToString(n / 10) + [DigitChar(n % 10)]
  }

  lemma {:induction false} DigitsValueOfNatToString(n: nat)
    ensures DigitsValue(NatToString(n)) == n
  {
    if n >= 10 {
      var s := NatToString(n);
      assert s[..|s| - 1] == NatToString(n / 10);
      DigitsValueOfNatToString(n / 10);
    }
  }

  function Pow10(e: nat): (r: nat)
    ensures r >= 1
  {
    if e == 0 then 1 else 10 * Pow10(e - 1)
  }

  /** An optional leading sign: whether it was `-`, and the rest. */
  function SplitSign(s: string): (r: (bool, string))
    ensures |r.1| <= |s|
  {
    if |s| > 0 && (s[0] == '-' || s[0] == '+') then (s[0] == '-', s[1..]) else (false, s)
  }

  function Signed(negative: bool, v: int): int {
    if negative then -v else v
  }

  /** The integer-literal grammar on an already stripped string. */
  function ParseIntLiteral(t: string): Option<int> {
    var (negative, body) := SplitSign(t);
    if |body| > 0 && AllDigits(body) then Some(Signed(negative, DigitsValue(body))) else None
  }

  /** `int(s)`: optional whitespace, optional sign, one or more decimal digits. */
  function ParseInt(s: string): (r: Option<int>)
    ensures r.Some? ==> |Strip(s)| > 0
  {
    ParseIntLiteral(Strip(s))
  }

  /** A digit string, possibly with a leading minus, is a single token. */
  lemma SignedDigitsAreToken(negative: bool, s: string)
    requires |s| > 0 && AllDigits(s)
    ensures NoSpace(if negative then "-" + s else s)
    ensures SplitSign(if negative then "-" + s else s) == (negative, s)
  {
    var m := if negative then "-" + s else s;
    forall i | 0 <= i < |m| ensures !IsSpace(m[i]) {
      if negative && i > 0 { assert m[i] == s[i - 1]; }
      if !negative { assert IsDigit(s[i]); }
      if negative && i > 0 { assert IsDigit(s[i - 1]); }
    }
    if negative { assert m[1..] == s; } else { assert IsDigit(s[0]); }
  }

  /** `int(str(n))` and `int("-" + str(n))` read the number back. */
  lemma ParseIntOfNatToString(n: nat)
    ensures ParseInt(NatToString(n)) == Some(n)
    ensures ParseInt("-" + NatToString(n)) == Some(-(n as int))
  {
    var s := NatToString(n);
    DigitsValueOfNatToString(n);
    SignedDigitsAreToken(false, s);
    StripTokenWithTrailingSpace(s, "");
    assert s + "" == s;
    SignedDigitsAreToken(true, s);
    StripTokenWithTrailingSpace("-" + s, "");
    assert "-" + s + "" == "-" + s;
  }

  /** The mantissa of a float literal: digits with at most one decimal point. */
  function ParseMantissa(m: string): Option<real> {
    if '.' in m then
      var i := FirstIndexOf(m, '.');
      var whole := m[..i];
      var frac := m[i + 1..];
      if AllDigits(whole) && AllDigits(frac) && |whole| + |frac| > 0 then
        Some(DigitsValue(whole) as real + DigitsValue(frac) as real / Pow10(|frac|) as real)
      else None
    else if |m| > 0 && AllDigits(m) then Some(DigitsValue(m) as real)
    else None
  }

  /** The (signed) exponent of a float literal. */
  function ParseExponent(e: string): Option<int> {
    var (negative, digits) := SplitSign(e);
    if |digits| > 0 && AllDigits(digits) then Some(Signed(negative, DigitsValue(digits))) else None
  }

  function ScaleByPow10(v: real, e: int): real {
    if e >= 0 then v * Pow10(e) as real else v / Pow10(-e) as real
  }

  predicate IsExponentMark(c: char) { c == 'e' || c == 'E' }

  function FirstExponentMark(s: string): (i: nat)
    ensures i <= |s|
    ensures i < |s| ==> IsExponentMark(s[i])
    ensures forall j :: 0 <= j < i ==> !IsExponentMark(s[j])
  {
    if |s| == 0 || IsExponentMark(s[0]) then 0 else 1 + FirstExponentMark(s[1..])
  }

  /** The float-literal grammar on an already stripped string. */
  function ParseFloatLiteral(t: string): Option<real> {
    var (negative, body) := SplitSign(t);
    var k := FirstExponentMark(body);
    var mantissa := ParseMantissa(body[..k]);
    var exponent := if k == |body| then Some(0) else ParseExponent(body[k + 1..]);
    if mantissa.Some? && exponent.Some? then
      var v := ScaleByPow10(mantissa.value, exponent.value);
      Some(if negative then -v else v)
    else None
  }

  /**
   * `float(s)` for decimal literals: optional whitespace, optional sign,
   * digits with an optional decimal point, an optional exponent.
   */
  function ParseFloat(s: string): (r: Option<real>)
    ensures r.Some? ==> |Strip(s)| > 0
  {
    ParseFloatLiteral(Strip(s))
  }

  lemma {:induction false} NoExponentMark(s: string)
    requires forall j :: 0 <= j < |s| ==> !IsExponentMark(s[j])
    ensures FirstExponentMark(s) == |s|
  {
    if |s| > 0 {
      NoExponentMark(s[1..]);
    }
  }

  lemma DigitsHaveNoMarks(s: string)
    requires |s| > 0 && AllDigits(s)
    ensures FirstExponentMark(s) == |s|
    ensures '.' !in s
    ensures ParseMantissa(s) == Some(DigitsValue(s) as real)
  {
    forall j | 0 <= j < |s| ensures !IsExponentMark(s[j]) && s[j] != '.' { assert IsDigit(s[j]); }
    NoExponentMark(s);
  }

  lemma ParseFloatLiteralParts(t: string, negative: bool, body: string, v: real)
    requires SplitSign(t) == (negative, body)
    requires FirstExponentMark(body) == |body|
    requires ParseMantissa(body) == Some(v)
    ensures ParseFloatLiteral(t) == Some(if negative then -v else v)
  {
    assert body[..|body|] == body;
    assert ScaleByPow10(v, 0) == v;
  }

  lemma ParseFloatLiteralOfDigits(s: string)
    requires |s| > 0 && AllDigits(s)
    ensures ParseFloatLiteral(s) == Some(DigitsValue(s) as real)
  {
    SignedDigitsAreToken(false, s);
    DigitsHaveNoMarks(s);
    ParseFloatLiteralParts(s, false, s, DigitsValue(s) as real);
  }

  lemma ParseFloatLiteralOfNegativeDigits(s: string)
    requires |s| > 0 && AllDigits(s)
    ensures ParseFloatLiteral("-" + s) == Some(-(DigitsValue(s) as real))
  {
    var t := "-" + s;
    SignedDigitsAreToken(true, s);
    DigitsHaveNoMarks(s);
    ParseFloatLiteralParts(t, true, s, DigitsValue(s) as real);
  }

  /** `float(str(n) + ws)` reads the integer back as a real. */
  lemma ParseFloatOfNatToString(n: nat, ws: string)
    requires AllSpace(ws)
    ensures ParseFloat(NatToString(n) + ws) == Some(n as real)
  {
    var s := NatToString(n);
    DigitsValueOfNatToString(n);
    SignedDigitsAreToken(false, s);
    StripTokenWithTrailingSpace(s, ws);
    ParseFloatLiteralOfDigits(s);
  }

  /** `float("-" + str(n) + ws)` reads the negated integer back as a real. */
  lemma ParseFloatOfNegativeNatToString(n: nat, ws: string)
    requires AllSpace(ws)
    ensures ParseFloat("-" + NatToString(n) + ws) == Some((-(n as int)) as real)
  {
    var s := NatToString(n);
    var t := "-" + s;
    DigitsValueOfNatToString(n);
    SignedDigitsAreToken(true, s);
    StripTokenWithTrailingSpace(t, ws);
    assert "-" + s + ws == t + ws;
    ParseFloatLiteralOfNegativeDigits(s);
    assert -(n as real) == (-(n as int)) as real;
  }

  /** The word `temp` is not a number. */
  lemma ParseFloatOfTemp()
    ensures ParseFloat("temp") == None
  {
    var s := "temp";
    assert NoSpace(s);
    StripTokenWithTrailingSpace(s, "");
    assert s + "" == s;
    assert SplitSign(s) == (false, s);
    assert !IsDigit(s[0]);
  }
}

=== FILE: sensors.dfy ===
/**
 * The two sensor roles the controller reasons about: a room sensor that knows
 * its target temperature, and an element sensor that guards the element's
 * safe operating range.
 */
module Sensors {
  import opened Outcomes
  import opened DataClasses

  /** The element's upper limit, 65 degrees Celsius. */
  const ElementMaxTemp: Temperature := Temperature(65.0)

  /** The element's lower limit, -20 degrees Celsius. */
  const ElementMinTemp: Temperature := Temperature(-20.0)

  /** A room sensor with the temperature its room should reach. */
  datatype TargetSensor = TargetSensor(id: int, targetTemp: Temperature)

  /** An element sensor with its limits. */
  datatype ElementSensor = ElementSensor(id: string, maxTemp: Temperature, minTemp: Temperature)

  /** Building a room sensor stores its target unchanged. */
  function NewTargetSensor(id: int, target: Temperature): (s: TargetSensor)
    ensures s.targetTemp == target && s.id == id
  {
    TargetSensor(id, target)
  }

  /** Building an element sensor stores both limits unchanged. */
  function NewElementSensor(id: string, maxTemp: Temperature, minTemp: Temperature): (s: ElementSensor)
    ensures s.maxTemp == maxTemp && s.minTemp == minTemp && s.id == id
  {
    ElementSensor(id, maxTemp, minTemp)
  }

  /**
   * How far a reading is from the room's target: positive when the room is
   * warmer than its target, negative when it is colder.
   */
  function TemperatureError(s: TargetSensor, reading: Temperature): (e: Temperature)
    ensures e.celsius > 0.0 <==> Gt(reading, s.targetTemp)
    ensures e.celsius < 0.0 <==> Lt(reading, s.targetTemp)
    ensures s.targetTemp.celsius + e.celsius == reading.celsius
  {
    Sub(reading, s.targetTemp)
  }

  /**
   * The limit check: `OverTemperature` when the reading is above the maximum,
   * otherwise `UnderTemperature` when it is below the minimum, otherwise
   * nothing. The maximum is tested first.
   */
  function CheckTemperatureLimits(s: ElementSensor, current: Temperature): (r: Option<PyError>)
    ensures r == None || r == Some(OverTemperature) || r == Some(UnderTemperature)
  {
    if Gt(current, s.maxTemp) then Some(OverTemperature)
    else if Lt(current, s.minTemp) then Some(UnderTemperature)
    else None
  }

  /**
   * The three outcomes of the limit check, stated on the readings. Both
   * comparisons are strict, so the bounds themselves pass; under-temperature
   * is reported only for readings that are not over the maximum.
   */
  lemma CheckTemperatureLimitsOutcomes(s: ElementSensor, current: Temperature)
    ensures CheckTemperatureLimits(s, current) == Some(OverTemperature)
      <==> current.celsius > s.maxTemp.celsius
    ensures CheckTemperatureLimits(s, current) == Some(UnderTemperature)
      <==> current.celsius <= s.maxTemp.celsius && current.celsius < s.minTemp.celsius
    ensures CheckTemperatureLimits(s, current) == None
      <==> s.minTemp.celsius <= current.celsius <= s.maxTemp.celsius
  {
  }

  /** With the system's limits, 65 degrees itself passes and anything warmer trips. */
  lemma ElementLimitsAreInclusive(id: string, x: real)
    ensures CheckTemperatureLimits(NewElementSensor(id, ElementMaxTemp, ElementMinTemp), Temperature(65.0)) == None
    ensures CheckTemperatureLimits(NewElementSensor(id, ElementMaxTemp, ElementMinTemp), Temperature(-20.0)) == None
    ensures x > 65.0 ==> CheckTemperatureLimits(NewElementSensor(id, ElementMaxTemp, ElementMinTemp), Temperature(x)) == Some(OverTemperature)
    ensures x < -20.0 ==> CheckTemperatureLimits(NewElementSensor(id, ElementMaxTemp, ElementMinTemp), Temperature(x)) == Some(UnderTemperature)
  {
  }
}

=== FILE: servos.dfy ===
/**
 * The servo helpers: the duty-cycle limit check, applying a duty cycle, the
 * angle-to-duty line and the time a move takes.
 *
 * Two copies of the class exist. The model follows the bench-test copy,
 * which also has the `min_duty` and `max_duty` properties and leaves the
 * angle check commented out; the active-components copy calls an undefined
 * `verify_angle` and uses `li` and `math` without importing them. The limits
 * differ too (`high` 0.2, `low` 0.4 in the active-components copy, `high`
 * 1.0, `low` 0.0 in the bench-test one); the record `ServoLimits` carries them.
 */
module Servos {
  import opened Outcomes
  import opened LinearInterpolation

  /** The tested duty-cycle limits of a servo. */
  datatype ServoLimits = ServoLimits(high: real, low: real)

  /** The limits declared on the active-components servo. */
  const ActiveLimits: ServoLimits := ServoLimits(0.2, 0.4)

  /** The limits declared on the bench-test servo. */
  const TestLimits: ServoLimits := ServoLimits(1.0, 0.0)

  /** Degrees per second. */
  const AngularVelocity: real := 90.0

  /** A servo: its limits, its angle-to-duty line and the duty cycle last applied. */
  datatype Servo = Servo(limits: ServoLimits, line: Line, duty: real)

  /** Building a servo: the line through (0, min_duty) and (90, max_duty); the PWM starts at 0. */
  function NewServo(limits: ServoLimits, minDuty: real, maxDuty: real): (s: Servo)
    ensures s.limits == limits && s.duty == 0.0
    ensures s.line.m * 90.0 == maxDuty - minDuty && s.line.b == maxDuty
  {
    Servo(limits, MakeLine(0.0, 90.0, minDuty, maxDuty).value, 0.0)
  }

  /** `high > pwm > low`: limits whose `high` is not above `low` accept nothing. */
  function VerifyPwmWithinLimits(l: ServoLimits, pwm: real): (ok: bool)
    ensures ok ==> l.low < l.high
    ensures ok ==> l.low < pwm < l.high
  {
    l.high > pwm > l.low
  }

  /** `apply_duty`: a duty cycle inside the limits is applied; any other is refused. */
  function ApplyDuty(s: Servo, duty: real): (r: Servo)
    ensures r.limits == s.limits && r.line == s.line
    ensures VerifyPwmWithinLimits(s.limits, duty) ==> r.duty == duty
    ensures !VerifyPwmWithinLimits(s.limits, duty) ==> r == s
  {
    if VerifyPwmWithinLimits(s.limits, duty) then s.(duty := duty) else s
  }

  /** `get_angle_pwm`: the line's value at the angle, rising by the slope for every degree from the intercept. */
  function GetAnglePwm(s: Servo, angle: real): (duty: real)
    ensures duty - s.line.b == s.line.m * angle
  {
    LineAt(s.line, angle)
  }

  function Abs(x: real): real {
    if x < 0.0 then -x else x
  }

  /** `get_time_to_adjust`: how long the move between two angles takes at 90 degrees per second. */
  function GetTimeToAdjust(current: real, target: real): (t: real)
    ensures t >= 0.0
    ensures t * AngularVelocity == Abs(current - target)
  {
    Abs(current - target) / AngularVelocity
  }

  /**
   * With `high` 0.2 below `low` 0.4 no duty cycle is within the limits, so
   * `apply_duty` never changes the active-components servo.
   */
  lemma ActiveLimitsRefuseEveryDuty(s: Servo, pwm: real)
    requires s.limits == ActiveLimits
    ensures !VerifyPwmWithinLimits(ActiveLimits, pwm)
    ensures ApplyDuty(s, pwm) == s
  {
  }

  /** The bench-test limits accept exactly the duty cycles strictly between 0 and 1. */
  lemma TestLimitsAcceptOpenUnitInterval(s: Servo, pwm: real)
    requires s.limits == TestLimits
    ensures VerifyPwmWithinLimits(TestLimits, pwm) <==> 0.0 < pwm < 1.0
    ensures 0.0 < pwm < 1.0 ==> ApplyDuty(s, pwm).duty == pwm
    ensures !(0.0 < pwm < 1.0) ==> ApplyDuty(s, pwm) == s
  {
  }

  /**
   * The move time is symmetric, zero exactly for no move, and adds up along
   * a move that passes through an intermediate angle.
   */
  lemma TimeToAdjustMetric(a: real, b: real, c: real)
    ensures GetTimeToAdjust(a, b) == GetTimeToAdjust(b, a)
    ensures GetTimeToAdjust(a, b) == 0.0 <==> a == b
    ensures a <= b <= c ==> GetTimeToAdjust(a, c) == GetTimeToAdjust(a, b) + GetTimeToAdjust(b, c)
  {
  }

  /**
   * Because the line's intercept is `max_duty`, angle 0 asks for `max_duty`
   * rather than `min_duty`, and angle 90 asks for `2 * max_duty - min_duty`.
   */
  lemma AnglePwmEndpoints(limits: ServoLimits, minDuty: real, maxDuty: real)
    ensures GetAnglePwm(NewServo(limits, minDuty, maxDuty), 0.0) == maxDuty
    ensures GetAnglePwm(NewServo(limits, minDuty, maxDuty), 90.0) == 2.0 * maxDuty - minDuty
    ensures forall a, b :: a < b && minDuty < maxDuty ==>
      GetAnglePwm(NewServo(limits, minDuty, maxDuty), a) < GetAnglePwm(NewServo(limits, minDuty, maxDuty), b)
  {
    var s := NewServo(limits, minDuty, maxDuty);
    forall a, b | a < b && minDuty < maxDuty
      ensures GetAnglePwm(s, a) < GetAnglePwm(s, b)
    {
      LineAffine(s.line, b, a);
      assert s.line.m > 0.0;
      assert s.line.m * (b - a) > 0.0;
    }
  }
}

=== FILE: systemevents.dfy ===
/**
 * The events the command handler dispatches and what each one's `action`
 * does to the controller state.
 *
 * A register event holds the damper of one room and a target event holds the
 * sensor of one room; both are looked up when the event is built, so the
 * room is always one the system has. The model stores the room id instead.
 */
module SystemEvents {
  import opened Outcomes
  import opened PyDict
  import opened DataClasses
  import opened SystemState

  datatype Event =
    | SystemStart
    | SystemStop
    | SystemOperationModeTest
    | SystemOperationModeAuto
    | SystemOperationModeExtreme
    | RegisterOpen(room: int)
    | RegisterClose(room: int)
    | RegisterRotate(room: int, angle: real)
    | RegisterPwm(room: int, pwm: real)
    | TemperatureTargetUpdated(room: int, newTarget: Temperature)

  /** The system events and the servo base event do not override the inherited no-op `action`. */
  predicate IsSystemEvent(e: Event) {
    e.SystemStart? || e.SystemStop? || e.SystemOperationModeTest?
      || e.SystemOperationModeAuto? || e.SystemOperationModeExtreme?
  }

  /** Record a new command for a room's damper. */
  function SetDamper(s: State, room: int, pos: DamperPos): (r: State)
    ensures r.element == s.element && r.targets == s.targets && r.mode == s.mode
    ensures r.updateInterval == s.updateInterval
    ensures room in Keys(s.dampers) ==> Get(r.dampers, room) == Some(pos) && Keys(r.dampers) == Keys(s.dampers)
    ensures room !in Keys(s.dampers) ==> r == s
  {
    if room in Keys(s.dampers) then
      GetPut(s.dampers, room, pos, room);
      s.(dampers := Put(s.dampers, room, pos))
    else s
  }

  /** Give a room a new target temperature. */
  function SetTarget(s: State, room: int, t: Temperature): (r: State)
    ensures r.element == s.element && r.dampers == s.dampers && r.mode == s.mode
    ensures r.updateInterval == s.updateInterval
    ensures room in Keys(s.targets) ==> Get(r.targets, room) == Some(t) && Keys(r.targets) == Keys(s.targets)
    ensures room !in Keys(s.targets) ==> r == s
  {
    if room in Keys(s.targets) then
      GetPut(s.targets, room, t, room);
      s.(targets := Put(s.targets, room, t))
    else s
  }

  /**
   * The effect of one event's `action` on the state. No event touches the
   * element, the mode, the period or the set of rooms; only a target event
   * changes a target and only a register event changes a damper.
   */
  function Action(s: State, e: Event): (r: State)
    ensures r.element == s.element && r.mode == s.mode && r.updateInterval == s.updateInterval
    ensures Keys(r.dampers) == Keys(s.dampers) && Keys(r.targets) == Keys(s.targets)
    ensures !e.TemperatureTargetUpdated? ==> r.targets == s.targets
    ensures e.TemperatureTargetUpdated? || IsSystemEvent(e) ==> r.dampers == s.dampers
  {
    match e
    case RegisterOpen(room) => SetDamper(s, room, Opened)
    case RegisterClose(room) => SetDamper(s, room, Closed)
    case RegisterRotate(room, angle) => SetDamper(s, room, Rotated(angle))
    case RegisterPwm(room, pwm) => SetDamper(s, room, DutyApplied(pwm))
    case TemperatureTargetUpdated(room, t) => SetTarget(s, room, t)
    case _ => s
  }

  /**
   * Run the actions of `es` in order: the element, mode and period survive
   * any sequence, and no room's damper or target entry is added or removed.
   */
  function RunAll(s: State, es: seq<Event>): (r: State)
    ensures r.element == s.element && r.mode == s.mode && r.updateInterval == s.updateInterval
    ensures |r.dampers| == |s.dampers| && |r.targets| == |s.targets|
    decreases |es|
  {
    if |es| == 0 then s else RunAll(Action(s, es[0]), es[1..])
  }

  /** Any sequence of events keeps the rooms that have a damper and those that have a target. */
  lemma {:induction false} RunAllKeepsRooms(s: State, es: seq<Event>)
    ensures Keys(RunAll(s, es).dampers) == Keys(s.dampers)
    ensures Keys(RunAll(s, es).targets) == Keys(s.targets)
    decreases |es|
  {
    if |es| > 0 {
      RunAllKeepsRooms(Action(s, es[0]), es[1..]);
    }
  }

  lemma {:induction false} RunAllAppend(s: State, es: seq<Event>, e: Event)
    ensures RunAll(s, es + [e]) == Action(RunAll(s, es), e)
    decreases |es|
  {
    if |es| == 0 {
      assert es + [e] == [e];
      assert [e][1..] == [];
    } else {
      assert (es + [e])[1..] == es[1..] + [e];
      RunAllAppend(Action(s, es[0]), es[1..], e);
    }
  }

  lemma {:induction false} RunAllConcat(s: State, es: seq<Event>, fs: seq<Event>)
    ensures RunAll(s, es + fs) == RunAll(RunAll(s, es), fs)
    decreases |es|
  {
    if |es| == 0 {
      assert es + fs == fs;
    } else {
      assert (es + fs)[1..] == es[1..] + fs;
      RunAllConcat(Action(s, es[0]), es[1..], fs);
    }
  }

  /** A damper event changes exactly its own room's damper entry and nothing else. */
  lemma RegisterEventsTouchOnlyTheirRoom(s: State, e: Event, other: int)
    requires e.RegisterOpen? || e.RegisterClose? || e.RegisterRotate? || e.RegisterPwm?
    requires e.room in Keys(s.dampers) && other != e.room
    ensures Get(Action(s, e).dampers, e.room) == Some(
      match e
      case RegisterOpen(_) => Opened
      case RegisterClose(_) => Closed
      case RegisterRotate(_, a) => Rotated(a)
      case RegisterPwm(_, p) => DutyApplied(p)
      case _ => Closed)
    ensures Get(Action(s, e).dampers, other) == Get(s.dampers, other)
    ensures Action(s, e).element == s.element && Action(s, e).targets == s.targets
    ensures Action(s, e).mode == s.mode
  {
    var pos := match e
      case RegisterOpen(_) => Opened
      case RegisterClose(_) => Closed
      case RegisterRotate(_, a) => Rotated(a)
      case RegisterPwm(_, p) => DutyApplied(p);
    GetPut(s.dampers, e.room, pos, other);
  }

  /** A target update sets that room's target and leaves every other room's alone. */
  lemma TargetUpdateTouchesOnlyItsRoom(s: State, room: int, t: Temperature, other: int)
    requires room in Keys(s.targets) && other != room
    ensures Get(Action(s, TemperatureTargetUpdated(room, t)).targets, room) == Some(t)
    ensures Get(Action(s, TemperatureTargetUpdated(room, t)).targets, other) == Get(s.targets, other)
    ensures Action(s, TemperatureTargetUpdated(room, t)).dampers == s.dampers
    ensures Action(s, TemperatureTargetUpdated(room, t)).element == s.element
  {
    TargetUpdateIsSetTarget(s, TemperatureTargetUpdated(room, t));
    GetPut(s.targets, room, t, other);
  }

  lemma TargetUpdateIsSetTarget(s: State, e: Event)
    requires e.TemperatureTargetUpdated?
    ensures Action(s, e) == SetTarget(s, e.room, e.newTarget)
  {
  }

  /** System events change nothing. */
  lemma SystemEventsAreNoOps(s: State, e: Event)
    requires IsSystemEvent(e)
    ensures Action(s, e) == s
  {
  }

  lemma RunAllTwo(s: State, a: Event, b: Event)
    ensures RunAll(s, [a, b]) == Action(Action(s, a), b)
  {
    assert [a, b][1..] == [b];
    assert RunAll(s, [a, b]) == RunAll(Action(s, a), [b]);
    assert [b][1..] == [];
    assert RunAll(Action(s, a), [b]) == RunAll(Action(Action(s, a), b), []);
  }

  /** A register command followed by a second one for the same room leaves the second command's position. */
  lemma SecondDamperCommandWins(s: State, room: int, first: DamperPos, second: DamperPos)
    requires room in Keys(s.dampers)
    ensures Get(SetDamper(SetDamper(s, room, first), room, second).dampers, room) == Some(second)
  {
    assert room in Keys(SetDamper(s, room, first).dampers);
  }

  /** Two register commands for one room, run in order: the second one's position stays. */
  lemma TwoDamperCommands(s: State, room: int, a: Event, b: Event, pa: DamperPos, pb: DamperPos)
    requires room in Keys(s.dampers)
    requires (a == RegisterOpen(room) && pa == Opened) || (a == RegisterClose(room) && pa == Closed)
    requires (b == RegisterOpen(room) && pb == Opened) || (b == RegisterClose(room) && pb == Closed)
    ensures Get(RunAll(s, [a, b]).dampers, room) == Some(pb)
  {
    RunAllTwo(s, a, b);
    var s1 := Action(s, a);
    assert s1 == SetDamper(s, room, pa);
    var s2 := Action(s1, b);
    assert s2 == SetDamper(s1, room, pb);
    SecondDamperCommandWins(s, room, pa, pb);
  }

  /** Queued one after the other, the later of Close and Open decides the register's position. */
  lemma LastDamperCommandWins(s: State, room: int)
    requires room in Keys(s.dampers)
    ensures Get(RunAll(s, [RegisterClose(room), RegisterOpen(room)]).dampers, room) == Some(Opened)
    ensures Get(RunAll(s, [RegisterOpen(room), RegisterClose(room)]).dampers, room) == Some(Closed)
  {
    TwoDamperCommands(s, room, RegisterClose(room), RegisterOpen(room), Closed, Opened);
    TwoDamperCommands(s, room, RegisterOpen(room), RegisterClose(room), Opened, Closed);
  }
}

=== FILE: systemstate.dfy ===
/**
 * The controller's state record: what the main system object holds between
 * cycles.
 */
module SystemState {
  import opened Outcomes
  import opened PyDict
  import opened DataClasses
  import opened ActiveComponents

  /** The controller's operating mode. */
  datatype Mode = Auto | Test | Extreme

  /** The last command a room's register (damper) received. */
  datatype DamperPos = Closed | Opened | Rotated(angle: real) | DutyApplied(pwm: real)

  /**
   * The element, each room's damper and target temperature keyed by room id
   * (in insertion order), the mode and the cycle period in seconds.
   */
  datatype State = State(
    element: Element,
    dampers: Dict<int, DamperPos>,
    targets: Dict<int, Temperature>,
    mode: Mode,
    updateInterval: real)

  /** The cycle period, 0.2 seconds. */
  const SystemUpdateInterval: real := 0.2

  /** The three rooms 0, 1 and 2. */
  const RoomIds: seq<int> := [0, 1, 2]

  /** The dict `{0: vs[0], 1: vs[1], 2: vs[2]}`, one entry per room. */
  function RoomDict<V>(vs: seq<V>): (d: Dict<int, V>)
    requires |vs| == |RoomIds|
    ensures Keys(d) == RoomIds && Distinct(d)
    ensures forall i :: 0 <= i < |RoomIds| ==> Get(d, RoomIds[i]) == Some(vs[i])
  {
    [(0, vs[0]), (1, vs[1]), (2, vs[2])]
  }

  /**
   * The system after construction: every room has a damper (at 90 degrees)
   * and a target, the mode is auto, and the element is heating and enabled
   * only when asked to be.
   */
  function NewState(defaultEnabled: bool, roomTargets: seq<Temperature>, pins: Pins): (s: State)
    requires |roomTargets| == |RoomIds|
    ensures Keys(s.dampers) == RoomIds && Keys(s.targets) == RoomIds
    ensures Distinct(s.dampers) && Distinct(s.targets)
    ensures s.mode == Auto && s.updateInterval == SystemUpdateInterval
    ensures Heating(s.element) && s.element.enabled == defaultEnabled
    ensures s.element.pins == Pins(defaultEnabled, false)
    ensures forall i :: 0 <= i < |RoomIds| ==>
      Get(s.targets, RoomIds[i]) == Some(roomTargets[i]) && Get(s.dampers, RoomIds[i]) == Some(Rotated(90.0))
  {
    var e := NewElement(true, pins);
    var e' := if defaultEnabled then ApplyState(SetEnabled(e, true)) else e;
    State(
      e',
      RoomDict([Rotated(90.0), Rotated(90.0), Rotated(90.0)]),
      RoomDict(roomTargets),
      Auto,
      SystemUpdateInterval)
  }
}
